=== FILE: README.md ===
# tutor-app core, modelled in Dafny

This project models the core logic of tutor-app, a home-tutoring marketplace. It has a Node/Express + Socket.io backend and a React frontend. Every part is an immutable state with pure transition functions that return the new state and the events or replies they emit. The parts modelled are:

- **Socket server.** The `users` registry and the Socket.io handlers for join, chat relay, typing, read receipts, call signalling and disconnect.
- **Client call machine.** The `callStatus` states idle, calling, incoming and connected, and the signalling messages the client sends. It is modelled twice: as written, where every status change adds a set of socket listeners that is never removed, and as the one-listener machine the handlers intend.
- **Chat client.** The conversation-list upsert and its unread counters, presence, thread routing, the send guard and the conversation filter.
- **Booking and payment lifecycle.** Create, verify-payment, demo completion and cancel, the invariant "no teacher has two active bookings in one slot", and the booking dialog's pricing and step gating.
- **Teacher analytics and the dashboard calendar.**
- **Teacher search.** The query built from the query string, the distance cut-off and ordering, and the stable "promoted first" ordering. Also the search page's parameter cleaning, clear-all and location actions.
- **Teacher profile routes.** The profile update, which drops six sensitive top-level fields but lets update operators through (see Findings), and the photo and video uploads.
- **Auth routes.** The registration validation pipeline and the login lookup order.
- **Teacher registration page.** Comma lists, form entries, the address editor and the step indicator.
- **Small widgets.** Profile completion, the call timer and `mm:ss` format, the star rating and the notification bell.

The following become parameters of the model instead of code:

- external effects: database writes, payment orders, media setup and API calls, each given as an outcome;
- opaque helpers: the validators in `utils/validation`, `bcrypt.compare`, `parseFloat`, the regex text search, `calculateDistance`, and the number formatting of a query string;
- the clock and the date of "today".

Distances, rates and coordinates are integers. Days are (year, month, day) triples. The shared helpers live in `common.dfy` (option, filter, count, sum, find-index), `text.dfy` (trim, ASCII lower-case, split/join, decimal digits, padding, lexicographic order), `sorting.dfy` (a stable insertion sort and the promoted-first partition) and `dates.dfy`.

The server keeps no call sessions, so a disconnect does not end a call. A repeated read receipt emits `message-read` again each time.

## Model

| member | source | states |
|---|---|---|
| SocketServer.Bind | backend/server.js:85 | `users.set` keeps user ids distinct, binds the user to the socket, and keeps every other binding; the size grows only for a new user |
| SocketServer.BindLookups | backend/server.js:85 | after `set(u, s)`, `get(u)` is `s` and `get(v)` is unchanged for every other user |
| SocketServer.LookupFinds | backend/server.js:85 | in a registry with distinct users, a stored binding is what `get` returns |
| SocketServer.OnJoin | backend/server.js:91-98 | join rebinds the user to the calling socket (last join wins), keeps other users' bindings, and broadcasts `user-online` to all other sockets |
| SocketServer.NewMessage | backend/server.js:105-113 | the stored message is unread, its messageType defaults to 'text', and sender/receiver/text are copied from the payload (senderId trusted) |
| SocketServer.OnSendMessage | backend/server.js:101-132 | on success the message is appended, the receiver gets `receive-message` only if registered, and the sender always gets `message-sent`; if create or populate fails, only `message-error` goes to the sender; the registry never changes |
| SocketServer.RelayTo | backend/server.js:135-150 | an event reaches the recipient's socket exactly when the recipient is registered, and is dropped otherwise |
| SocketServer.TypingIsForwardedUnchanged | backend/server.js:135-150 | typing and stop-typing forward the payload unchanged to a registered receiver and change no state |
| SocketServer.MarkRead | backend/server.js:153-157 | a read receipt sets `read` on that message only |
| SocketServer.OnReadReceipt | backend/server.js:153-167 | after the update, `message-read {messageId}` goes to the sender only if registered; a failed update changes and emits nothing |
| SocketServer.ReadReceiptIdempotent | backend/server.js:153-163 | repeating a read receipt leaves the log as the first left it, and emits the notification again |
| SocketServer.CallEventsAreRelays | backend/server.js:170-221 | the five call events change no state and are relayed only to the registered target; incoming-call carries the offer as both offer and signal |
| SocketServer.OnDisconnect | backend/server.js:224-236 | disconnect removes the first binding to the closing socket, in insertion order, and emits one `user-offline` for it; an unknown socket changes nothing |
| SocketServer.DisconnectRemovesAtMostOne | backend/server.js:228-234 | a disconnect removes at most one binding, and the removed user is no longer registered |
| SocketServer.StaleDisconnectIsNoOp | backend/server.js:224-236 | after a reconnect on a new socket, the old socket's disconnect removes nothing and emits nothing |
| SocketServer.Handle | backend/server.js:88-236 | only join and disconnect touch the registry; the registry keeps user ids distinct; messages are only appended or marked read |
| SocketServer.Run | backend/server.js:88-236 | over any event sequence the registry stays well-formed and the log only evolves by appends and reads |
| SocketServer.LogEvolvesTransitive | backend/server.js:101-167 | the allowed log changes compose |
| SocketServer.ChatScenario | backend/server.js:91-127 | two users join and one sends: the receiver gets the message and the sender the confirmation |
| SocketServer.CallScenario | backend/server.js:170-195 | a call offer and its answer each reach the other party's socket |
| CallClient.OnIncomingCall | frontend/src/context/CallContext.js:23-37 | an incoming call is ignored unless idle; otherwise status becomes incoming with from, name and offer recorded |
| CallClient.OnCallAccepted | frontend/src/context/CallContext.js:39-47 | corrected (one listener per event): call-accepted moves calling to connected and is ignored in every other status |
| CallClient.OnCallRejectedOrEnded | frontend/src/context/CallContext.js:49-62 | corrected (one listener per event): call-rejected and call-ended both run endCall: idle, no call, and one end-call sent to a recorded peer |
| CallClient.AppliesRemoteCandidate | frontend/src/context/CallContext.js:54-58 | a remote ICE candidate is applied exactly when a peer connection exists |
| CallClient.StartCall | frontend/src/context/CallContext.js:72-100 | startCall goes to calling with an outgoing call and sends call-user with the offer; a media failure runs endCall |
| CallClient.AcceptCall | frontend/src/context/CallContext.js:102-128 | acceptCall goes to connected before media work and answers the caller; a media failure, no recorded call, or a call record without an offer (an outgoing one) runs endCall |
| CallClient.RejectCall | frontend/src/context/CallContext.js:130-133 | rejectCall sends reject-call, then end-call to the same caller, and resets to idle |
| CallClient.EndCall | frontend/src/context/CallContext.js:135-151 | endCall always leaves status idle with no call, and sends end-call exactly when a call with otherUser was recorded |
| CallClient.EndingEventsReachIdle | frontend/src/context/CallContext.js:49-151 | rejection, remote end, hang-up and failed start or accept all end in the idle state |
| CallClient.Apply | frontend/src/context/CallContext.js:23-151 | corrected (one listener per event): every transition keeps the invariant that a call is recorded exactly when not idle and a peer exists only during a call |
| CallClient.Run | frontend/src/context/CallContext.js:23-151 | corrected (one listener per event): the invariant holds over any event sequence |
| CallClient.LocalCandidate | frontend/src/context/CallContext.js:161-167 | as written, a local candidate goes to the participant of the `call` the handler captured when the peer was created |
| CallClient.CallerCandidatesDropped | frontend/src/context/CallContext.js:72-100 | a caller starting from idle never sends its ICE candidates |
| CallClient.LocalCandidateIntended | frontend/src/context/CallContext.js:161-167 | corrected: a candidate is sent exactly when a peer and a call exist, to the current call's participant |
| CallClient.CallerCandidatesSentWhenIntended | frontend/src/context/CallContext.js:72-100 | with the corrected handler the caller's candidates reach the callee |
| CallClient.CalleeCandidatesSent | frontend/src/context/CallContext.js:102-128 | the callee's candidates reach the caller even as written |
| CallClient.BothSidesConnect | frontend/src/context/CallContext.js:72-128 | caller and callee both end connected after offer, accept and answer |
| CallListeners.Render | frontend/src/context/CallContext.js:20-70 | the effect adds one listener set, closed over the rendered status and call, exactly when the status changed, and never removes one |
| CallListeners.Listen | frontend/src/context/CallContext.js:23-62 | one listener set guards on the status it captured, not the current one, and its endCall reports the call it captured |
| CallListeners.EndMessages | frontend/src/context/CallContext.js:49-62 | a rejection or end sends one end-call per listener set that captured a call, and some message exactly when some set did |
| CallListeners.RunListeners | frontend/src/context/CallContext.js:20-70 | all sets handle each event: an incoming call is taken whenever some set captured idle, call-accepted connects whenever some set captured calling, in any current status |
| CallListeners.Deliver | frontend/src/context/CallContext.js:20-70 | a socket event runs every registered set and keeps all of them registered |
| CallListeners.Act | frontend/src/context/CallContext.js:72-151 | user actions act on the current state; startCall first registers a set that captured calling |
| CallListeners.OneListenerIsTheMachine | frontend/src/context/CallContext.js:20-70 | with one set closed over the current state, delivery is exactly the one-listener machine |
| CallListeners.MountSetStays | frontend/src/context/CallContext.js:20-70 | the set registered at mount, which captured idle, stays registered |
| CallListeners.BusyCallReplaced | frontend/src/context/CallContext.js:23-37 | as written, an incoming call is taken in any status: the new caller replaces the recorded call |
| CallListeners.ConnectedCallReplaced | frontend/src/context/CallContext.js:23-47 | a connected call is replaced by a third user's incoming call, while the one-listener machine keeps it |
| CallListeners.StaleAcceptBreaksInvariant | frontend/src/context/CallContext.js:39-47 | after a failed start, a stray call-accepted moves an idle client to connected with no call |
| CallListeners.EndedIsAnswered | frontend/src/context/CallContext.js:49-62 | once a set captured a call, every end-call or rejection received is answered with end-call again, and the client still remembers the call; since the server relays every end-call, two such clients would keep answering each other, which is a consequence and not itself proved |
| CallListeners.EndedOnceIsQuiet | frontend/src/context/CallContext.js:49-62 | the one-listener machine answers at most once, and a second end-call sends nothing |
| CallView.ClockFields | frontend/src/components/CallManager.js:32-36 | the display holds at least two minute digits, a colon and exactly two seconds digits, each zero-padded field reading back as its number |
| CallView.ClockParses | frontend/src/components/CallManager.js:32-36 | `mm:ss` made from m minutes and s < 60 seconds reads back as m·60 + s |
| CallView.FormatTimeRoundTrip | frontend/src/components/CallManager.js:32-36 | reading the display back gives the elapsed seconds, and the two digits after the colon are below 60 |
| CallView.ParseTimeFields | frontend/src/components/CallManager.js:32-36 | an `mm:ss` string of digit fields with two seconds digits reads back as minutes·60 + seconds |
| CallView.TimerStep | frontend/src/components/CallManager.js:20-30 | a tick counts only while connected; any other status resets the duration to 0 |
| CallView.TimerRunKeepsReset | frontend/src/components/CallManager.js:20-30 | outside a connected call the duration stays 0 over any event sequence |
| CallView.TimerCountsTicks | frontend/src/components/CallManager.js:20-30 | entering connected and receiving k ticks shows k seconds |
| CallView.TicksFromConnected | frontend/src/components/CallManager.js:20-30 | k ticks while connected add exactly k seconds |
| CallView.ViewOf | frontend/src/components/CallManager.js:47-84 | nothing is rendered exactly when idle; any other status without a recorded call throws on `call.otherUser.name`; otherwise the incoming modal appears exactly when incoming, the label is 'Calling...' exactly when calling, and the timer appears exactly when connected and reads back as the duration |
| CallView.ConsistentNeverCrashes | frontend/src/components/CallManager.js:47-84 | a state that keeps the call machine's invariant always renders |
| CallView.StaleAcceptCrashesOverlay | frontend/src/components/CallManager.js:47-84 | as written, the connected-without-call state that a stray call-accepted reaches makes the overlay's render throw |
| CallView.ToggleMute | frontend/src/components/CallManager.js:38-45 | the muted flag flips exactly when a local stream exists |
| ChatTypes.IdOf | frontend/src/components/ChatWindow.js:103 | `ref._id \|\| ref`: a populated reference denotes its user's id, a bare reference the id itself |
| ChatPage.Counterpart | frontend/src/pages/ChatPage.js:100-102 | the counterpart is the receiver when I sent the message, otherwise the sender |
| ChatPage.UpdateConversationList | frontend/src/pages/ChatPage.js:98-138 | an existing conversation moves to the front with the new last message, the length is kept and the others keep their order; otherwise the sender is prepended with one unread message only when populated, and a bare id leaves the list unchanged |
| ChatPage.UpdateUnreadTotal | frontend/src/pages/ChatPage.js:115-117 | the unread total grows by exactly one iff the message is from neither me nor the selected user and its conversation exists or is created |
| ChatPage.UpdateKeepsUsersDistinct | frontend/src/pages/ChatPage.js:98-138 | a received message keeps one conversation per counterpart |
| ChatPage.ReceivedPreviewMislabelled | frontend/src/pages/ChatPage.js:121-127 | a received message from the other user, delivered populated, makes the as-written preview read "You: " |
| ChatPage.OnUserOnline | frontend/src/pages/ChatPage.js:27-29 | user-online appends the id, duplicates included |
| ChatPage.OnUserOffline | frontend/src/pages/ChatPage.js:30-33 | user-offline removes every occurrence of the id |
| ChatPage.OfflineRemovesOnlyThatId | frontend/src/pages/ChatPage.js:30-33 | every other id keeps its presence and the order of the list is kept |
| ChatPage.OfflineAfterRepeatedOnline | frontend/src/pages/ChatPage.js:27-33 | joining twice and leaving once still leaves the user offline |
| ChatPage.OnReceiveMessage | frontend/src/pages/ChatPage.js:36-49 | a message is appended to the open thread and marked read only when it comes from the selected user; the conversation list is updated in every case |
| ChatPage.OpenThreadMessagesAreRead | frontend/src/pages/ChatPage.js:40-44 | a message from the open thread never raises an unread counter |
| ChatPage.OnTyping | frontend/src/pages/ChatPage.js:52-62 | only the selected user's typing indicator is shown |
| ChatPage.ZeroUnread | frontend/src/pages/ChatPage.js:150-153 | selecting zeroes that conversation's counter and leaves every other conversation unchanged |
| ChatPage.ZeroUnreadTotal | frontend/src/pages/ChatPage.js:150-153 | with distinct counterparts, the total falls by exactly that conversation's count |
| ChatPage.SelectUser | frontend/src/pages/ChatPage.js:140-158 | selecting clears typing at once; a fetched thread replaces the messages; the counters reset only when the fetch succeeded |
| ChatPage.ReceiverType | frontend/src/pages/ChatPage.js:166 | receiverType is 'User' exactly when the selected role is 'student', else 'Teacher' |
| ChatPage.SendMessage | frontend/src/pages/ChatPage.js:160-180 | nothing is sent without a selected user; a saved message is appended and relayed, and a failed save changes nothing |
| ChatPage.TypingTarget | frontend/src/pages/ChatPage.js:188-196 | the typing notice goes to the selected user, and only when one is selected |
| ChatWindow.HandleSend | frontend/src/components/ChatWindow.js:27-33 | a blank or whitespace-only draft is not sent and is kept; otherwise it is sent verbatim and the draft is reset to '' |
| ChatWindow.SentIsNeverBlank | frontend/src/components/ChatWindow.js:27-30 | whatever is sent has a non-whitespace character |
| ChatWindow.HandleKeyDown | frontend/src/components/ChatWindow.js:35-41 | Enter without Shift attempts a send; every key press signals typing |
| ChatWindow.SendDisabled | frontend/src/components/ChatWindow.js:134 | the send button is disabled exactly when the trimmed draft is empty |
| ChatWindow.DisabledIffNothingSent | frontend/src/components/ChatWindow.js:27-33 | the button is disabled exactly when pressing it would send nothing |
| ChatWindow.IsOwn | frontend/src/components/ChatWindow.js:103 | a message is own iff its sender id, populated or bare, is the current user's |
| ConversationList.Visible | frontend/src/components/ConversationList.js:8-10 | only conversations whose name contains the term, case-insensitively, are shown |
| ConversationList.VisibleExactly | frontend/src/components/ConversationList.js:8-10 | a conversation is shown iff it matches, and the shown list is an order-preserving subsequence |
| ConversationList.EmptySearchShowsAll | frontend/src/components/ConversationList.js:8-10 | an empty term shows every conversation |
| ConversationList.SearchIgnoresTermCase | frontend/src/components/ConversationList.js:8-10 | terms equal up to ASCII case show the same list |
| ConversationList.IsOnline | frontend/src/components/ConversationList.js:35 | a row is online iff its user id is among the online users |
| ConversationList.IsSelected | frontend/src/components/ConversationList.js:36 | a row is selected iff a user is selected and has the row's id |
| ConversationList.PreviewPrefix | frontend/src/components/ConversationList.js:77 | as written: a populated senderId always gives "You: "; a bare id gives "" iff it is the counterpart's id |
| ConversationList.PreviewPrefixIntended | frontend/src/components/ConversationList.js:77 | corrected: "You: " exactly when the counterpart did not send the last message |
| ConversationList.PreviewPrefixesAgreeOnRawIds | frontend/src/components/ConversationList.js:77 | the two prefixes differ exactly on messages from the counterpart with a populated sender |
| ConversationList.ShowsBadge | frontend/src/components/ConversationList.js:80 | the badge shows only for a non-zero unread count |
| ConversationList.RowOf | frontend/src/components/ConversationList.js:35-85 | a row is online iff its user is among the online ids, selected iff it is the selected user, shows the count exactly when it is positive, and its preview uses the corrected prefix |
| Bookings.OrderAmount | backend/routes/bookings.js:77 | the order amount is the rupee amount in paise: divisible by 100, quotient the amount |
| Bookings.NewBooking | backend/routes/bookings.js:95-112 | a new booking is pending, payment held for a demo and pending otherwise, duration defaulting to 60, in the requested slot |
| Bookings.Create | backend/routes/bookings.js:18-135 | 403 for non-students, 400 without all seven fields, 404 for an unknown teacher, 400 on a slot conflict; a valid conflict-free request asks for an order of the amount in paise, and then either answers 500 storing nothing or answers 201 and appends the new pending booking; the store grows only on 201 |
| Bookings.CreateKeepsSlotsSingle | backend/routes/bookings.js:57-70 | creation never puts a second active booking into an occupied slot; cancelled and completed bookings never block |
| Bookings.VerifyPayment | backend/routes/bookings.js:140-190 | any stored booking is confirmed, with payment held for a demo and released otherwise, whatever its prior status; 404 otherwise |
| Bookings.VerifyPaymentCanDoubleBook | backend/routes/bookings.js:165-175 | confirming a cancelled booking reactivates it and can put two active bookings in one slot |
| Bookings.DemoNoticeInput | backend/routes/bookings.js:332-341 | the teacher's notice has type 'success' if satisfactory, else 'error', and names the booking |
| Bookings.CompleteDemo | backend/routes/bookings.js:266-358 | students only, own bookings only, demos only; satisfactory gives released/completed, otherwise refunded/cancelled, and demoCompleted is set either way |
| Bookings.ReevaluationReleasesRefundedDemo | backend/routes/bookings.js:266-318 | a second evaluation overrides the first: a refunded demo can be released |
| Bookings.Cancel | backend/routes/bookings.js:363-424 | only a party may cancel, never a completed or cancelled booking; a held or released payment is refunded and a pending one stays pending |
| Bookings.CancelAndDemoKeepSlotsSingle | backend/routes/bookings.js:266-424 | cancelling and completing demos keep at most one active booking per slot |
| Bookings.FreeingKeepsSlotsSingle | backend/routes/bookings.js:383-397 | deactivating bookings never creates a double booking |
| Bookings.View | backend/routes/bookings.js:227-261 | a booking is shown only to its own student or teacher; 404 and 403 otherwise |
| Bookings.ListFor | backend/routes/bookings.js:195-222 | a student or teacher lists exactly their own bookings, newest first (the stored order reversed); other roles get none |
| Bookings.OwnNewestFirst | backend/routes/bookings.js:200-208 | the reversed filter holds exactly the matching bookings, in reverse creation order |
| Notification.Create | backend/models/Notification.js:4-28 | a document is saved iff it has a recipient and a non-empty message; type defaults to 'info' and read to false; relatedBookingId is optional |
| Notification.DefaultsOfMinimalNotice | backend/models/Notification.js:13-20 | a notice with only the required fields is an unread 'info' notice |
| BookingModal.CalculateAmount | frontend/src/components/BookingModal.js:33-37 | a demo costs 500; an exam costs the exam rate, or 10000 when it is missing or 0; anything else costs the monthly rate |
| BookingModal.DayName | frontend/src/components/BookingModal.js:25-26 | a valid date has an English weekday name |
| BookingModal.AvailableSlots | frontend/src/components/BookingModal.js:23-31 | no date offers no slots; otherwise the slots of the first entry for that weekday, or none |
| BookingModal.FirstEntryWins | frontend/src/components/BookingModal.js:27-30 | when several entries name the weekday, the first one's slots are offered |
| BookingModal.OnDateChange | frontend/src/components/BookingModal.js:177 | changing the date clears the chosen slot |
| BookingModal.DateChangeBlocksNext | frontend/src/components/BookingModal.js:177-208 | after a date change, Next stays disabled until a slot is picked |
| BookingModal.OnSlotClick | frontend/src/components/BookingModal.js:191 | picking a slot records its start time and keeps the chosen date |
| BookingModal.HandleNext | frontend/src/components/BookingModal.js:20 | Next advances the step by one and changes nothing else |
| BookingModal.HandleBack | frontend/src/components/BookingModal.js:21 | Back moves the step back by one and changes nothing else |
| BookingModal.NextEnabled | frontend/src/components/BookingModal.js:208 | step-2 Next is enabled exactly with both a date and a slot |
| BookingModal.BackUndoesNext | frontend/src/components/BookingModal.js:20-21 | Back after Next returns to the same state |
| BookingModal.BookingRequest | frontend/src/components/BookingModal.js:45-55 | the posted request carries the calculated amount, the chosen date and slot, and no duration |
| BookingModal.GatedRequestIsComplete | frontend/src/components/BookingModal.js:45-55 | a request made past the step-2 gate has every field the create route requires, and gets the default 60-minute duration |
| BookingModal.CheckoutAmount | frontend/src/components/BookingModal.js:65 | the checkout amount is booking.amount in paise |
| BookingModal.CheckoutMatchesOrder | frontend/src/components/BookingModal.js:65 | the checkout charges exactly the order the create route requested |
| Analytics.TotalEarnings | backend/routes/analytics.js:18-33 | a teacher without any released, confirmed or completed booking has total 0 |
| Analytics.ReleasedIsEarning | backend/routes/analytics.js:18-33 | for a well-formed booking, counting released payments of confirmed or completed bookings is counting released payments |
| Analytics.TotalEarningsAppend | backend/routes/analytics.js:18-33 | a booking adds its amount to totalEarnings exactly when it counts |
| Analytics.AddToGroup | backend/routes/analytics.js:46-53 | adding a booking to its month's group changes only that month's sum |
| Analytics.GroupByMonth | backend/routes/analytics.js:39-57 | each month's group holds the sum of that month's matched amounts, and a month without bookings has 0 |
| Analytics.ChartPointFor | backend/routes/analytics.js:61-72 | a bar `back` months before today's month carries that month's released earnings since six months ago |
| Analytics.ChartData | backend/routes/analytics.js:60-73 | chartData has exactly 6 consecutive months, oldest first and the current month last |
| Analytics.EmptyMonthIsZero | backend/routes/analytics.js:68-72 | a month with no matching booking shows 0 |
| Analytics.UpcomingCount | backend/routes/analytics.js:76-80 | the upcoming count is the number of the teacher's confirmed bookings scheduled later |
| Analytics.TeacherStats | backend/routes/analytics.js:11-89 | corrected (month arithmetic of Dates.MonthsBefore): non-teachers get 403; teachers get the total, the six-month chart of consecutive months with each month's earnings, and the upcoming count |
| Analytics.MonthEndChartRepeatsMonth | backend/routes/analytics.js:60-64 | as written, on 31 March the bar one month back is labelled March again, where the month arithmetic gives February |
| Dates.MonthOf | backend/routes/analytics.js:63 | a month index denotes a valid month |
| Dates.MonthsBefore | backend/routes/analytics.js:36-37 | corrected `setMonth(getMonth() - k)`: k months back in the month index, day kept |
| Dates.DaysIn | backend/routes/analytics.js:62 | a month has 28 to 31 days, 29 exactly for February of a leap year |
| Dates.SetMonthBack | backend/routes/analytics.js:62 | as written `setMonth`: a day that fits the target month is kept there; a later day rolls into the following month |
| Dates.OnOrAfterMonth | backend/routes/analytics.js:44 | a later day lies in the same or a later month |
| Dates.Weekday | frontend/src/components/BookingModal.js:25 | getDay is a weekday number 0..6 |
| DashboardCalendar.HasBooking | frontend/src/components/DashboardCalendar.js:10-20 | a day has a dot iff some confirmed booking falls on its day, month and year |
| DashboardCalendar.BookingsForDate | frontend/src/components/DashboardCalendar.js:23-33 | only confirmed bookings of that day are listed |
| DashboardCalendar.DotIffListed | frontend/src/components/DashboardCalendar.js:10-33 | a dot appears iff the list is non-empty, the list is an order-preserving subsequence, and every confirmed booking of the day is in it |
| DashboardCalendar.Title | frontend/src/components/DashboardCalendar.js:70 | the title is 'Demo Class' for demos, else the subject plus ' Class' |
| TeacherRoutes.TextFilter | backend/routes/teachers.js:43-55 | a string filter is present iff its parameter is truthy |
| TeacherRoutes.NumFilter | backend/routes/teachers.js:58-72 | a numeric filter is present iff its parameter is truthy, with the parsed value |
| TeacherRoutes.BuildQuery | backend/routes/teachers.js:30-88 | isActive is always required; the exam filter is set iff the parameter is 'true'; availability iff both day and time; each price bound iff given |
| TeacherRoutes.MatchesIffAdmits | backend/routes/teachers.js:30-88 | the built query, availability filter as written, admits exactly the teachers the parameters describe, with inclusive bounds on monthlyRate, rating and experience |
| TeacherRoutes.NoFiltersAdmitsActive | backend/routes/teachers.js:30 | without filters every active teacher and no inactive one is admitted |
| TeacherRoutes.EmptyParamIgnored | backend/routes/teachers.js:43-67 | an empty parameter is ignored like a missing one |
| TeacherRoutes.AvailableImpliesAsWritten | backend/routes/teachers.js:80-88 | the corrected availability filter only narrows the one written |
| TeacherRoutes.AvailabilityGapPasses | backend/routes/teachers.js:80-88 | slots 09:00-10:00 and 14:00-15:00 pass the filter as written for 12:00 |
| TeacherRoutes.Found | backend/routes/teachers.js:91 | a teacher is found iff it is stored and matches the query |
| TeacherRoutes.WithDistances | backend/routes/teachers.js:94-111 | with coordinates, every teacher gets its distance, in the same order |
| TeacherRoutes.WithinReach | backend/routes/teachers.js:114-116 | with maxDistance, exactly the teachers at distance at most maxDistance remain; without it, all |
| TeacherRoutes.CandidatesNearestFirst | backend/routes/teachers.js:119 | with coordinates, the candidates are sorted by ascending distance |
| TeacherRoutes.CandidatesAdmitted | backend/routes/teachers.js:91-120 | every candidate is a stored teacher the parameters admit, within reach, and carries a distance exactly when coordinates were given |
| TeacherRoutes.UnlocatedListsAllAdmitted | backend/routes/teachers.js:91-127 | without coordinates, every admitted teacher is listed |
| TeacherRoutes.LocatedListsAllAdmitted | backend/routes/teachers.js:91-127 | with coordinates, every admitted teacher within maxDistance (when given) is listed with its distance |
| TeacherRoutes.SearchIntendedAdmitted | backend/routes/teachers.js:80-127 | corrected search: every listed teacher is stored, admitted, and has one slot containing the time |
| TeacherRoutes.SearchIntendedComplete | backend/routes/teachers.js:80-127 | corrected search: without coordinates every admitted teacher with a covering slot is listed |
| TeacherRoutes.Search | backend/routes/teachers.js:122-127 | the promotion sort is a permutation of the candidates |
| TeacherRoutes.SearchPromotedFirst | backend/routes/teachers.js:122-127 | the result is the promoted candidates followed by the others, each group in prior order (stable) |
| TeacherRoutes.SearchNearestFirstInGroups | backend/routes/teachers.js:119-127 | with coordinates, each promotion group stays sorted by distance |
| Sorting.SortBySorted | backend/routes/teachers.js:119 | the stable sort orders by its key |
| Sorting.BinarySortIsPartition | backend/routes/teachers.js:122-127 | sorting by a two-valued comparator is the stable partition: those with the property, then the rest |
| TeacherRoutes.StripSensitive | backend/routes/teachers.js:208-214 | password, email, role, rating, totalReviews and totalStudents are dropped; every other field passes unchanged |
| TeacherRoutes.ApplyUpdate | backend/routes/teachers.js:216-220 | `findByIdAndUpdate` writes the plain fields and the `$set` fields of the update document, `$set` taking precedence, and changes no other field |
| TeacherRoutes.UpdateProfile | backend/routes/teachers.js:197-235 | a non-teacher gets 403 and the profile is unchanged; a teacher gets 200 |
| TeacherRoutes.UpdateProfileFields | backend/routes/teachers.js:206-220 | as written: a sensitive field given at the top level keeps its old value, any other plain field given takes the new one, a field under `$set` is written whatever its name, and fields not given are unchanged |
| TeacherRoutes.SetOperatorWritesRating | backend/routes/teachers.js:206-220 | as written, the body `{"$set": {"rating": v}}` sets the teacher's own rating to v |
| TeacherRoutes.UpdateProfileIntended | backend/routes/teachers.js:197-235 | corrected (operators dropped too): 403 with no change for a non-teacher, 200 for a teacher |
| TeacherRoutes.UpdateProfileIntendedFields | backend/routes/teachers.js:206-220 | corrected: a sensitive field never changes whatever the body holds, every plain non-sensitive field given is written, and nothing else changes |
| TeacherRoutes.StripIdempotent | backend/routes/teachers.js:208-214 | stripping twice is stripping once |
| TeacherRoutes.UploadPhoto | backend/routes/teachers.js:241-274 | 403 for non-teachers, 400 without a file, and otherwise the photo path under /uploads/photos/ is written |
| TeacherRoutes.VideoField | backend/routes/teachers.js:296-300 | videoType 'intro' writes videoIntro; any other value writes teachingVideo |
| TeacherRoutes.UploadVideo | backend/routes/teachers.js:280-315 | 403 for non-teachers, 400 without a file, and otherwise the path under /uploads/videos/ is written to the chosen field |
| TeacherRoutes.UploadSucceedsIff | backend/routes/teachers.js:241-315 | an upload succeeds iff the caller is a teacher and a file was sent |
| TeacherSearch.RawParams | frontend/src/pages/TeacherSearch.js:37-40 | the params object has ten entries: the nine filters in declaration order, then the keyword as `search` |
| TeacherSearch.RawParamsFields | frontend/src/pages/TeacherSearch.js:37-40 | every key appears with the page's value for it, and no entry holds another value |
| TeacherSearch.Clean | frontend/src/pages/TeacherSearch.js:42 | an entry survives cleaning iff its value is neither '' nor null, and then unchanged |
| TeacherSearch.CleanKeepsOrder | frontend/src/pages/TeacherSearch.js:42 | cleaning keeps the survivors in order |
| TeacherSearch.CleanIdempotent | frontend/src/pages/TeacherSearch.js:42 | cleaning twice is cleaning once |
| TeacherSearch.LookupCleaned | frontend/src/pages/TeacherSearch.js:37-42 | each key of the cleaned params holds the page's value, unless that value is '' or null |
| TeacherSearch.SearchSentIffKeyword | frontend/src/pages/TeacherSearch.js:37-42 | the keyword is sent as `search` exactly when it is non-empty |
| TeacherSearch.KeyNamed | frontend/src/pages/TeacherSearch.js:10-20 | the page key with a given query-string name, or none when no page key has that name |
| TeacherSearch.ServerNamesAsWritten | backend/routes/teachers.js:12-27 | of the names the search route reads, only subject, board, class and search are names the page sends |
| TeacherSearch.RequestAsWritten | frontend/src/pages/TeacherSearch.js:37-44 | as written, the server reads the page's subject, and reads `search` exactly when the keyword is non-empty |
| TeacherSearch.PageFiltersUnread | frontend/src/pages/TeacherSearch.js:37-44 | as written, the request never carries a rating, price, coordinate or distance constraint |
| TeacherSearch.OnlyTextFiltersMatter | frontend/src/pages/TeacherSearch.js:37-44 | as written, pages agreeing on subject, board, class and keyword get the same results in the same order |
| TeacherSearch.SameTextSameRequest | frontend/src/pages/TeacherSearch.js:37-44 | as written, pages agreeing on subject, board, class and keyword send the same query |
| TeacherSearch.Request | frontend/src/pages/TeacherSearch.js:37-44 | corrected: each filter reaches the server under the name it reads (maxRate as maxPrice, and so on) |
| TeacherSearch.MaxRateBoundsResults | frontend/src/pages/TeacherSearch.js:206 | with the corrected request, a chosen maximum rate bounds the monthly rate of every admitted teacher |
| TeacherSearch.ClearFilters | frontend/src/pages/TeacherSearch.js:79-93 | clear-all restores the default filters with radius 10 and clears the keyword and location status |
| TeacherSearch.ClearedSendsOnlyRadius | frontend/src/pages/TeacherSearch.js:79-93 | after clear-all the only param sent is radius 10 |
| TeacherSearch.DefaultsSendOnlyRadius | frontend/src/pages/TeacherSearch.js:10-20 | the initial filters with no keyword send only radius 10 |
| TeacherSearch.ChangeFilter | frontend/src/pages/TeacherSearch.js:163-206 | a select or the slider sets its own key only, and choosing an "All …" option drops it from the request |
| TeacherSearch.HandleLocation | frontend/src/pages/TeacherSearch.js:63-77 | a detected position sets lat and lng and nothing else; a failure changes no filter and reports an error |
| TeacherSearch.Results | frontend/src/pages/TeacherSearch.js:45-49 | the shown list is the response's array when it says success and holds an array, otherwise empty |
| TeacherSearch.Fetched | frontend/src/pages/TeacherSearch.js:44-55 | a settled request replaces the list and ends loading, touching no filter |
| TeacherSearch.FailuresShowNothing | frontend/src/pages/TeacherSearch.js:45-52 | a request error and a malformed body both yield an empty list |
| TeacherSearch.MaxRateShown | frontend/src/pages/TeacherSearch.js:205-209 | the slider shows 2000 when maxRate is falsy, else maxRate |
| AuthRoutes.FirstFailure | backend/routes/auth.js:35-102 | registration fails with the error of the first failing check, and passes iff all checks pass |
| AuthRoutes.RegistrationChecks | backend/routes/auth.js:36-102 | the eight checks in order, each with its pass condition and error: required fields, email, phone, Aadhaar, password, coordinates, duplicate email, duplicate Aadhaar |
| AuthRoutes.RegisterStudent | backend/routes/auth.js:20-144 | the first failure returns 400 with its message and creates nothing; otherwise 201, and one student is appended with the given name, email and Aadhaar and the hash of the password |
| AuthRoutes.ChecksPassed | backend/routes/auth.js:36-102 | a registration that passed every check had an email and a password, and the email was not in the collection checked |
| AuthRoutes.FindsAppended | backend/routes/auth.js:323-331 | an account appended under an email nobody had is the one the lookup finds |
| AuthRoutes.RegisteredStudentLogsIn | backend/routes/auth.js:104-348 | a student who just registered logs in with the same email and password and gets the new account |
| AuthRoutes.StudentFirstFailureAnswers | backend/routes/auth.js:35-102 | a failing check answers 400 with its message when every earlier check passed |
| AuthRoutes.StudentCheckOrderExample | backend/routes/auth.js:36-57 | a form failing several checks is answered with the first one's message |
| AuthRoutes.NewTeacher | backend/routes/auth.js:263-282 | examSpecialist is true iff 'true' or true; the exam rate is null unless truthy; availability defaults to []; files default to '' |
| AuthRoutes.RegisterTeacher | backend/routes/auth.js:152-306 | teacher registration runs the same pipeline with the extra required fields against the Teacher collection only, and stores one teacher on 201 |
| AuthRoutes.TeacherRequiresRates | backend/routes/auth.js:177-182 | without experience, hourlyRate or monthlyRate the teacher route answers 400 |
| AuthRoutes.TeacherIgnoresStudentEmails | backend/routes/auth.js:227-243 | a student's email does not block a teacher registration |
| AuthRoutes.Accounts | backend/routes/auth.js:227-243 | the teacher collection's accounts, in order |
| AuthRoutes.FindByEmail | backend/routes/auth.js:323-331 | the lookup finds an account iff one has that email |
| AuthRoutes.LoginAccount | backend/routes/auth.js:323-331 | login looks in User first and in Teacher only when no user has the email |
| AuthRoutes.Login | backend/routes/auth.js:311-372 | 400 without email or password; 200 iff an account is found and the password matches; no account otherwise |
| AuthRoutes.LoginFailuresLookAlike | backend/routes/auth.js:333-348 | an unknown email and a wrong password get the same 401 reply |
| AuthRoutes.LoginUserShadowsTeacher | backend/routes/auth.js:323-331 | when a user has the email, the teacher collection never affects the login |
| AuthRoutes.TeacherWithStudentEmailShadowed | backend/routes/auth.js:228-331 | as written, a teacher registered with a student's email never gets their teacher account from login |
| AuthRoutes.RegisterTeacherIntended | backend/routes/auth.js:228-235 | corrected: a teacher email that a user account has is refused with 400 and nothing stored; otherwise as the route |
| AuthRoutes.IntendedTeacherStored | backend/routes/auth.js:228-306 | a teacher the corrected route accepted had an email and password, an email that no user and no teacher had, and is appended to the Teacher collection |
| AuthRoutes.RegisteredTeacherLogsIn | backend/routes/auth.js:228-348 | with the corrected check, a newly registered teacher logs in with the same email and password and gets the new teacher account |
| RegisterTeacherPage.ChangeAddressField | frontend/src/pages/RegisterTeacher.js:44-49 | an address edit sets exactly one field and leaves the other fields and the coordinates unchanged |
| RegisterTeacherPage.AddressEditsCompose | frontend/src/pages/RegisterTeacher.js:44-49 | a later edit of a field overrides an earlier one; edits of different fields commute |
| RegisterTeacherPage.SetLocation | frontend/src/pages/RegisterTeacher.js:59-67 | setting the detected location puts [longitude, latitude] into the coordinates of the given form and changes nothing else in it |
| RegisterTeacherPage.LocationArrives | frontend/src/pages/RegisterTeacher.js:55-68 | as written, the callback's result is the form captured at the click with the new coordinates, whatever the form holds when the position arrives |
| RegisterTeacherPage.LocationRevertsEdit | frontend/src/pages/RegisterTeacher.js:44-68 | as written, an address field typed while the position resolves is lost |
| RegisterTeacherPage.LocationArrivesIntended | frontend/src/pages/RegisterTeacher.js:55-68 | corrected (functional update): the current form with the new coordinates |
| RegisterTeacherPage.LocationKeepsEditIntended | frontend/src/pages/RegisterTeacher.js:44-68 | corrected: an edit made while the position resolves survives, and the coordinates are set |
| RegisterTeacherPage.CommaList | frontend/src/pages/RegisterTeacher.js:100-102 | each comma-separated piece is trimmed |
| RegisterTeacherPage.CommaListShape | frontend/src/pages/RegisterTeacher.js:100-102 | a comma list has one piece more than the string has commas; no piece contains a comma or has white space at either end; the pieces join back to the input |
| RegisterTeacherPage.BaseEntries | frontend/src/pages/RegisterTeacher.js:91-108 | the form sends 13 entries, with comma lists and a one-element qualification list with institution 'Unknown' and year 2020 |
| RegisterTeacherPage.FileEntries | frontend/src/pages/RegisterTeacher.js:111-112 | photo and aadhaarDoc are appended exactly when selected |
| RegisterTeacherPage.Submit | frontend/src/pages/RegisterTeacher.js:84-112 | mismatched passwords submit nothing; otherwise the base entries are followed by the file entries |
| RegisterTeacherPage.SubmissionContents | frontend/src/pages/RegisterTeacher.js:91-112 | confirmPassword is never sent, and photo only when selected |
| RegisterTeacherPage.Finish | frontend/src/pages/RegisterTeacher.js:84-120 | a mismatch shows "Passwords do not match"; navigation happens iff the server accepts; otherwise the server's message or "Registration failed" |
| RegisterTeacherPage.StepIndicatorShape | frontend/src/pages/RegisterTeacher.js:142-153 | highlighted circles form a prefix, and connector i is on iff circle i+1 is |
| RegisterTeacherPage.PressStep | frontend/src/pages/RegisterTeacher.js:123-124 | Next and Back move one step within 1..3 |
| RegisterTeacherPage.BackUndoesNext | frontend/src/pages/RegisterTeacher.js:123-124 | Back after Next returns to the same step |
| ProfileCompletion.Criteria | frontend/src/components/ProfileCompletion.js:8-58 | seven criteria; 'about' is complete iff experience > 0 and subjects and boards are non-empty; 'pricing' iff both rates are positive |
| ProfileCompletion.WeightsSumTo100 | frontend/src/components/ProfileCompletion.js:8-61 | the weights sum to 100 |
| ProfileCompletion.EarnedBetween | frontend/src/components/ProfileCompletion.js:60-61 | the completed weight lies between 0 and the total |
| ProfileCompletion.Percentage | frontend/src/components/ProfileCompletion.js:60-62 | the percentage equals the completed weight and lies in [0, 100] |
| ProfileCompletion.FullIffAllComplete | frontend/src/components/ProfileCompletion.js:60-66 | the full weight is reached iff every weighted criterion is complete |
| ProfileCompletion.CompletingNeverLowers | frontend/src/components/ProfileCompletion.js:60 | completing more criteria never lowers the completed weight |
| ProfileCompletion.ProfileCompletingNeverLowers | frontend/src/components/ProfileCompletion.js:60-62 | a profile completing more criteria never has a lower percentage |
| ProfileCompletion.Render | frontend/src/components/ProfileCompletion.js:5-89 | nothing without a user or at 100%; otherwise the percentage and at most three missing criteria |
| ProfileCompletion.RenderShowsFirstMissing | frontend/src/components/ProfileCompletion.js:64-89 | nothing is rendered iff all criteria are complete; the listed criteria are the first three incomplete ones, in order |
| StarRating.Shown | frontend/src/components/StarRating.js:28 | a zero hover falls back to the rating |
| StarRating.FilledPrefix | frontend/src/components/StarRating.js:27-28 | star i is filled iff i is at most the shown value, so filled stars form a prefix |
| StarRating.FilledCount | frontend/src/components/StarRating.js:27-28 | of the five stars, exactly the first n are filled |
| StarRating.Handle | frontend/src/components/StarRating.js:7-23 | read-only ignores hover and never reports; mouse-leave resets hover; a click reports its index only when editable with a handler |
| StarRating.ReadOnlyIsInert | frontend/src/components/StarRating.js:7-23 | a read-only rating keeps hover 0 and reports nothing over any event sequence |
| StarRating.HoverThenLeave | frontend/src/components/StarRating.js:13-22 | hovering then leaving shows the rating again |
| NotificationBell.Fetch | frontend/src/components/NotificationBell.js:12-22 | after a successful fetch the count equals the number unread; a failure changes nothing |
| NotificationBell.MarkItems | frontend/src/components/NotificationBell.js:45-47 | only the matching id is marked read; all others are unchanged |
| NotificationBell.MarkAsRead | frontend/src/components/NotificationBell.js:42-52 | on success the item is marked and the count drops by one, never below 0; an API failure changes nothing |
| NotificationBell.ClickItem | frontend/src/components/NotificationBell.js:89 | clicking a read item, or a failed request, changes nothing; clicking an unread one marks it and lowers the count by one, not below 0 |
| NotificationBell.ClickKeepsNonNegative | frontend/src/components/NotificationBell.js:48 | the count never goes negative |
| NotificationBell.MarkUniqueUnread | frontend/src/components/NotificationBell.js:45-47 | with unique ids, marking an unread item lowers the number unread by exactly one |
| NotificationBell.ClickRequest | frontend/src/components/NotificationBell.js:89 | a click on a rendered item sends a markAsRead request for its id exactly when the render shows it unread |
| NotificationBell.ClickKeepsCountExact | frontend/src/components/NotificationBell.js:89 | when each click's answer arrives before the next click or refresh, the unread guard and unique ids keep the count equal to the number unread |
| NotificationBell.DoubleClickDrifts | frontend/src/components/NotificationBell.js:42-89 | as written, two clicks on an unread item before the first answer both send a request, and the two answers lower the count by two while one item fewer is unread |
| NotificationBell.RefreshBeforeAnswerDrifts | frontend/src/components/NotificationBell.js:12-48 | as written, a refresh that already shows the item read, landing before the markAsRead answer, makes the count drift the same way |
| NotificationBell.MarkAsReadIntended | frontend/src/components/NotificationBell.js:42-48 | corrected (count recomputed from the list): on success the item is marked and the count equals the number unread; a failure changes nothing |
| NotificationBell.IntendedAnswersKeepCountExact | frontend/src/components/NotificationBell.js:42-48 | corrected: the count stays exact whatever the number and order of answers |
| NotificationBell.UnguardedMarkDrifts | frontend/src/components/NotificationBell.js:89 | without the guard, marking a read item makes the count drift from the number unread |
| NotificationBell.DotColour | frontend/src/components/NotificationBell.js:92-93 | green for 'success', red for 'error', else blue |
| NotificationBell.Toggle | frontend/src/components/NotificationBell.js:57 | the bell toggles open and changes nothing else |

## Left out

- Transport and server plumbing: Express setup, CORS, rate limiting, Socket.io rooms and delivery. The server is modelled as an ordered event stream with an outbox.
- Persistence: Mongo calls are store operations on sequences. A document's id is its position, and `populate` is a given outcome.
- Payments: Razorpay orders, refunds and the checkout widget appear only as the status fields the routes write and as given outcomes.
- Foreign libraries: bcrypt, jsonwebtoken and multer, plus the validators of `utils/validation`, whose code lies outside the modelled core. They are parameters: `matches`, the `Validators` record, and the uploaded file name.
- WebRTC: SDP and ICE payloads are opaque strings, and media setup is a given outcome.
- CallClient.Apply: states the invariant for the one-listener machine only. As written the invariant fails (CallListeners.StaleAcceptBreaksInvariant), because old listener sets keep reacting to the statuses they captured.
- CallClient.Run: holds for the one-listener machine only, for the same reason as CallClient.Apply.
- CallClient.OnIncomingCall: the busy guard holds only with one listener set. As written the set registered at mount captured idle, so an incoming call replaces any call in progress (CallListeners.BusyCallReplaced). A stray call-accepted can also connect an idle client, and every received end-call is answered again (CallListeners.EndedIsAnswered).
- CallClient.OnCallAccepted: ignores call-accepted outside calling only with one listener set. As written a set registered while calling still connects a client that has since gone idle (CallListeners.StaleAcceptBreaksInvariant).
- CallClient.OnCallRejectedOrEnded: sends at most one end-call only with one listener set. As written every set that captured a call sends its own end-call (CallListeners.EndMessages, CallListeners.EndedIsAnswered).
- CallListeners.Deliver: the state updates made while one socket event is handled are taken as batched into one render, as React 18 does. The registration itself happens in `socketService`, whose code lies outside the modelled core; the source's own comment at CallContext.js:64-68 says its methods add listeners and never replace them.
- The `GET /api/teachers/:id` route (teachers.js:147-192): it only reads and populates one document.
- The search route's 500 reply: the store is not modelled as failing.
- TeacherRoutes.Search: a `search` value that is not a valid regular expression, such as "c++" or "(", makes `new RegExp` throw at teachers.js:34. The route then answers 500 (teachers.js:134-140), but the model treats `textMatch` as total and lists results.
- Floating point: distances, rates and coordinates are integers. `parseFloat`/`parseInt` is the parameter `num`, `calculateDistance` is the parameter `dist`, and the way a number is written into a query string is the parameter `render`.
- Regex text search (teachers.js:34-39) is the parameter `textMatch`. `JSON.parse`/`JSON.stringify` of form fields is not modelled: structured values stay structured.
- Dates: time of day, time zones and locale month names are not modelled. "Upcoming" compares days, so a class later today is not upcoming. The day overflow of `Date.setMonth` is modelled in Dates.SetMonthBack. The chart and the six-month window use the corrected month arithmetic of Dates.MonthsBefore (see Findings).
- Analytics.ChartData: the six months use the corrected month arithmetic of Dates.MonthsBefore. As written, on the 29th to the 31st a month can appear twice and another not at all (Analytics.MonthEndChartRepeatsMonth).
- Analytics.TeacherStats: its chart is Analytics.ChartData, so on the 29th to the 31st the source's repeated month is not what the model returns (Analytics.MonthEndChartRepeatsMonth).
- NotificationBell.ClickItem: applies a click's markAsRead answer at once. The component awaits it (NotificationBell.js:42-48), so a second click or a refresh can come first; NotificationBell.DoubleClickDrifts and NotificationBell.RefreshBeforeAnswerDrifts model those orders.
- NotificationBell.ClickKeepsCountExact: holds only when each answer arrives before the next click or refresh (see Findings).
- ChatPage.SelectUser: applies the fetched thread in the same step as the selection. The handler awaits the fetch (ChatPage.js:143-147), so after selecting A and then B, an answer for A that arrives last shows A's messages under B; overlapping selections are not modelled.
- Analytics.UpcomingCount: compares days rather than instants, so a class later today is not counted as upcoming.
- Timers and polling: the typing timeout, the call-duration interval and notification polling. Only their ticks and outcomes are modelled.
- Geolocation (`getCurrentLocation`, `navigator.geolocation`) is a given outcome.
- TeacherSearch.RequestAsWritten: assumes `teachersAPI.search` sends the params object unchanged as the query string. services/api.js is outside the modelled core.
- TeacherRoutes.ApplyUpdate: of Mongo's update operators only `$set` is modelled; `$inc`, `$unset` and the others pass the route's `delete` statements in the same way but are not represented. When a field is given both at the top level and under `$set`, the model takes the `$set` value.
- TeacherRoutes.AvailableAsWritten: time strings are compared character by character, which is Mongo's string order for the ASCII times the app stores.
- The role defaults of the User and Teacher models are passed in as parameters of the registration functions. Those model files are outside the modelled core.
- ConversationList.Visible: lower-cases ASCII letters only, while `toLowerCase` folds all of Unicode. A search for "é" therefore does not find "Élodie" in the model but does in the app.
- ConversationList.SearchIgnoresTermCase: holds for terms that differ in ASCII case only. For the same reason as ConversationList.Visible, it does not cover non-ASCII letters such as "É" and "é".
- ConversationList.RowOf: renders the corrected preview prefix. The row as written uses ConversationList.PreviewPrefix, which labels every received populated message "You: " (see Findings).
- Bookings.VerifyPayment: confirming a cancelled booking can double-book a slot (Bookings.VerifyPaymentCanDoubleBook). Whether the route should refuse, re-check the slot or refund is not evident from the code, so no corrected route is given.
- React rendering, hooks and effect lifecycles, including the refetch that TeacherSearch.js triggers on every filter change.
- The display-only components (TeacherProfile.js, TeacherCard.js, MessageBubble.js, EarningsChart.js, DemoCompletionModal.js, ReviewSubmissionModal.js) and the seed scripts.

## Findings

| source | as written | input that shows it | evidently intended | confidence | as-written member | corrected member |
|---|---|---|---|---|---|---|
| frontend/src/components/ConversationList.js:77 | the preview prefix compares `lastMessage.senderId` with the user's id, but the server sends `senderId` populated as an object, so every received message is labelled "You: " | a message from the counterpart received over the socket, with `senderId` populated | compare `senderId._id \|\| senderId` with the user's id | not executed | ConversationList.PreviewPrefix, ChatPage.ReceivedPreviewMislabelled | ConversationList.PreviewPrefixIntended |
| frontend/src/context/CallContext.js:161-167 | `onicecandidate` reads the `call` its closure captured when the peer was created; for a caller that was still null, so the caller sends no ICE candidates | startCall from idle, then any local candidate | send each candidate to the participant of the call recorded now | not executed | CallClient.LocalCandidate, CallClient.CallerCandidatesDropped | CallClient.LocalCandidateIntended, CallClient.CallerCandidatesSentWhenIntended |
| backend/routes/teachers.js:80-88 | `$elemMatch` on `slots.start` and `slots.end` lets the two bounds come from different slots of the same day | Monday slots 09:00-10:00 and 14:00-15:00, query Monday 12:00 | one slot of the day contains the time | not executed | TeacherRoutes.AvailableAsWritten, TeacherRoutes.AvailabilityGapPasses | TeacherRoutes.AvailableAt, TeacherRoutes.AvailableImpliesAsWritten, TeacherRoutes.SearchIntendedAdmitted |
| frontend/src/pages/TeacherSearch.js:37-44 | the page sends `rating`, `minRate`, `maxRate`, `lat`, `lng` and `radius`, while the route reads `minRating`, `minPrice`, `maxPrice`, `latitude`, `longitude` and `maxDistance`, so those filters never reach the query | maxRate '500' with any other filters | send each filter under the name the route reads | not executed; assumes services/api.js forwards the params unchanged. The slider is labelled "Max Hourly Rate" but the route bounds `monthlyRate`, so which rate was meant is uncertain | TeacherSearch.RequestAsWritten, TeacherSearch.PageFiltersUnread | TeacherSearch.Request, TeacherSearch.MaxRateBoundsResults |
| frontend/src/context/CallContext.js:20-70 | the listener effect depends on `callStatus` and has no cleanup, so every status change adds a set of socket listeners that closes over that render's status and call, and all of them handle every event | a connected call, then an incoming call from a third user: the idle-era set takes it and replaces the call; a failed start, then a stray call-accepted: the client becomes connected with no call | register the listeners once per socket, or remove them in the cleanup, so one set reading the current status handles each event | not executed | CallListeners.BusyCallReplaced, CallListeners.ConnectedCallReplaced, CallListeners.StaleAcceptBreaksInvariant, CallListeners.EndedIsAnswered | CallClient.Apply, CallListeners.OneListenerIsTheMachine, CallListeners.EndedOnceIsQuiet |
| backend/routes/analytics.js:60-64 | `d.setMonth(d.getMonth() - i)` on today's date rolls a day past the end of the target month into the following month | today 31 March 2026: the bar one month back is 31 February, that is 3 March, so March shows twice and February not at all | the six consecutive months ending with today's | not executed | Dates.SetMonthBack, Analytics.MonthEndChartRepeatsMonth | Dates.MonthsBefore, Analytics.ChartData |
| backend/routes/auth.js:228-235 | teacher registration checks duplicate emails against the Teacher collection only, while login looks in the User collection first | a student account with email a@x.in, then a teacher registered with a@x.in: login never yields the teacher account | refuse a teacher email that a user account already has | not executed | AuthRoutes.TeacherIgnoresStudentEmails, AuthRoutes.TeacherWithStudentEmailShadowed | AuthRoutes.RegisterTeacherIntended, AuthRoutes.RegisteredTeacherLogsIn |
| backend/routes/teachers.js:206-220 | the route deletes six sensitive top-level keys and passes the rest of the body to `findByIdAndUpdate`, which applies update operators such as `$set` | a teacher sends `PUT /api/teachers/profile` with body `{"$set": {"rating": 5}}`: the stored rating becomes 5 | drop `$`-prefixed keys as well, so that no sensitive field can change | not executed | TeacherRoutes.UpdateProfile, TeacherRoutes.SetOperatorWritesRating | TeacherRoutes.UpdateProfileIntended, TeacherRoutes.UpdateProfileIntendedFields |
| frontend/src/pages/RegisterTeacher.js:55-68 | the geolocation callback spreads the `formData` captured when the button was clicked | click "Detect My Location", type a city while the position resolves: the city is reset to its earlier value | a functional update (`prev => ...`), as TeacherSearch.js:67 does | not executed | RegisterTeacherPage.LocationArrives, RegisterTeacherPage.LocationRevertsEdit | RegisterTeacherPage.LocationArrivesIntended, RegisterTeacherPage.LocationKeepsEditIntended |
| frontend/src/components/NotificationBell.js:42-48 | the markAsRead answer decrements the unread counter without checking the item was still unread | a double click on an unread item among two unread, or a refresh showing it read before the answer: the counter shows 0 while one item is unread | recompute the counter from the marked list | not executed | NotificationBell.DoubleClickDrifts, NotificationBell.RefreshBeforeAnswerDrifts | NotificationBell.MarkAsReadIntended, NotificationBell.IntendedAnswersKeepCountExact |

=== FILE: analytics.dfy ===
/** The teacher dashboard statistics (backend/routes/analytics.js): total
    earnings, the six-month earnings chart and the count of upcoming classes.
    The aggregation pipelines are computed over the booking store; the clock
    is the parameter `today`, at day granularity. */
module Analytics {
  import opened Common
  import opened Dates
  import opened Bookings

  /** Bookings counted as earnings: the teacher's, released, and confirmed or
      completed. */
  predicate IsEarning(teacher: UserId, b: Booking) {
    b.teacherId == teacher && b.paymentStatus == Released
    && (b.bookingStatus == Confirmed || b.bookingStatus == Completed)
  }

  function Amount(b: Booking): int {
    b.amount
  }

  /** `totalEarnings`: the summed amount of the earning bookings (0 when
      there are none, as for an empty `$group`). */
  function TotalEarnings(store: Store, teacher: UserId): (total: int)
    ensures (forall k :: 0 <= k < |store| ==> !IsEarning(teacher, store[k])) ==> total == 0
  {
    var earning := (b: Booking) => IsEarning(teacher, b);
    FilterEmptyIff(earning, store);
    Sum(Amount, Filter(earning, store))
  }

  /** Under the lifecycle invariant a released payment belongs to a confirmed
      or completed booking, so the status test of the total and the missing
      one of the monthly pipeline select the same bookings. */
  lemma ReleasedIsEarning(teacher: UserId, b: Booking)
    requires WellFormed(b)
    ensures IsEarning(teacher, b) <==> b.teacherId == teacher && b.paymentStatus == Released
  {
  }

  /** A new booking adds its amount to the total exactly when it counts as
      an earning. */
  lemma {:induction false} TotalEarningsAppend(store: Store, teacher: UserId, b: Booking)
    ensures TotalEarnings(store + [b], teacher) == TotalEarnings(store, teacher) + (if IsEarning(teacher, b) then b.amount else 0)
  {
    var p := (x: Booking) => IsEarning(teacher, x);
    FilterAppend(p, store, [b]);
    SumAppend(Amount, Filter(p, store), Filter(p, [b]));
    assert Filter(p, [b]) == if p(b) then [b] else [];
  }

  /** The monthly pipeline's `$match`: the teacher's released bookings
      created on or after `from`, whatever their booking status. */
  predicate InWindow(teacher: UserId, from: Day, b: Booking) {
    b.teacherId == teacher && b.paymentStatus == Released && OnOrAfter(b.createdAt, from)
  }

  /** One `$group` result: a (year, month) of `createdAt` and its summed amount. */
  datatype MonthGroup = MonthGroup(year: int, month: int, amount: int)

  predicate InMonth(year: int, month: int, b: Booking) {
    b.createdAt.year == year && b.createdAt.month == month
  }

  /** The amount of the first group for (year, month), or 0 when there is
      none: the chart's `find(...) ? found.amount : 0`. */
  function GroupAmount(groups: seq<MonthGroup>, year: int, month: int): int {
    match FindIndex((g: MonthGroup) => g.year == year && g.month == month, groups)
    case None => 0
    case Some(i) => groups[i].amount
  }

  /** Adds `amount` to the group for (year, month), creating it at the end
      if it does not exist yet. */
  function AddToGroup(groups: seq<MonthGroup>, year: int, month: int, amount: int): (r: seq<MonthGroup>)
    ensures GroupAmount(r, year, month) == GroupAmount(groups, year, month) + amount
    ensures forall y, m :: (y, m) != (year, month) ==> GroupAmount(r, y, m) == GroupAmount(groups, y, m)
  {
    var p := (g: MonthGroup) => g.year == year && g.month == month;
    match FindIndex(p, groups)
    case None =>
      var r := groups + [MonthGroup(year, month, amount)];
      forall y, m ensures GroupAmount(r, y, m) == (if (y, m) == (year, month) then GroupAmount(groups, y, m) + amount else GroupAmount(groups, y, m)) {
        FindIndexAppend((g: MonthGroup) => g.year == y && g.month == m, groups, MonthGroup(year, month, amount));
      }
      r
    case Some(i) =>
      var r := groups[i := groups[i].(amount := groups[i].amount + amount)];
      forall y, m ensures GroupAmount(r, y, m) == (if (y, m) == (year, month) then GroupAmount(groups, y, m) + amount else GroupAmount(groups, y, m)) {
        FindIndexUpdate((g: MonthGroup) => g.year == y && g.month == m, groups, i, r[i]);
      }
      r
  }

  /** Appending an element does not move an earlier first match. */
  lemma {:induction false} FindIndexAppend<T>(p: T -> bool, s: seq<T>, x: T)
    ensures FindIndex(p, s).Some? ==> FindIndex(p, s + [x]) == FindIndex(p, s)
    ensures FindIndex(p, s).None? ==> FindIndex(p, s + [x]) == if p(x) then Some(|s|) else None
    decreases |s|
  {
    if |s| > 0 {
      assert (s + [x])[1..] == s[1..] + [x];
      FindIndexAppend(p, s[1..], x);
    }
  }

  /** Replacing an element by one with the same match status does not move
      the first match. */
  lemma {:induction false} FindIndexUpdate<T>(p: T -> bool, s: seq<T>, i: nat, x: T)
    requires i < |s| && p(x) == p(s[i])
    ensures FindIndex(p, s[i := x]) == FindIndex(p, s)
    decreases |s|
  {
    if |s| > 0 && i > 0 {
      assert s[i := x][1..] == s[1..][i - 1 := x];
      FindIndexUpdate(p, s[1..], i - 1, x);
    }
  }

  /** The monthly `$group` over matched bookings, one group per (year, month)
      of `createdAt`: each month's group holds the summed amount of that
      month's bookings. The `$sort` only orders the groups, which the chart's
      lookup does not depend on. */
  function GroupByMonth(matched: seq<Booking>): (groups: seq<MonthGroup>)
    ensures forall year, month ::
      GroupAmount(groups, year, month) == Sum(Amount, Filter((b: Booking) => InMonth(year, month, b), matched))
    decreases |matched|
  {
    if |matched| == 0 then []
    else AddToGroup(GroupByMonth(matched[1..]), matched[0].createdAt.year, matched[0].createdAt.month,
                    matched[0].amount)
  }

  /** One bar of the chart; the locale's short month name is left out. */
  datatype ChartPoint = ChartPoint(year: int, month: int, amount: int)

  /** The earnings a teacher's released bookings brought in month
      (year, month), among those created on or after `from`. */
  function MonthEarnings(store: Store, teacher: UserId, from: Day, year: int, month: int): int {
    Sum(Amount, Filter((b: Booking) => InMonth(year, month, b),
                       Filter((b: Booking) => InWindow(teacher, from, b), store)))
  }

  /** The chart bar `back` months before `today`'s month: the group amount
      of that month in the monthly pipeline, or 0. */
  function ChartPointFor(store: Store, teacher: UserId, today: Day, back: nat): (p: ChartPoint)
    ensures MonthIndex(Day(p.year, p.month, 1)) == MonthIndex(today) - back
    ensures 1 <= p.month <= 12
    ensures p.amount == MonthEarnings(store, teacher, MonthsBefore(today, 6), p.year, p.month)
  {
    var matched := Filter((b: Booking) => InWindow(teacher, MonthsBefore(today, 6), b), store);
    var d := MonthsBefore(today, back);
    ChartPoint(d.year, d.month, GroupAmount(GroupByMonth(matched), d.year, d.month))
  }

  /** `chartData`: the five months before `today`'s month and that month,
      oldest first, each with its monthly earnings (0 for a month without
      any). */
  function ChartData(store: Store, teacher: UserId, today: Day): (chart: seq<ChartPoint>)
    ensures |chart| == 6
    ensures forall j :: 0 <= j < 6 ==> MonthIndex(Day(chart[j].year, chart[j].month, 1)) == MonthIndex(today) - 5 + j
    ensures forall j :: 0 <= j < 6 ==> 1 <= chart[j].month <= 12
    ensures forall j :: 0 <= j < 6 ==>
      chart[j].amount == MonthEarnings(store, teacher, MonthsBefore(today, 6), chart[j].year, chart[j].month)
  {
    seq(6, j requires 0 <= j < 6 => ChartPointFor(store, teacher, today, 5 - j))
  }

  /** As written the chart loop labels bar `back` with the month of
      `setMonth(getMonth() - back)` on today's date. On 31 March the bar one
      month back rolls over to 3 March, so March is shown twice and February
      not at all. `MonthsBefore`, the month arithmetic
      `ChartData` uses, gives February. */
  lemma MonthEndChartRepeatsMonth()
    ensures var today := Day(2026, 3, 31);
      && SetMonthBack(today, 1) == Day(2026, 3, 3)
      && SetMonthBack(today, 0).month == SetMonthBack(today, 1).month
      && MonthsBefore(today, 1).month == 2
  {
    var today := Day(2026, 3, 31);
    assert MonthIndex(today) == 24314;
    assert MonthOf(24313) == Day(2026, 2, 1);
    assert MonthsBefore(today, 1) == Day(2026, 2, 31);
    assert DaysIn(2026, 2) == 28;
    assert MonthOf(24314) == Day(2026, 3, 1);
    assert MonthsBefore(today, 0) == Day(2026, 3, 31);
  }

  /** A month without matching bookings shows 0. */
  lemma {:induction false} EmptyMonthIsZero(store: Store, teacher: UserId, from: Day, year: int, month: int)
    requires forall k :: 0 <= k < |store| ==> !(InWindow(teacher, from, store[k]) && InMonth(year, month, store[k]))
    ensures MonthEarnings(store, teacher, from, year, month) == 0
  {
    var inWindow := Filter((b: Booking) => InWindow(teacher, from, b), store);
    forall i | 0 <= i < |inWindow| ensures !InMonth(year, month, inWindow[i]) {
      var x := inWindow[i];
      assert x in inWindow;
      var k :| 0 <= k < |store| && store[k] == x;
    }
    FilterNone((b: Booking) => InMonth(year, month, b), inWindow);
  }

  /** Upcoming classes: the teacher's confirmed bookings scheduled after today
      (a booking dated today is stored at midnight, before "now"). */
  predicate IsUpcoming(teacher: UserId, today: Day, b: Booking) {
    b.teacherId == teacher && b.bookingStatus == Confirmed && After(b.scheduledDate, today)
  }

  function UpcomingCount(store: Store, teacher: UserId, today: Day): (n: nat)
    ensures n <= |store|
    ensures n == |Filter((b: Booking) => IsUpcoming(teacher, today, b), store)|
  {
    Count((b: Booking) => IsUpcoming(teacher, today, b), store)
  }

  datatype Stats = Stats(totalEarnings: int, chartData: seq<ChartPoint>, upcomingClassesCount: nat)

  /** `GET /api/analytics/teacher-stats`: teachers only. */
  function TeacherStats(store: Store, me: Caller, today: Day): (r: Option<Stats>)
    ensures r.None? <==> me.role != "teacher"
    ensures r.Some? ==>
      (&& r.value.totalEarnings == TotalEarnings(store, me.id)
       && r.value.chartData == ChartData(store, me.id, today)
       && r.value.upcomingClassesCount == UpcomingCount(store, me.id, today))
  {
    if me.role != "teacher" then None
    else Some(Stats(TotalEarnings(store, me.id), ChartData(store, me.id, today), UpcomingCount(store, me.id, today)))
  }
}

=== FILE: auth_routes.dfy ===
/** Registration and login (backend/routes/auth.js). The User and Teacher
    collections are sequences of accounts; the format validators of
    `utils/validation` and bcrypt are function parameters; request values are
    optional strings, truthy when present and non-empty. */
module AuthRoutes {
  import opened Common
  import TeacherRoutes

  /** The account fields the routes read and write. */
  datatype Account = Account(name: string, email: string, aadhaarNumber: string, passwordHash: string, role: string)

  /** A parsed address: `coordinates.coordinates`, when the object is present. */
  datatype Address = Address(coordinates: Option<seq<int>>)

  /** `validateEmail`, `validatePhone`, `validateAadhaar`, `validatePassword`
      and `validateCoordinates`. */
  datatype Validators = Validators(
    email: string -> bool, phone: string -> bool, aadhaar: string -> bool,
    password: string -> bool, coordinates: seq<int> -> bool)

  /** The fields both registration routes share. */
  datatype Form = Form(
    name: Option<string>, email: Option<string>, password: Option<string>,
    phone: Option<string>, aadhaarNumber: Option<string>, address: Option<Address>)

  datatype RegistrationError =
    | MissingFields | InvalidEmail | InvalidPhone | InvalidAadhaar | WeakPassword
    | InvalidCoordinates | DuplicateEmail(inTeachers: bool) | DuplicateAadhaar

  function ErrorMessage(e: RegistrationError): string {
    match e
    case MissingFields => "Please provide all required fields"
    case InvalidEmail => "Please provide a valid email address"
    case InvalidPhone => "Please provide a valid 10-digit phone number"
    case InvalidAadhaar => "Please provide a valid 12-digit Aadhaar number"
    case WeakPassword => "Password must be at least 6 characters long"
    case InvalidCoordinates => "Please provide valid GPS coordinates"
    case DuplicateEmail(inTeachers) =>
      if inTeachers then "Teacher with this email already exists" else "User with this email already exists"
    case DuplicateAadhaar => "This Aadhaar number is already registered"
  }

  /** One validation step: whether it passed and the error it reports. */
  datatype Check = Check(passed: bool, error: RegistrationError)

  /** The first failing check, in order. */
  function FirstFailure(checks: seq<Check>): (r: Option<RegistrationError>)
    ensures r.None? <==> forall i :: 0 <= i < |checks| ==> checks[i].passed
    ensures r.Some? ==> exists k :: 0 <= k < |checks| && !checks[k].passed && checks[k].error == r.value
                          && forall j :: 0 <= j < k ==> checks[j].passed
  {
    match FindIndex((c: Check) => !c.passed, checks)
    case None => None
    case Some(k) => Some(checks[k].error)
  }

  function Value(v: Option<string>): string {
    v.GetOr("")
  }

  predicate EmailTaken(store: seq<Account>, email: string) {
    exists i :: 0 <= i < |store| && store[i].email == email
  }

  predicate AadhaarTaken(store: seq<Account>, aadhaar: string) {
    exists i :: 0 <= i < |store| && store[i].aadhaarNumber == aadhaar
  }

  predicate CoordinatesValid(f: Form, v: Validators) {
    f.address.Some? && f.address.value.coordinates.Some? && v.coordinates(f.address.value.coordinates.value)
  }

  /** The checks of both registration routes, in the order they run:
      required fields, email, phone, Aadhaar, password, coordinates,
      duplicate email, duplicate Aadhaar. `extraRequired` is the truthiness
      of the route's additional required fields; `inTeachers` says which
      collection `store` is. */
  function RegistrationChecks(f: Form, extraRequired: bool, store: seq<Account>, inTeachers: bool, v: Validators): (cs: seq<Check>)
    ensures |cs| == 8
    ensures cs[0].error == MissingFields && (cs[0].passed <==>
      Truthy(f.name) && Truthy(f.email) && Truthy(f.password) && Truthy(f.phone)
      && Truthy(f.aadhaarNumber) && f.address.Some? && extraRequired)
    ensures cs[1].error == InvalidEmail && (cs[1].passed <==> v.email(Value(f.email)))
    ensures cs[2].error == InvalidPhone && (cs[2].passed <==> v.phone(Value(f.phone)))
    ensures cs[3].error == InvalidAadhaar && (cs[3].passed <==> v.aadhaar(Value(f.aadhaarNumber)))
    ensures cs[4].error == WeakPassword && (cs[4].passed <==> v.password(Value(f.password)))
    ensures cs[5].error == InvalidCoordinates && (cs[5].passed <==>
      f.address.Some? && f.address.value.coordinates.Some? && v.coordinates(f.address.value.coordinates.value))
    ensures cs[6].error == DuplicateEmail(inTeachers) && (cs[6].passed <==> !EmailTaken(store, Value(f.email)))
    ensures cs[7].error == DuplicateAadhaar && (cs[7].passed <==> !AadhaarTaken(store, Value(f.aadhaarNumber)))
  {
    seq(8, k requires 0 <= k < 8 => CheckAt(k, f, extraRequired, store, inTeachers, v))
  }

  /** Check number `k` of the registration pipeline. */
  function CheckAt(k: nat, f: Form, extraRequired: bool, store: seq<Account>, inTeachers: bool, v: Validators): Check
    requires k < 8
  {
    if k == 0 then
      Check(Truthy(f.name) && Truthy(f.email) && Truthy(f.password) && Truthy(f.phone)
            && Truthy(f.aadhaarNumber) && f.address.Some? && extraRequired, MissingFields)
    else if k == 1 then Check(v.email(Value(f.email)), InvalidEmail)
    else if k == 2 then Check(v.phone(Value(f.phone)), InvalidPhone)
    else if k == 3 then Check(v.aadhaar(Value(f.aadhaarNumber)), InvalidAadhaar)
    else if k == 4 then Check(v.password(Value(f.password)), WeakPassword)
    else if k == 5 then Check(CoordinatesValid(f, v), InvalidCoordinates)
    else if k == 6 then Check(!EmailTaken(store, Value(f.email)), DuplicateEmail(inTeachers))
    else Check(!AadhaarTaken(store, Value(f.aadhaarNumber)), DuplicateAadhaar)
  }

  datatype Reply = Reply(status: int, message: string)

  /** The collection after a registration and the reply. */
  datatype Registered<T> = Registered(store: seq<T>, reply: Reply)

  /** `POST /api/auth/register/student`: the first failing check answers 400
      and stores nothing; otherwise the account is stored with the hashed
      password and 201 is answered. `studentRole` is the role the User
      collection assigns by default. */
  function RegisterStudent(users: seq<Account>, f: Form, v: Validators, hash: string -> string, studentRole: string)
    : (r: Registered<Account>)
    ensures var failure := FirstFailure(RegistrationChecks(f, true, users, false, v));
      && (failure.Some? ==> r == Registered(users, Reply(400, ErrorMessage(failure.value))))
      && (failure.None? ==> r.reply == Reply(201, "Student registered successfully")
                            && |r.store| == |users| + 1 && r.store[..|users|] == users
                            && r.store[|users|] == Account(Value(f.name), Value(f.email), Value(f.aadhaarNumber),
                                                           hash(Value(f.password)), studentRole))
  {
    match FirstFailure(RegistrationChecks(f, true, users, false, v))
    case Some(e) => Registered(users, Reply(400, ErrorMessage(e)))
    case None =>
      var account := Account(Value(f.name), Value(f.email), Value(f.aadhaarNumber), hash(Value(f.password)), studentRole);
      Registered(users + [account], Reply(201, "Student registered successfully"))
  }

  /** A JSON or form value as the teacher route receives it. */
  datatype JsValue = JsString(s: string) | JsBool(b: bool) | JsNumber(n: int)

  predicate JsTruthy(v: Option<JsValue>) {
    match v
    case None => false
    case Some(JsString(s)) => s != ""
    case Some(JsBool(b)) => b
    case Some(JsNumber(n)) => n != 0
  }

  /** The teacher-only fields of the registration form. */
  datatype TeacherExtras = TeacherExtras(
    experience: Option<string>, hourlyRate: Option<string>, monthlyRate: Option<string>,
    examSpecialist: Option<JsValue>, examSpecialistRate: Option<JsValue>,
    availability: Option<seq<TeacherRoutes.DayAvailability>>,
    photoPath: Option<string>, aadhaarDocPath: Option<string>)

  /** A stored teacher document. */
  datatype TeacherDoc = TeacherDoc(
    account: Account, photo: string, aadhaarPhoto: string,
    examSpecialist: bool, examSpecialistRate: Option<JsValue>,
    availability: seq<TeacherRoutes.DayAvailability>)

  function Accounts(docs: seq<TeacherDoc>): (r: seq<Account>)
    ensures |r| == |docs| && forall i :: 0 <= i < |docs| ==> r[i] == docs[i].account
  {
    seq(|docs|, i requires 0 <= i < |docs| => docs[i].account)
  }

  /** The document the teacher route creates once every check passed. */
  function NewTeacher(f: Form, x: TeacherExtras, hash: string -> string, teacherRole: string): (d: TeacherDoc)
    ensures d.examSpecialist <==> x.examSpecialist == Some(JsString("true")) || x.examSpecialist == Some(JsBool(true))
    ensures d.examSpecialistRate.None? <==> !JsTruthy(x.examSpecialistRate)
    ensures d.examSpecialistRate.Some? ==> d.examSpecialistRate == x.examSpecialistRate
    ensures x.availability.None? ==> d.availability == []
    ensures x.photoPath.None? ==> d.photo == ""
    ensures x.aadhaarDocPath.None? ==> d.aadhaarPhoto == ""
    ensures d.account.passwordHash == hash(Value(f.password))
  {
    TeacherDoc(
      Account(Value(f.name), Value(f.email), Value(f.aadhaarNumber), hash(Value(f.password)), teacherRole),
      x.photoPath.GetOr(""), x.aadhaarDocPath.GetOr(""),
      x.examSpecialist == Some(JsString("true")) || x.examSpecialist == Some(JsBool(true)),
      if JsTruthy(x.examSpecialistRate) then x.examSpecialistRate else None,
      x.availability.GetOr([]))
  }

  /** The extra fields the teacher route requires. */
  predicate TeacherRequired(x: TeacherExtras) {
    Truthy(x.experience) && Truthy(x.hourlyRate) && Truthy(x.monthlyRate)
  }

  /** `POST /api/auth/register/teacher`: the student checks, with experience,
      hourly and monthly rate also required, and both duplicate checks
      against the Teacher collection only. */
  function RegisterTeacher(teachers: seq<TeacherDoc>, f: Form, x: TeacherExtras, v: Validators,
                           hash: string -> string, teacherRole: string): (r: Registered<TeacherDoc>)
    ensures var failure := FirstFailure(RegistrationChecks(f, TeacherRequired(x), Accounts(teachers), true, v));
      && (failure.Some? ==> r == Registered(teachers, Reply(400, ErrorMessage(failure.value))))
      && (failure.None? ==> r == Registered(teachers + [NewTeacher(f, x, hash, teacherRole)],
                                            Reply(201, "Teacher registered successfully")))
  {
    match FirstFailure(RegistrationChecks(f, TeacherRequired(x), Accounts(teachers), true, v))
    case Some(e) => Registered(teachers, Reply(400, ErrorMessage(e)))
    case None => Registered(teachers + [NewTeacher(f, x, hash, teacherRole)], Reply(201, "Teacher registered successfully"))
  }

  /** The order of the student checks: a request that fails a check and passes
      every earlier one gets that check's message, and nothing is stored. */
  lemma {:induction false} StudentFirstFailureAnswers(users: seq<Account>, f: Form, v: Validators,
                                                      hash: string -> string, studentRole: string, k: nat)
    requires var cs := RegistrationChecks(f, true, users, false, v);
             k < |cs| && !cs[k].passed && forall j :: 0 <= j < k ==> cs[j].passed
    ensures var cs := RegistrationChecks(f, true, users, false, v);
            RegisterStudent(users, f, v, hash, studentRole) == Registered(users, Reply(400, ErrorMessage(cs[k].error)))
  {
    var cs := RegistrationChecks(f, true, users, false, v);
    var failure := FirstFailure(cs);
    var k' :| 0 <= k' < |cs| && !cs[k'].passed && cs[k'].error == failure.value
              && forall j :: 0 <= j < k' ==> cs[j].passed;
    assert k' == k;
  }

  /** An invalid email is reported before an invalid phone, and a missing
      field before either. */
  lemma StudentCheckOrderExample(users: seq<Account>, f: Form, v: Validators, hash: string -> string, role: string)
    requires !v.email(Value(f.email)) && !v.phone(Value(f.phone))
    ensures f.name.None? ==> RegisterStudent(users, f, v, hash, role).reply == Reply(400, "Please provide all required fields")
    ensures Truthy(f.name) && Truthy(f.email) && Truthy(f.password) && Truthy(f.phone)
              && Truthy(f.aadhaarNumber) && f.address.Some?
            ==> RegisterStudent(users, f, v, hash, role).reply == Reply(400, "Please provide a valid email address")
  {
    var cs := RegistrationChecks(f, true, users, false, v);
    if f.name.None? {
      StudentFirstFailureAnswers(users, f, v, hash, role, 0);
    } else if cs[0].passed {
      StudentFirstFailureAnswers(users, f, v, hash, role, 1);
    }
  }

  /** A form that would register a student is refused as a teacher when it
      lacks experience, hourly rate or monthly rate. */
  lemma TeacherRequiresRates(teachers: seq<TeacherDoc>, f: Form, x: TeacherExtras, v: Validators,
                             hash: string -> string, role: string)
    requires !TeacherRequired(x)
    ensures RegisterTeacher(teachers, f, x, v, hash, role) == Registered(teachers, Reply(400, "Please provide all required fields"))
  {
    var cs := RegistrationChecks(f, TeacherRequired(x), Accounts(teachers), true, v);
    assert !cs[0].passed;
  }

  /** Registering as a teacher succeeds with an email that only a student
      account uses: the duplicate checks see the Teacher collection alone. */
  lemma TeacherIgnoresStudentEmails(users: seq<Account>, teachers: seq<TeacherDoc>, f: Form, x: TeacherExtras,
                                    v: Validators, hash: string -> string, role: string)
    requires forall i :: 0 <= i < |RegistrationChecks(f, TeacherRequired(x), Accounts(teachers), true, v)| ==>
               RegistrationChecks(f, TeacherRequired(x), Accounts(teachers), true, v)[i].passed
    requires EmailTaken(users, Value(f.email))
    ensures RegisterTeacher(teachers, f, x, v, hash, role).reply == Reply(201, "Teacher registered successfully")
    ensures EmailTaken(Accounts(RegisterTeacher(teachers, f, x, v, hash, role).store), Value(f.email))
  {
    var r := RegisterTeacher(teachers, f, x, v, hash, role);
    assert Accounts(r.store)[|teachers|] == NewTeacher(f, x, hash, role).account;
  }

  /** The first account with the given email (`findOne({ email })`). */
  function FindByEmail(store: seq<Account>, email: string): (r: Option<Account>)
    ensures r.Some? <==> EmailTaken(store, email)
    ensures r.Some? ==> r.value in store && r.value.email == email
  {
    match FindIndex((a: Account) => a.email == email, store)
    case None => None
    case Some(i) => Some(store[i])
  }

  datatype LoginResult = LoginResult(reply: Reply, account: Option<Account>)

  /** The account login checks the password against: the User collection
      first, the Teacher collection only when no user has the email. */
  function LoginAccount(users: seq<Account>, teachers: seq<Account>, email: string): (r: Option<Account>)
    ensures EmailTaken(users, email) ==> r == FindByEmail(users, email)
    ensures !EmailTaken(users, email) ==> r == FindByEmail(teachers, email)
  {
    match FindByEmail(users, email)
    case Some(a) => Some(a)
    case None => FindByEmail(teachers, email)
  }

  const InvalidCredentials: Reply := Reply(401, "Invalid email or password")

  /** `POST /api/auth/login`; `matches` is `bcrypt.compare`. The reply carries
      the stored account, whose own role field is reported. */
  function Login(users: seq<Account>, teachers: seq<Account>, email: Option<string>, password: Option<string>,
                 matches: (string, string) -> bool): (r: LoginResult)
    ensures !Truthy(email) || !Truthy(password) ==> r == LoginResult(Reply(400, "Please provide email and password"), None)
    ensures r.reply.status == 200 <==>
      && Truthy(email) && Truthy(password)
      && var a := LoginAccount(users, teachers, email.value);
         a.Some? && matches(password.value, a.value.passwordHash)
    ensures r.reply.status == 200 ==> r.reply.message == "Login successful" && r.account == LoginAccount(users, teachers, email.value)
    ensures r.reply.status != 200 ==> r.account.None?
  {
    if !Truthy(email) || !Truthy(password) then LoginResult(Reply(400, "Please provide email and password"), None)
    else match LoginAccount(users, teachers, email.value)
      case None => LoginResult(InvalidCredentials, None)
      case Some(a) =>
        if !matches(password.value, a.passwordHash) then LoginResult(InvalidCredentials, None)
        else LoginResult(Reply(200, "Login successful"), Some(a))
  }

  /** A registration that passed every check had an email and a password,
      and the email was not yet in the collection checked. */
  lemma ChecksPassed(f: Form, extraRequired: bool, store: seq<Account>, inTeachers: bool, v: Validators)
    requires FirstFailure(RegistrationChecks(f, extraRequired, store, inTeachers, v)).None?
    ensures Truthy(f.email) && Truthy(f.password) && !EmailTaken(store, Value(f.email))
  {
    var cs := RegistrationChecks(f, extraRequired, store, inTeachers, v);
    assert cs[0].passed && cs[6].passed;
  }

  /** An account appended to a collection that did not have its email is the
      one the lookup finds. */
  lemma FindsAppended(store: seq<Account>, a: Account)
    requires !EmailTaken(store, a.email)
    ensures FindByEmail(store + [a], a.email) == Some(a)
  {
    var all := store + [a];
    assert all[|store|] == a;
    var found := FindByEmail(all, a.email).value;
    var i :| 0 <= i < |all| && all[i] == found;
  }

  /** A student who just registered can log in with the same email and
      password: the duplicate check guaranteed that no earlier user has the
      email, so login finds the new account and compares against the hash
      stored for it. */
  lemma {:induction false} RegisteredStudentLogsIn(users: seq<Account>, teachers: seq<Account>, f: Form, v: Validators,
                                                   hash: string -> string, role: string, matches: (string, string) -> bool)
    requires RegisterStudent(users, f, v, hash, role).reply.status == 201
    requires matches(Value(f.password), hash(Value(f.password)))
    ensures var r := RegisterStudent(users, f, v, hash, role);
      Login(r.store, teachers, f.email, f.password, matches)
        == LoginResult(Reply(200, "Login successful"), Some(r.store[|users|]))
  {
    ChecksPassed(f, true, users, false, v);
    var r := RegisterStudent(users, f, v, hash, role);
    assert r.store == users + [r.store[|users|]];
    FindsAppended(users, r.store[|users|]);
  }

  /** An unknown email and a wrong password are indistinguishable. */
  lemma LoginFailuresLookAlike(users: seq<Account>, teachers: seq<Account>, email: string, password: string,
                               matches: (string, string) -> bool)
    requires email != "" && password != ""
    ensures !EmailTaken(users, email) && !EmailTaken(teachers, email) ==>
              Login(users, teachers, Some(email), Some(password), matches).reply == InvalidCredentials
    ensures var a := LoginAccount(users, teachers, email);
            a.Some? && !matches(password, a.value.passwordHash) ==>
              Login(users, teachers, Some(email), Some(password), matches).reply == InvalidCredentials
  {
  }

  /** When a user account has the email, the Teacher collection is never
      consulted: a teacher with the same email cannot log in. */
  lemma LoginUserShadowsTeacher(users: seq<Account>, teachers: seq<Account>, teachers': seq<Account>,
                                email: Option<string>, password: Option<string>, matches: (string, string) -> bool)
    requires Truthy(email) && EmailTaken(users, email.value)
    ensures Login(users, teachers, email, password, matches) == Login(users, teachers', email, password, matches)
  {
  }

  /** As written, a teacher registered with an email that a student account
      already uses can never log in as that teacher: whatever the password,
      login answers with the User-collection account or refuses. */
  lemma TeacherWithStudentEmailShadowed(users: seq<Account>, teachers: seq<TeacherDoc>, f: Form, x: TeacherExtras,
                                         v: Validators, hash: string -> string, role: string,
                                         password: Option<string>, matches: (string, string) -> bool)
    requires EmailTaken(users, Value(f.email))
    ensures var r := RegisterTeacher(teachers, f, x, v, hash, role);
      var login := Login(users, Accounts(r.store), f.email, password, matches);
      login.account.Some? ==> login.account.value in users
  {
  }

  /** The evidently intended teacher registration: the duplicate-email check
      also sees the User collection, which login consults first. */
  function RegisterTeacherIntended(users: seq<Account>, teachers: seq<TeacherDoc>, f: Form, x: TeacherExtras,
                                   v: Validators, hash: string -> string, teacherRole: string): (r: Registered<TeacherDoc>)
    ensures EmailTaken(users, Value(f.email)) ==> r.store == teachers && r.reply.status == 400
    ensures !EmailTaken(users, Value(f.email)) ==> r == RegisterTeacher(teachers, f, x, v, hash, teacherRole)
  {
    if !EmailTaken(users, Value(f.email)) then RegisterTeacher(teachers, f, x, v, hash, teacherRole)
    else
      // an earlier failing check keeps its own message
      var written := RegisterTeacher(teachers, f, x, v, hash, teacherRole);
      Registered(teachers, if written.reply.status == 400 then written.reply
                           else Reply(400, ErrorMessage(DuplicateEmail(false))))
  }

  /** A teacher the intended route registered had an email no user or teacher
      had, and a password; the new document is appended. */
  lemma IntendedTeacherStored(users: seq<Account>, teachers: seq<TeacherDoc>, f: Form, x: TeacherExtras,
                              v: Validators, hash: string -> string, role: string)
    requires RegisterTeacherIntended(users, teachers, f, x, v, hash, role).reply.status == 201
    ensures Truthy(f.email) && Truthy(f.password)
    ensures !EmailTaken(users, Value(f.email)) && !EmailTaken(Accounts(teachers), Value(f.email))
    ensures Accounts(RegisterTeacherIntended(users, teachers, f, x, v, hash, role).store)
              == Accounts(teachers) + [NewTeacher(f, x, hash, role).account]
  {
    ChecksPassed(f, TeacherRequired(x), Accounts(teachers), true, v);
    var r := RegisterTeacherIntended(users, teachers, f, x, v, hash, role);
    assert Accounts(r.store) == Accounts(teachers) + [NewTeacher(f, x, hash, role).account];
  }

  /** With the intended check a newly registered teacher logs in with the
      same email and password and gets the new teacher account. */
  lemma {:induction false} RegisteredTeacherLogsIn(users: seq<Account>, teachers: seq<TeacherDoc>, f: Form,
                                                   x: TeacherExtras, v: Validators, hash: string -> string,
                                                   role: string, matches: (string, string) -> bool)
    requires RegisterTeacherIntended(users, teachers, f, x, v, hash, role).reply.status == 201
    requires matches(Value(f.password), hash(Value(f.password)))
    ensures var r := RegisterTeacherIntended(users, teachers, f, x, v, hash, role);
      Login(users, Accounts(r.store), f.email, f.password, matches)
        == LoginResult(Reply(200, "Login successful"), Some(NewTeacher(f, x, hash, role).account))
  {
    IntendedTeacherStored(users, teachers, f, x, v, hash, role);
    FindsAppended(Accounts(teachers), NewTeacher(f, x, hash, role).account);
  }
}

=== FILE: booking_modal.dfy ===
/** The booking dialog (frontend/src/components/BookingModal.js): the price
    of each booking type, the slots offered for a date, the three-step flow
    and the request it sends. */
module BookingModal {
  import opened Common
  import opened Dates
  import Bookings
  import TeacherRoutes

  type Slot = TeacherRoutes.Slot

  /** One `availability` entry of a teacher: a weekday name and its slots. */
  type DayAvailability = TeacherRoutes.DayAvailability

  /** The teacher fields the dialog reads; a missing exam rate is `None`. */
  datatype TeacherInfo = TeacherInfo(
    id: string, examSpecialistRate: Option<int>, monthlyRate: int, availability: seq<DayAvailability>)

  /** `calculateAmount`: a demo costs 500, an exam the teacher's exam rate
      (10000 when it is missing or 0), anything else the monthly rate. */
  function CalculateAmount(bookingType: string, t: TeacherInfo): (amount: int)
    ensures bookingType == "demo" ==> amount == 500
    ensures bookingType == "exam" && (t.examSpecialistRate.None? || t.examSpecialistRate.value == 0) ==> amount == 10000
    ensures bookingType == "exam" && t.examSpecialistRate.Some? && t.examSpecialistRate.value != 0 ==>
      amount == t.examSpecialistRate.value
    ensures bookingType != "demo" && bookingType != "exam" ==> amount == t.monthlyRate
  {
    if bookingType == "demo" then 500
    else if bookingType == "exam" then
      (if t.examSpecialistRate.None? || t.examSpecialistRate.value == 0 then 10000 else t.examSpecialistRate.value)
    else t.monthlyRate
  }

  /** The English name of a day's weekday, or `None` for an invalid date
      (where `getDay` yields NaN and no name). */
  function DayName(d: Day): (name: Option<string>)
    ensures name.Some? <==> ValidDay(d)
    ensures name.Some? ==> name.value in WeekdayNames
  {
    if ValidDay(d) then Some(WeekdayNames[Weekday(d)]) else None
  }

  /** `getAvailableSlots(date)`: no date offers nothing; otherwise the slots of
      the first availability entry for the date's weekday, or nothing. */
  function AvailableSlots(date: Option<Day>, t: TeacherInfo): (slots: seq<Slot>)
    ensures date.None? ==> slots == []
    ensures |slots| > 0 ==>
      (&& date.Some? && DayName(date.value).Some?
       && exists k :: 0 <= k < |t.availability| && t.availability[k].day == DayName(date.value).value
                      && t.availability[k].slots == slots)
  {
    if date.None? then []
    else match DayName(date.value)
      case None => []
      case Some(name) =>
        match FindIndex((a: DayAvailability) => a.day == name, t.availability)
        case None => []
        case Some(k) => t.availability[k].slots
  }

  /** When several entries name the same weekday, the first one wins. */
  lemma FirstEntryWins(d: Day, t: TeacherInfo, k: nat)
    requires DayName(d).Some? && k < |t.availability| && t.availability[k].day == DayName(d).value
    requires forall j :: 0 <= j < k ==> t.availability[j].day != DayName(d).value
    ensures AvailableSlots(Some(d), t) == t.availability[k].slots
  {
  }

  /** The dialog's state: the step (1..3), the booking type and the chosen
      date and slot start (`''` is `None`/empty). */
  datatype ModalState = ModalState(step: int, bookingType: string, date: Option<Day>, slot: string,
                                   subject: string, cls: string)

  /** The date input's change handler: a new date always clears the slot. */
  function OnDateChange(st: ModalState, d: Option<Day>): (r: ModalState)
    ensures r.date == d && r.slot == ""
    ensures r.step == st.step && r.bookingType == st.bookingType
  {
    st.(date := d, slot := "")
  }

  function OnSlotClick(st: ModalState, s: Slot): (r: ModalState)
    ensures r.slot == s.start && r.date == st.date
  {
    st.(slot := s.start)
  }

  /** The step-2 "Next" button is enabled only with both a date and a slot. */
  function NextEnabled(st: ModalState): (b: bool)
    ensures b <==> st.date.Some? && st.slot != ""
  {
    st.date.Some? && st.slot != ""
  }

  /** Changing the date always disables "Next" until a slot is picked again. */
  lemma DateChangeBlocksNext(st: ModalState, d: Option<Day>)
    ensures !NextEnabled(OnDateChange(st, d))
  {
  }

  function HandleNext(st: ModalState): (r: ModalState)
    ensures r.step == st.step + 1 && r.(step := st.step) == st
  {
    st.(step := st.step + 1)
  }

  function HandleBack(st: ModalState): (r: ModalState)
    ensures r.step == st.step - 1 && r.(step := st.step) == st
  {
    st.(step := st.step - 1)
  }

  lemma BackUndoesNext(st: ModalState)
    ensures HandleBack(HandleNext(st)) == st
  {
  }

  /** The `bookingData` posted to create the booking. No duration is sent. */
  function BookingRequest(st: ModalState, t: TeacherInfo, address: Option<string>): (req: Bookings.CreateRequest)
    ensures req.amount == Some(CalculateAmount(st.bookingType, t))
    ensures req.duration.None? && req.notes == Some("Booking from web app")
    ensures req.scheduledDate == st.date && req.scheduledTime == Some(st.slot)
  {
    Bookings.CreateRequest(Some(t.id), Some(st.subject), Some(st.cls), Some(st.bookingType), st.date,
                           Some(st.slot), None, Some(CalculateAmount(st.bookingType, t)), address,
                           Some("Booking from web app"))
  }

  /** A request sent past the step-2 gate with a subject, class, teacher and
      non-zero price passes the route's required-field check, and the booking
      gets the default duration of 60. */
  lemma GatedRequestIsComplete(st: ModalState, t: TeacherInfo, address: Option<string>, me: Bookings.Caller,
                               orderId: string, today: Day)
    requires NextEnabled(st) && st.subject != "" && st.cls != "" && st.bookingType != "" && t.id != ""
    requires CalculateAmount(st.bookingType, t) != 0
    ensures Bookings.HasRequired(BookingRequest(st, t, address))
    ensures Bookings.NewBooking(me, BookingRequest(st, t, address), orderId, today).duration == 60
  {
  }

  /** The checkout widget's amount in paise. */
  function CheckoutAmount(b: Bookings.Booking): (paise: int)
    ensures paise == Bookings.OrderAmount(b.amount)
  {
    b.amount * 100
  }

  /** The checkout charges exactly the order the route requested for the
      booking it created. */
  lemma {:induction false} CheckoutMatchesOrder(store: Bookings.Store, teachers: set<string>, me: Bookings.Caller,
                                                req: Bookings.CreateRequest, order: Bookings.OrderOutcome,
                                                today: Day)
    requires Bookings.Create(store, teachers, me, req, order, today).reply.status == 201
    ensures var o := Bookings.Create(store, teachers, me, req, order, today);
      o.orderRequested == Some(CheckoutAmount(o.store[|store|]))
  {
    var o := Bookings.Create(store, teachers, me, req, order, today);
    assert o.store[|store|] == Bookings.NewBooking(me, req, order.orderId, today);
  }
}

=== FILE: bookings.dfy ===
/** The booking and payment lifecycle (backend/routes/bookings.js): creating
    a booking with its payment order, confirming the payment, completing a
    demo, cancelling, and who may see or change a booking.

    Bookings live in a store whose positions are their ids. The payment
    provider and the clock are parameters; `protect` has already supplied the
    logged-in caller. */
module Bookings {
  import opened Common
  import opened Dates
  import Notification

  type UserId = string

  datatype BookingStatus = Pending | Confirmed | Completed | Cancelled
  datatype PaymentStatus = PaymentPending | Held | Released | Refunded

  datatype Booking = Booking(
    studentId: UserId,
    teacherId: UserId,
    subject: string,
    cls: string,
    bookingType: string,
    scheduledDate: Day,
    scheduledTime: string,
    duration: int,
    amount: int,
    paymentStatus: PaymentStatus,
    orderId: string,
    paymentId: Option<string>,
    bookingStatus: BookingStatus,
    demoCompleted: bool,
    demoSatisfactory: Option<bool>,
    address: Option<string>,
    notes: Option<string>,
    createdAt: Day)

  type Store = seq<Booking>

  /** The logged-in user as `protect` provides it. */
  datatype Caller = Caller(id: UserId, role: string, name: string)

  /** An HTTP status and the `message` of the JSON body. */
  datatype Reply = Reply(status: int, message: string)

  // ---------------------------------------------------------------- invariants

  predicate IsDemo(b: Booking) {
    b.bookingType == "demo"
  }

  /** The pairings of booking status and payment status the routes produce:
      a demo's payment is never merely pending; a pending booking's payment
      is pending or held; a confirmed one is held for a demo and released
      otherwise; a completed one is a satisfactory, released demo; a
      cancelled one was never paid or was refunded. Only demos are ever
      marked as completed demos. */
  predicate WellFormed(b: Booking) {
    && (IsDemo(b) ==> b.paymentStatus != PaymentPending)
    && (!IsDemo(b) ==> !b.demoCompleted)
    && (b.bookingStatus == Pending ==> b.paymentStatus in {PaymentPending, Held})
    && (b.bookingStatus == Confirmed ==> b.paymentStatus == if IsDemo(b) then Held else Released)
    && (b.bookingStatus == Completed ==>
          b.paymentStatus == Released && b.demoCompleted && b.demoSatisfactory == Some(true))
    && (b.bookingStatus == Cancelled ==> b.paymentStatus in {PaymentPending, Refunded})
  }

  predicate AllWellFormed(store: Store) {
    forall k :: 0 <= k < |store| ==> WellFormed(store[k])
  }

  /** A booking that still occupies its slot. */
  predicate Active(b: Booking) {
    b.bookingStatus == Pending || b.bookingStatus == Confirmed
  }

  predicate InSlot(b: Booking, teacher: UserId, date: Day, time: string) {
    b.teacherId == teacher && b.scheduledDate == date && b.scheduledTime == time
  }

  /** No teacher has two active bookings for the same date and time. */
  predicate NoDoubleBooking(store: Store) {
    forall i, j :: 0 <= i < j < |store| && Active(store[i]) && Active(store[j]) ==>
      !InSlot(store[j], store[i].teacherId, store[i].scheduledDate, store[i].scheduledTime)
  }

  // -------------------------------------------------------------------- create

  /** The body of `POST /api/bookings`; absent fields are `None`. */
  datatype CreateRequest = CreateRequest(
    teacherId: Option<UserId>,
    subject: Option<string>,
    cls: Option<string>,
    bookingType: Option<string>,
    scheduledDate: Option<Day>,
    scheduledTime: Option<string>,
    duration: Option<int>,
    amount: Option<int>,
    address: Option<string>,
    notes: Option<string>)

  /** A string field that JavaScript treats as true: present and non-empty. */
  predicate Given(s: Option<string>) {
    s.Some? && s.value != ""
  }

  /** All seven required fields are truthy (an amount of 0 is missing). */
  predicate HasRequired(req: CreateRequest) {
    && Given(req.teacherId) && Given(req.subject) && Given(req.cls) && Given(req.bookingType)
    && req.scheduledDate.Some? && Given(req.scheduledTime)
    && req.amount.Some? && req.amount.value != 0
  }

  /** An active booking of the same teacher at the same date and time exists. */
  predicate HasConflict(store: Store, teacher: UserId, date: Day, time: string) {
    exists k :: 0 <= k < |store| && Active(store[k]) && InSlot(store[k], teacher, date, time)
  }

  /** What the payment provider answered to the order request. */
  datatype OrderOutcome = OrderCreated(orderId: string) | OrderFailed

  /** The order amount in paise for an amount in rupees. */
  function OrderAmount(amount: int): (paise: int)
    ensures paise / 100 == amount && paise % 100 == 0
  {
    amount * 100
  }

  /** The booking stored for a valid request on day `today`. */
  function NewBooking(me: Caller, req: CreateRequest, orderId: string, today: Day): (b: Booking)
    requires HasRequired(req)
    ensures b.bookingStatus == Pending && b.paymentId.None? && !b.demoCompleted
    ensures b.paymentStatus == if req.bookingType.value == "demo" then Held else PaymentPending
    ensures b.duration == if req.duration.None? || req.duration.value == 0 then 60 else req.duration.value
    ensures b.studentId == me.id && b.teacherId == req.teacherId.value && b.amount == req.amount.value
    ensures InSlot(b, req.teacherId.value, req.scheduledDate.value, req.scheduledTime.value)
    ensures WellFormed(b) && Active(b) && b.createdAt == today
  {
    Booking(me.id, req.teacherId.value, req.subject.value, req.cls.value, req.bookingType.value,
            req.scheduledDate.value, req.scheduledTime.value,
            if req.duration.None? || req.duration.value == 0 then 60 else req.duration.value,
            req.amount.value,
            if req.bookingType.value == "demo" then Held else PaymentPending,
            orderId, None, Pending, false, None, req.address, req.notes, today)
  }

  /** The result of creating a booking: the store, the reply, and the paise
      amount of the payment order if one was requested. */
  datatype CreateOutcome = CreateOutcome(store: Store, reply: Reply, orderRequested: Option<int>)

  /** `POST /api/bookings`: role, required fields, teacher, slot conflict and
      payment order are checked in that order; the first failure answers and
      stores nothing. */
  function Create(store: Store, teachers: set<UserId>, me: Caller, req: CreateRequest,
                  order: OrderOutcome, today: Day): (o: CreateOutcome)
    ensures me.role != "student" ==>
      o == CreateOutcome(store, Reply(403, "Only students can create bookings"), None)
    ensures me.role == "student" && !HasRequired(req) ==>
      o == CreateOutcome(store, Reply(400, "Please provide all required booking details"), None)
    ensures me.role == "student" && HasRequired(req) && req.teacherId.value !in teachers ==>
      o == CreateOutcome(store, Reply(404, "Teacher not found"), None)
    ensures me.role == "student" && HasRequired(req) && req.teacherId.value in teachers
            && HasConflict(store, req.teacherId.value, req.scheduledDate.value, req.scheduledTime.value) ==>
      o == CreateOutcome(store, Reply(400, "This time slot is already booked"), None)
    ensures me.role == "student" && HasRequired(req) && req.teacherId.value in teachers
            && !HasConflict(store, req.teacherId.value, req.scheduledDate.value, req.scheduledTime.value) ==>
      && o.orderRequested == Some(OrderAmount(req.amount.value))
      && (order.OrderCreated? ==>
            o == CreateOutcome(store + [NewBooking(me, req, order.orderId, today)],
                               Reply(201, "Booking created successfully"), o.orderRequested))
    ensures o.orderRequested.Some? ==> o.orderRequested.value == OrderAmount(req.amount.value)
    ensures o.store != store <==> o.reply.status == 201
    ensures o.reply.status == 201 ==>
      && order.OrderCreated?
      && o.store == store + [NewBooking(me, req, order.orderId, today)]
      && !HasConflict(store, req.teacherId.value, req.scheduledDate.value, req.scheduledTime.value)
    ensures o.orderRequested.Some? && order.OrderFailed? ==>
      o == CreateOutcome(store, Reply(500, "Error creating payment order"), o.orderRequested)
    ensures AllWellFormed(store) ==> AllWellFormed(o.store)
  {
    if me.role != "student" then CreateOutcome(store, Reply(403, "Only students can create bookings"), None)
    else if !HasRequired(req) then
      CreateOutcome(store, Reply(400, "Please provide all required booking details"), None)
    else if req.teacherId.value !in teachers then CreateOutcome(store, Reply(404, "Teacher not found"), None)
    else if HasConflict(store, req.teacherId.value, req.scheduledDate.value, req.scheduledTime.value) then
      CreateOutcome(store, Reply(400, "This time slot is already booked"), None)
    else
      var paise := OrderAmount(req.amount.value);
      match order
      case OrderFailed => CreateOutcome(store, Reply(500, "Error creating payment order"), Some(paise))
      case OrderCreated(orderId) =>
        var b := NewBooking(me, req, orderId, today);
        assert |store + [b]| != |store|;
        CreateOutcome(store + [b], Reply(201, "Booking created successfully"), Some(paise))
  }

  /** Creation never puts a second active booking into an occupied slot. */
  lemma {:induction false} CreateKeepsSlotsSingle(store: Store, teachers: set<UserId>, me: Caller,
                                                 req: CreateRequest, order: OrderOutcome, today: Day)
    requires NoDoubleBooking(store)
    ensures NoDoubleBooking(Create(store, teachers, me, req, order, today).store)
  {
    var o := Create(store, teachers, me, req, order, today);
    if o.reply.status == 201 {
      var b := NewBooking(me, req, order.orderId, today);
      var s := store + [b];
      forall i, j | 0 <= i < j < |s| && Active(s[i]) && Active(s[j])
        ensures !InSlot(s[j], s[i].teacherId, s[i].scheduledDate, s[i].scheduledTime)
      {
        if j == |store| {
          assert s[i] == store[i] && s[j] == b;
        } else {
          assert s[i] == store[i] && s[j] == store[j];
        }
      }
    }
  }

  // ------------------------------------------------------------ verify payment

  /** A booking id names a stored booking. */
  predicate Found(store: Store, id: int) {
    0 <= id < |store|
  }

  /** `POST /api/bookings/verify-payment`: any caller may confirm any stored
      booking; its prior status is not consulted. A demo's payment is held,
      every other payment released. */
  function VerifyPayment(store: Store, id: int, paymentId: Option<string>): (o: (Store, Reply))
    ensures !Found(store, id) ==> o == (store, Reply(404, "Booking not found"))
    ensures Found(store, id) ==>
      && o.1 == Reply(200, "Payment verified successfully")
      && |o.0| == |store|
      && (forall k :: 0 <= k < |store| && k != id ==> o.0[k] == store[k])
      && o.0[id].bookingStatus == Confirmed
      && o.0[id].paymentStatus == (if IsDemo(store[id]) then Held else Released)
      && o.0[id].paymentId == paymentId
      && o.0[id] == store[id].(bookingStatus := o.0[id].bookingStatus,
                               paymentStatus := o.0[id].paymentStatus, paymentId := paymentId)
    ensures AllWellFormed(store) ==> AllWellFormed(o.0)
  {
    if !Found(store, id) then (store, Reply(404, "Booking not found"))
    else
      var b := store[id];
      var b' := b.(paymentId := paymentId, bookingStatus := Confirmed,
                   paymentStatus := if IsDemo(b) then Held else Released);
      (store[id := b'], Reply(200, "Payment verified successfully"))
  }

  /** Because the prior status is not consulted, confirming the payment of a
      cancelled booking reactivates it even when another booking has since
      taken its slot. */
  lemma VerifyPaymentCanDoubleBook(first: Booking, second: Booking)
    requires first.bookingStatus == Cancelled && second.bookingStatus == Pending
    requires InSlot(second, first.teacherId, first.scheduledDate, first.scheduledTime)
    ensures NoDoubleBooking([first, second])
    ensures !NoDoubleBooking(VerifyPayment([first, second], 0, None).0)
  {
    var s := VerifyPayment([first, second], 0, None).0;
    assert Active(s[0]) && Active(s[1]);
  }

  // ------------------------------------------------------------- complete demo

  /** The outcome of a demo evaluation: the store, the reply, the notice sent
      to the teacher, and the teacher whose `totalStudents` was incremented. */
  datatype DemoOutcome = DemoOutcome(
    store: Store, reply: Reply, notice: Option<Notification.Notice>, studentAddedTo: Option<UserId>)

  /** The teacher's notice about a demo evaluation by `studentName`. */
  function DemoNoticeInput(b: Booking, id: nat, studentName: string, satisfactory: bool): (n: Notification.NoticeInput)
    ensures n.recipient == Some(b.teacherId) && n.relatedBookingId == Some(id)
    ensures n.kind == Some(if satisfactory then "success" else "error")
    ensures n.message.Some? && n.message.value != "" && n.read.None?
  {
    Notification.NoticeInput(
      Some(b.teacherId),
      Some(if satisfactory then "Demo with " + studentName + " marked as Satisfactory. Payment released."
           else "Demo with " + studentName + " marked as Unsatisfactory. Booking cancelled."),
      Some(if satisfactory then "success" else "error"),
      None,
      Some(id))
  }

  /** `POST /api/bookings/:id/complete-demo`: only a student, only for a stored
      booking, only its own student, only a demo. A satisfactory demo releases
      the payment and completes the booking; otherwise the payment is refunded
      and the booking cancelled. Either way the demo is marked completed and
      the teacher is notified. Neither the booking's status nor an earlier
      evaluation is consulted. */
  function CompleteDemo(store: Store, me: Caller, id: int, satisfactory: bool, now: int): (o: DemoOutcome)
    ensures me.role != "student" ==>
      o == DemoOutcome(store, Reply(403, "Only students can complete demo evaluation"), None, None)
    ensures me.role == "student" && !Found(store, id) ==>
      o == DemoOutcome(store, Reply(404, "Booking not found"), None, None)
    ensures me.role == "student" && Found(store, id) && store[id].studentId != me.id ==>
      o == DemoOutcome(store, Reply(403, "Not authorized to complete this demo"), None, None)
    ensures me.role == "student" && Found(store, id) && store[id].studentId == me.id && !IsDemo(store[id]) ==>
      o == DemoOutcome(store, Reply(400, "This is not a demo booking"), None, None)
    ensures o.reply.status == 200 <==>
      me.role == "student" && Found(store, id) && store[id].studentId == me.id && IsDemo(store[id])
    ensures o.reply.status == 200 ==>
      && |o.store| == |store|
      && (forall k :: 0 <= k < |store| && k != id ==> o.store[k] == store[k])
      && o.store[id].demoCompleted && o.store[id].demoSatisfactory == Some(satisfactory)
      && o.store[id].paymentStatus == (if satisfactory then Released else Refunded)
      && o.store[id].bookingStatus == (if satisfactory then Completed else Cancelled)
      && o.notice.Some? && o.notice.value.recipient == store[id].teacherId
      && o.notice.value.kind == (if satisfactory then "success" else "error")
      && !o.notice.value.read && o.notice.value.relatedBookingId == Some(id as nat)
      && o.studentAddedTo == (if satisfactory then Some(store[id].teacherId) else None)
    ensures o.reply.status != 200 ==> o.store == store && o.notice.None? && o.studentAddedTo.None?
    ensures AllWellFormed(store) ==> AllWellFormed(o.store)
  {
    if me.role != "student" then
      DemoOutcome(store, Reply(403, "Only students can complete demo evaluation"), None, None)
    else if !Found(store, id) then DemoOutcome(store, Reply(404, "Booking not found"), None, None)
    else if store[id].studentId != me.id then
      DemoOutcome(store, Reply(403, "Not authorized to complete this demo"), None, None)
    else if !IsDemo(store[id]) then DemoOutcome(store, Reply(400, "This is not a demo booking"), None, None)
    else
      var b := store[id];
      var b' := b.(demoCompleted := true, demoSatisfactory := Some(satisfactory),
                   paymentStatus := if satisfactory then Released else Refunded,
                   bookingStatus := if satisfactory then Completed else Cancelled);
      var created := Notification.Create(DemoNoticeInput(b, id, me.name, satisfactory), now);
      DemoOutcome(store[id := b'],
                  Reply(200, if satisfactory then "Demo marked as satisfactory"
                             else "Booking cancelled and refund initiated"),
                  Some(created.notice),
                  if satisfactory then Some(b.teacherId) else None)
  }

  /** A second evaluation overrides the first: a demo refunded as
      unsatisfactory is released and completed when evaluated again as
      satisfactory. */
  lemma ReevaluationReleasesRefundedDemo(store: Store, me: Caller, id: int, now: int)
    requires me.role == "student" && Found(store, id) && store[id].studentId == me.id && IsDemo(store[id])
    ensures var first := CompleteDemo(store, me, id, false, now).store;
      && first[id].paymentStatus == Refunded
      && CompleteDemo(first, me, id, true, now).store[id].paymentStatus == Released
  {
  }

  // -------------------------------------------------------------------- cancel

  /** The booking's own student or teacher. */
  predicate IsParty(b: Booking, me: Caller) {
    b.studentId == me.id || b.teacherId == me.id
  }

  /** `PUT /api/bookings/:id/cancel`: a party to the booking may cancel it
      unless it is completed or already cancelled; a held or released payment
      is refunded, a pending one stays pending. */
  function Cancel(store: Store, me: Caller, id: int): (o: (Store, Reply))
    ensures !Found(store, id) ==> o == (store, Reply(404, "Booking not found"))
    ensures Found(store, id) && !IsParty(store[id], me) ==>
      o == (store, Reply(403, "Not authorized to cancel this booking"))
    ensures Found(store, id) && IsParty(store[id], me) && !Active(store[id]) ==>
      o == (store, Reply(400, "Cannot cancel this booking"))
    ensures o.1.status == 200 <==> Found(store, id) && IsParty(store[id], me) && Active(store[id])
    ensures o.1.status == 200 ==>
      && |o.0| == |store|
      && (forall k :: 0 <= k < |store| && k != id ==> o.0[k] == store[k])
      && o.0[id].bookingStatus == Cancelled
      && o.0[id].paymentStatus == (if store[id].paymentStatus in {Held, Released} then Refunded
                                   else store[id].paymentStatus)
      && o.0[id] == store[id].(bookingStatus := Cancelled, paymentStatus := o.0[id].paymentStatus)
    ensures o.1.status != 200 ==> o.0 == store
    ensures AllWellFormed(store) ==> AllWellFormed(o.0)
  {
    if !Found(store, id) then (store, Reply(404, "Booking not found"))
    else if !IsParty(store[id], me) then (store, Reply(403, "Not authorized to cancel this booking"))
    else if !Active(store[id]) then (store, Reply(400, "Cannot cancel this booking"))
    else
      var b := store[id];
      var pay := if b.paymentStatus == Held || b.paymentStatus == Released then Refunded else b.paymentStatus;
      (store[id := b.(bookingStatus := Cancelled, paymentStatus := pay)], Reply(200, "Booking cancelled successfully"))
  }

  /** Cancelling and completing demos only ever free slots. */
  lemma {:induction false} CancelAndDemoKeepSlotsSingle(store: Store, me: Caller, id: int, satisfactory: bool, now: int)
    requires NoDoubleBooking(store)
    ensures NoDoubleBooking(Cancel(store, me, id).0)
    ensures NoDoubleBooking(CompleteDemo(store, me, id, satisfactory, now).store)
  {
    CancelKeepsSlotsSingle(store, me, id);
    DemoKeepsSlotsSingle(store, me, id, satisfactory, now);
  }

  /** Cancelling keeps at most one active booking per slot. */
  lemma CancelKeepsSlotsSingle(store: Store, me: Caller, id: int)
    requires NoDoubleBooking(store)
    ensures NoDoubleBooking(Cancel(store, me, id).0)
  {
    FreeingKeepsSlotsSingle(store, Cancel(store, me, id).0);
  }

  /** Completing a demo keeps at most one active booking per slot. */
  lemma DemoKeepsSlotsSingle(store: Store, me: Caller, id: int, satisfactory: bool, now: int)
    requires NoDoubleBooking(store)
    ensures NoDoubleBooking(CompleteDemo(store, me, id, satisfactory, now).store)
  {
    FreeingKeepsSlotsSingle(store, CompleteDemo(store, me, id, satisfactory, now).store);
  }

  /** A store obtained by deactivating bookings (and changing nothing a slot
      depends on) has no double booking if the original had none. */
  lemma {:induction false} FreeingKeepsSlotsSingle(store: Store, s: Store)
    requires NoDoubleBooking(store) && |s| == |store|
    requires forall k :: 0 <= k < |s| ==> s[k] == store[k] || !Active(s[k])
    ensures NoDoubleBooking(s)
  {
    forall i, j | 0 <= i < j < |s| && Active(s[i]) && Active(s[j])
      ensures !InSlot(s[j], s[i].teacherId, s[i].scheduledDate, s[i].scheduledTime)
    {
      assert s[i] == store[i] && s[j] == store[j];
    }
  }

  // ---------------------------------------------------------------------- view

  /** `GET /api/bookings/:id`: the booking, to its own student or teacher only. */
  function View(store: Store, me: Caller, id: int): (o: (Reply, Option<Booking>))
    ensures o.1.Some? <==> Found(store, id) && IsParty(store[id], me)
    ensures o.1.Some? ==> o.1.value == store[id] && o.0.status == 200
    ensures !Found(store, id) ==> o.0 == Reply(404, "Booking not found")
    ensures Found(store, id) && !IsParty(store[id], me) ==> o.0 == Reply(403, "Not authorized to view this booking")
  {
    if !Found(store, id) then (Reply(404, "Booking not found"), None)
    else if !IsParty(store[id], me) then (Reply(403, "Not authorized to view this booking"), None)
    else (Reply(200, ""), Some(store[id]))
  }

  /** `s` in reverse order. */
  function Reverse<T>(s: seq<T>): (r: seq<T>)
    ensures |r| == |s| && forall k :: 0 <= k < |s| ==> r[k] == s[|s| - 1 - k]
    decreases |s|
  {
    if |s| == 0 then [] else Reverse(s[1..]) + [s[0]]
  }

  /** Reversing twice gives the sequence back. */
  lemma ReverseTwice<T>(s: seq<T>)
    ensures Reverse(Reverse(s)) == s
  {
    var r := Reverse(Reverse(s));
    assert forall k :: 0 <= k < |s| ==> r[k] == s[k];
  }

  /** The reversed filter holds exactly the matching bookings and lists them
      in the reverse of their stored (creation) order. */
  lemma OwnNewestFirst(p: Booking -> bool, store: Store)
    ensures forall b :: b in Reverse(Filter(p, store)) <==> b in store && p(b)
    ensures IsSubsequence(Reverse(Reverse(Filter(p, store))), store)
  {
    var f := Filter(p, store);
    var r := Reverse(f);
    FilterExactly(p, store);
    forall b ensures b in r <==> b in f {
      if b in f {
        var k :| 0 <= k < |f| && f[k] == b;
        assert r[|f| - 1 - k] == b;
      }
    }
    ReverseTwice(f);
    FilterIsSubsequence(p, store);
  }

  /** `GET /api/bookings`: a student's or a teacher's own bookings, newest
      first (later positions were created later). Any other role finds no list
      and the route answers 500. */
  function ListFor(store: Store, me: Caller): (r: Option<seq<Booking>>)
    ensures r.Some? <==> me.role == "student" || me.role == "teacher"
    ensures r.Some? && me.role == "student" ==>
      forall b :: b in r.value <==> b in store && b.studentId == me.id
    ensures r.Some? && me.role == "teacher" ==>
      forall b :: b in r.value <==> b in store && b.teacherId == me.id
    ensures r.Some? ==> IsSubsequence(Reverse(r.value), store)
  {
    if me.role == "student" then
      var mine := (b: Booking) => b.studentId == me.id;
      OwnNewestFirst(mine, store);
      Some(Reverse(Filter(mine, store)))
    else if me.role == "teacher" then
      var mine := (b: Booking) => b.teacherId == me.id;
      OwnNewestFirst(mine, store);
      Some(Reverse(Filter(mine, store)))
    else None
  }
}

=== FILE: call_client.dfy ===
/** The client side of audio calls (frontend/src/context/CallContext.js):
    the `callStatus` machine, the recorded `call`, and the signalling
    messages the client sends through its socket.

    This module is the machine with one socket listener per event, each
    reading the current state: the behaviour the handlers evidently intend.
    As written the effect adds a fresh set of listeners on every status change
    and never removes one; module CallListeners models that. The user actions
    run in the latest render, so they act on the state current when invoked;
    an async action that fails later still acts on that observed state.
    Media and WebRTC work is reduced to whether it succeeded and the opaque
    SDP it produced. */
module CallClient {
  import opened Common

  type UserId = string
  /** An SDP offer/answer or an ICE candidate, never interpreted here. */
  type Signal = string

  datatype CallStatus = Idle | Calling | Incoming | Connected

  /** The other participant as the client records it (`otherUser`). */
  datatype Participant = Participant(id: UserId, name: string)

  /** The `call` record: incoming calls keep the caller's offer. */
  datatype Call = Call(isIncoming: bool, otherUser: Participant, offer: Option<Signal>)

  /** An open `RTCPeerConnection`. `capturedCall` is the `call` value its
      `onicecandidate` handler closed over when `createPeer` ran. */
  datatype PeerConnection = PeerConnection(capturedCall: Option<Call>)

  datatype CallState = CallState(status: CallStatus, call: Option<Call>, peer: Option<PeerConnection>)

  /** What the client emits through `socketService`. */
  datatype Outgoing =
    | CallUserMsg(to: UserId, offer: Signal, from: UserId, name: string)
    | AcceptCallMsg(to: UserId, answer: Signal)
    | RejectCallMsg(to: UserId)
    | EndCallMsg(to: UserId)
    | IceCandidateMsg(to: UserId, candidate: Signal)

  datatype Transition = Transition(state: CallState, out: seq<Outgoing>)

  /** Whether `getUserMedia` and the SDP steps succeeded, and with what SDP. */
  datatype MediaOutcome = MediaReady(sdp: Signal) | MediaFailed

  const Initial: CallState := CallState(Idle, None, None)

  /** The invariant the machine keeps: a call is recorded exactly when the
      status is not idle, and a peer connection exists only during a call. */
  predicate Consistent(st: CallState) {
    && (st.status == Idle <==> st.call.None?)
    && (st.peer.Some? ==> st.status != Idle)
  }

  /** `endCall`, run by a handler that observed `observed` as `call`: tell the
      other participant if one was recorded, close the peer, reset to idle. */
  function EndCall(observed: Option<Call>): (t: Transition)
    ensures t.state == Initial
    ensures observed.None? ==> t.out == []
    ensures observed.Some? ==> t.out == [EndCallMsg(observed.value.otherUser.id)]
  {
    Transition(Initial, if observed.Some? then [EndCallMsg(observed.value.otherUser.id)] else [])
  }

  /** `incoming-call`: accepted only when idle, otherwise ignored. */
  function OnIncomingCall(st: CallState, from: UserId, name: string, offer: Signal): (t: Transition)
    ensures t.out == []
    ensures st.status != Idle ==> t.state == st
    ensures st.status == Idle ==>
      && t.state.status == Incoming
      && t.state.call == Some(Call(true, Participant(from, name), Some(offer)))
      && t.state.peer == st.peer
  {
    if st.status != Idle then Transition(st, [])
    else Transition(CallState(Incoming, Some(Call(true, Participant(from, name), Some(offer))), st.peer), [])
  }

  /** `call-accepted`: moves a calling client to connected; ignored otherwise. */
  function OnCallAccepted(st: CallState): (t: Transition)
    ensures t.out == []
    ensures st.status == Calling ==> t.state == st.(status := Connected)
    ensures st.status != Calling ==> t.state == st
  {
    if st.status == Calling then Transition(st.(status := Connected), []) else Transition(st, [])
  }

  /** `call-rejected` and `call-ended` both run `endCall`. */
  function OnCallRejectedOrEnded(st: CallState): (t: Transition)
    ensures t.state == Initial
    ensures t.out == if st.call.Some? then [EndCallMsg(st.call.value.otherUser.id)] else []
  {
    EndCall(st.call)
  }

  /** A remote `ice-candidate` is applied exactly when a peer connection exists. */
  function AppliesRemoteCandidate(st: CallState): (applied: bool)
    ensures applied <==> st.peer.Some?
  {
    st.peer.Some?
  }

  /** `startCall(other)`: record an outgoing call and go to calling at once;
      then either send the offer through `call-user` or, on a media failure,
      run `endCall` as observed when `startCall` was invoked. */
  function StartCall(st: CallState, me: Participant, other: Participant, media: MediaOutcome): (t: Transition)
    ensures media.MediaReady? ==>
      && t.state.status == Calling
      && t.state.call == Some(Call(false, other, None))
      && t.state.peer == Some(PeerConnection(st.call))
      && t.out == [CallUserMsg(other.id, media.sdp, me.id, me.name)]
    ensures media.MediaFailed? ==> t == EndCall(st.call)
  {
    match media
    case MediaReady(offer) =>
      Transition(CallState(Calling, Some(Call(false, other, None)), Some(PeerConnection(st.call))),
                 [CallUserMsg(other.id, offer, me.id, me.name)])
    case MediaFailed => EndCall(st.call)
  }

  /** `acceptCall()`: go to connected before any media work; then either answer
      the recorded caller through `accept-call` or run `endCall`. Reading the
      offer of a missing call throws inside the `try`, and so does building a
      session description from a call record without an offer (an outgoing
      one); both end in `endCall`. */
  function AcceptCall(st: CallState, media: MediaOutcome): (t: Transition)
    ensures media.MediaReady? && st.call.Some? && st.call.value.offer.Some? ==>
      && t.state == CallState(Connected, st.call, Some(PeerConnection(st.call)))
      && t.out == [AcceptCallMsg(st.call.value.otherUser.id, media.sdp)]
    ensures media.MediaFailed? || st.call.None? || st.call.value.offer.None? ==> t == EndCall(st.call)
  {
    match media
    case MediaReady(answer) =>
      if st.call.None? || st.call.value.offer.None? then EndCall(st.call)
      else Transition(CallState(Connected, st.call, Some(PeerConnection(st.call))),
                      [AcceptCallMsg(st.call.value.otherUser.id, answer)])
    case MediaFailed => EndCall(st.call)
  }

  /** `rejectCall()`: `reject-call` to the caller, then `endCall`. Without a
      recorded call the first statement throws and nothing happens. */
  function RejectCall(st: CallState): (t: Transition)
    ensures st.call.None? ==> t == Transition(st, [])
    ensures st.call.Some? ==>
      var caller := st.call.value.otherUser.id;
      t.state == Initial && t.out == [RejectCallMsg(caller), EndCallMsg(caller)]
  {
    match st.call
    case None => Transition(st, [])
    case Some(c) => Transition(Initial, [RejectCallMsg(c.otherUser.id)] + EndCall(st.call).out)
  }

  /** The local peer produced an ICE candidate. As written, the handler reads
      the `call` its closure captured when the peer was created. */
  function LocalCandidate(st: CallState, candidate: Signal): (out: seq<Outgoing>)
    ensures st.peer.None? ==> out == []
    ensures st.peer.Some? && st.peer.value.capturedCall.Some? ==>
      out == [IceCandidateMsg(st.peer.value.capturedCall.value.otherUser.id, candidate)]
    ensures st.peer.Some? && st.peer.value.capturedCall.None? ==> out == []
  {
    match st.peer
    case None => []
    case Some(p) =>
      if p.capturedCall.Some? then [IceCandidateMsg(p.capturedCall.value.otherUser.id, candidate)] else []
  }

  /** The evidently intended candidate handler: send to the participant of the
      call recorded now. */
  function LocalCandidateIntended(st: CallState, candidate: Signal): (out: seq<Outgoing>)
    ensures st.peer.Some? && st.call.Some? <==> |out| == 1
    ensures |out| == 1 ==> out[0] == IceCandidateMsg(st.call.value.otherUser.id, candidate)
    ensures |out| <= 1
  {
    if st.peer.Some? && st.call.Some? then [IceCandidateMsg(st.call.value.otherUser.id, candidate)] else []
  }

  /** The inputs the call machine reacts to. */
  datatype CallEvent =
    | IncomingCallEvent(from: UserId, name: string, offer: Signal)
    | CallAcceptedEvent
    | CallRejectedEvent
    | CallEndedEvent
    | StartCallEvent(me: Participant, other: Participant, media: MediaOutcome)
    | AcceptCallEvent(media: MediaOutcome)
    | RejectCallEvent
    | HangUpEvent

  function Apply(st: CallState, ev: CallEvent): (t: Transition)
    ensures Consistent(st) ==> Consistent(t.state)
  {
    match ev
    case IncomingCallEvent(from, name, offer) => OnIncomingCall(st, from, name, offer)
    case CallAcceptedEvent => OnCallAccepted(st)
    case CallRejectedEvent => OnCallRejectedOrEnded(st)
    case CallEndedEvent => OnCallRejectedOrEnded(st)
    case StartCallEvent(me, other, media) => StartCall(st, me, other, media)
    case AcceptCallEvent(media) => AcceptCall(st, media)
    case RejectCallEvent => RejectCall(st)
    case HangUpEvent => EndCall(st.call)
  }

  /** The state and messages after a sequence of events. */
  function Run(st: CallState, events: seq<CallEvent>): (t: Transition)
    ensures Consistent(st) ==> Consistent(t.state)
    decreases |events|
  {
    if |events| == 0 then Transition(st, [])
    else
      var first := Apply(st, events[0]);
      var rest := Run(first.state, events[1..]);
      Transition(rest.state, first.out + rest.out)
  }

  /** Every path through `endCall` (rejection, remote end, hang-up, failed
      start or accept) leaves the client idle with no call and no peer. */
  lemma EndingEventsReachIdle(st: CallState, ev: CallEvent)
    requires ev.CallRejectedEvent? || ev.CallEndedEvent? || ev.HangUpEvent?
      || (ev.StartCallEvent? && ev.media.MediaFailed?) || (ev.AcceptCallEvent? && ev.media.MediaFailed?)
    ensures Apply(st, ev).state == Initial
  {
  }

  /** A caller that starts from idle never sends its ICE candidates: the peer's
      handler captured the empty `call` of the idle state. */
  lemma CallerCandidatesDropped(st: CallState, me: Participant, other: Participant, offer: Signal, c: Signal)
    requires Consistent(st) && st.status == Idle
    ensures LocalCandidate(StartCall(st, me, other, MediaReady(offer)).state, c) == []
  {
  }

  /** With the intended handler the caller's candidates reach the callee. */
  lemma CallerCandidatesSentWhenIntended(st: CallState, me: Participant, other: Participant, offer: Signal, c: Signal)
    ensures LocalCandidateIntended(StartCall(st, me, other, MediaReady(offer)).state, c)
              == [IceCandidateMsg(other.id, c)]
  {
  }

  /** The callee's candidates do reach the caller, because the callee's peer is
      created while the incoming call is recorded. */
  lemma CalleeCandidatesSent(st: CallState, from: UserId, name: string, offer: Signal, answer: Signal, c: Signal)
    requires st.status == Idle
    ensures var incoming := OnIncomingCall(st, from, name, offer).state;
            LocalCandidate(AcceptCall(incoming, MediaReady(answer)).state, c) == [IceCandidateMsg(from, c)]
  {
  }

  /** The call scenario seen from both clients: a calls b, b accepts, a gets the
      answer; both end up connected. */
  lemma {:induction false} BothSidesConnect(a: Participant, b: Participant, offer: Signal, answer: Signal)
    ensures var caller := StartCall(Initial, a, b, MediaReady(offer));
      var callee := OnIncomingCall(Initial, a.id, a.name, offer);
      var accepted := AcceptCall(callee.state, MediaReady(answer));
      var done := OnCallAccepted(caller.state);
      && caller.out == [CallUserMsg(b.id, offer, a.id, a.name)]
      && accepted.out == [AcceptCallMsg(a.id, answer)]
      && done.state.status == Connected && accepted.state.status == Connected
  {
  }
}

=== FILE: call_listeners.dfy ===
/** The socket listeners of frontend/src/context/CallContext.js as written.
    The effect at lines 20-70 depends on `callStatus`, so it runs again after
    every render in which the status changed. Each run registers a new set of
    listeners that closes over that render's `callStatus` and `call` (and the
    `endCall` of that render). The effect returns no cleanup, so no set is
    ever removed, and a socket event reaches every set registered so far,
    oldest first.

    The state updates made while one event is handled are batched into one
    render. User actions run in the latest render, as in module CallClient;
    `startCall` and `acceptCall` render their first status change before the
    media work settles. */
module CallListeners {
  import opened Common
  import opened CallClient

  /** What one run of the effect closed over. */
  datatype Snapshot = Snapshot(status: CallStatus, call: Option<Call>)

  /** The client as written: its state and the listener sets registered since
      mount, oldest first. */
  datatype Client = Client(state: CallState, listeners: seq<Snapshot>)

  /** The messages a client emits while it handles one input, and the client after. */
  datatype Step = Step(client: Client, out: seq<Outgoing>)

  function SnapshotOf(st: CallState): Snapshot {
    Snapshot(st.status, st.call)
  }

  /** Mounting runs the effect once, in the idle state. */
  const Mounted: Client := Client(Initial, [SnapshotOf(Initial)])

  /** The render that shows `st` after a state with status `before`: one more
      listener set exactly when the status changed, and none removed. */
  function Render(listeners: seq<Snapshot>, before: CallStatus, st: CallState): (c: Client)
    ensures c.state == st
    ensures listeners <= c.listeners && |c.listeners| <= |listeners| + 1
    ensures |c.listeners| == |listeners| + 1 <==> st.status != before
    ensures |c.listeners| == |listeners| + 1 ==> c.listeners[|listeners|] == Snapshot(st.status, st.call)
  {
    if st.status == before then Client(st, listeners)
    else Client(st, listeners + [SnapshotOf(st)])
  }

  /** The events the server pushes to the client. */
  datatype SocketEvent =
    | IncomingCall(from: UserId, name: string, offer: Signal)
    | CallAccepted
    | CallRejected
    | CallEnded

  /** The call record an `incoming-call` sets. */
  function IncomingRecord(from: UserId, name: string, offer: Signal): Call {
    Call(true, Participant(from, name), Some(offer))
  }

  /** The listener set that closed over `s` handles `ev` on the current state
      `st`: its guards read the captured status, and its `endCall` the
      captured call. */
  function Listen(s: Snapshot, st: CallState, ev: SocketEvent): (t: Transition)
    ensures ev.IncomingCall? || ev.CallAccepted? ==> t.out == []
    ensures ev.IncomingCall? && s.status != Idle ==> t.state == st
    ensures ev.CallAccepted? && s.status != Calling ==> t.state == st
    ensures ev.CallRejected? || ev.CallEnded? ==> t == EndCall(s.call)
  {
    match ev
    case IncomingCall(from, name, offer) =>
      if s.status != Idle then Transition(st, [])
      else Transition(CallState(Incoming, Some(IncomingRecord(from, name, offer)), st.peer), [])
    case CallAccepted =>
      if s.status == Calling then Transition(st.(status := Connected), []) else Transition(st, [])
    case CallRejected => EndCall(s.call)
    case CallEnded => EndCall(s.call)
  }

  /** Some listener set closed over the status `s`. */
  predicate Saw(ls: seq<Snapshot>, s: CallStatus) {
    exists i :: 0 <= i < |ls| && ls[i].status == s
  }

  /** Some listener set closed over a recorded call. */
  predicate Remembers(ls: seq<Snapshot>) {
    exists i :: 0 <= i < |ls| && ls[i].call.Some?
  }

  /** The `end-call` messages the sets `ls` send, one per set that captured a call. */
  function EndMessages(ls: seq<Snapshot>): (out: seq<Outgoing>)
    ensures |out| <= |ls|
    ensures forall m :: m in out ==> m.EndCallMsg?
    ensures Remembers(ls) <==> |out| > 0
    decreases |ls|
  {
    if |ls| == 0 then []
    else
      assert Remembers(ls) <==> ls[0].call.Some? || Remembers(ls[1..]) by {
        if Remembers(ls) && ls[0].call.None? {
          var i :| 0 <= i < |ls| && ls[i].call.Some?;
          assert ls[1..][i - 1] == ls[i];
        }
        if Remembers(ls[1..]) {
          var i :| 0 <= i < |ls[1..]| && ls[1..][i].call.Some?;
          assert ls[i + 1] == ls[1..][i];
        }
      }
      EndCall(ls[0].call).out + EndMessages(ls[1..])
  }

  /** Every registered set handles `ev` in turn, each on the state the one
      before it left. What the sets together do: an `incoming-call` is taken
      whenever some set closed over `idle`, a `call-accepted` connects whenever
      some set closed over `calling`, whatever the status is now; a rejection
      or end makes every set send `end-call` for the call it captured. */
  function RunListeners(ls: seq<Snapshot>, st: CallState, ev: SocketEvent): (t: Transition)
    ensures ev.IncomingCall? ==> t.out == []
    ensures ev.IncomingCall? && Saw(ls, Idle) ==>
      t.state == CallState(Incoming, Some(IncomingRecord(ev.from, ev.name, ev.offer)), st.peer)
    ensures ev.IncomingCall? && !Saw(ls, Idle) ==> t.state == st
    ensures ev.CallAccepted? ==> t.out == []
    ensures ev.CallAccepted? && Saw(ls, Calling) ==> t.state == st.(status := Connected)
    ensures ev.CallAccepted? && !Saw(ls, Calling) ==> t.state == st
    ensures ev.CallRejected? || ev.CallEnded? ==>
      t.out == EndMessages(ls) && t.state == (if |ls| == 0 then st else Initial)
    decreases |ls|
  {
    if |ls| == 0 then Transition(st, [])
    else
      var first := Listen(ls[0], st, ev);
      var rest := RunListeners(ls[1..], first.state, ev);
      assert forall s :: Saw(ls, s) <==> ls[0].status == s || Saw(ls[1..], s) by {
        forall s ensures Saw(ls, s) <==> ls[0].status == s || Saw(ls[1..], s) {
          if Saw(ls, s) && ls[0].status != s {
            var i :| 0 <= i < |ls| && ls[i].status == s;
            assert ls[1..][i - 1] == ls[i];
          }
          if Saw(ls[1..], s) {
            var i :| 0 <= i < |ls[1..]| && ls[1..][i].status == s;
            assert ls[i + 1] == ls[1..][i];
          }
        }
      }
      Transition(rest.state, first.out + rest.out)
  }

  /** A socket event delivered to the client as written. */
  function Deliver(c: Client, ev: SocketEvent): (r: Step)
    ensures c.listeners <= r.client.listeners
    ensures r.out == RunListeners(c.listeners, c.state, ev).out
    ensures r.client.state == RunListeners(c.listeners, c.state, ev).state
  {
    var t := RunListeners(c.listeners, c.state, ev);
    Step(Render(c.listeners, c.state.status, t.state), t.out)
  }

  /** The actions the user takes through the context. */
  datatype UserAction =
    | Start(me: Participant, other: Participant, media: MediaOutcome)
    | Accept(media: MediaOutcome)
    | Reject
    | HangUp

  /** A user action on the client as written. `startCall` first renders the
      outgoing call in `calling`, `acceptCall` first renders `connected`; the
      outcome of the media work is rendered after that. */
  function Act(c: Client, a: UserAction): (r: Step)
    ensures c.listeners <= r.client.listeners
    ensures a.Start? ==>
      r.out == StartCall(c.state, a.me, a.other, a.media).out
      && r.client.state == StartCall(c.state, a.me, a.other, a.media).state
    ensures a.Accept? ==>
      r.out == AcceptCall(c.state, a.media).out && r.client.state == AcceptCall(c.state, a.media).state
    ensures a.Reject? ==> r.out == RejectCall(c.state).out && r.client.state == RejectCall(c.state).state
    ensures a.HangUp? ==> r.out == EndCall(c.state.call).out && r.client.state == Initial
    ensures a.Start? && c.state.status != Calling ==>
      |r.client.listeners| > |c.listeners|
      && r.client.listeners[|c.listeners|] == Snapshot(Calling, Some(Call(false, a.other, None)))
  {
    match a
    case Start(me, other, media) =>
      var shown := Render(c.listeners, c.state.status, CallState(Calling, Some(Call(false, other, None)), c.state.peer));
      var t := StartCall(c.state, me, other, media);
      Step(Render(shown.listeners, Calling, t.state), t.out)
    case Accept(media) =>
      var shown := Render(c.listeners, c.state.status, c.state.(status := Connected));
      var t := AcceptCall(c.state, media);
      Step(Render(shown.listeners, Connected, t.state), t.out)
    case Reject =>
      var t := RejectCall(c.state);
      Step(Render(c.listeners, c.state.status, t.state), t.out)
    case HangUp =>
      var t := EndCall(c.state.call);
      Step(Render(c.listeners, c.state.status, t.state), t.out)
  }

  /** The socket events as inputs of the one-listener machine. */
  function AsCallEvent(ev: SocketEvent): CallEvent {
    match ev
    case IncomingCall(from, name, offer) => IncomingCallEvent(from, name, offer)
    case CallAccepted => CallAcceptedEvent
    case CallRejected => CallRejectedEvent
    case CallEnded => CallEndedEvent
  }

  /** With exactly one listener set, closed over the current state (what
      removing the old sets in the effect's cleanup would give), delivery is
      the machine of module CallClient. */
  lemma OneListenerIsTheMachine(st: CallState, ev: SocketEvent)
    ensures RunListeners([SnapshotOf(st)], st, ev) == Apply(st, AsCallEvent(ev))
  {
    assert [SnapshotOf(st)][1..] == [];
  }

  /** The mount-time set, which closed over `idle`, is never removed. */
  lemma MountSetStays(c: Client, ev: SocketEvent, a: UserAction)
    requires |c.listeners| > 0 && c.listeners[0] == SnapshotOf(Initial)
    ensures Deliver(c, ev).client.listeners[0] == SnapshotOf(Initial)
    ensures Act(c, a).client.listeners[0] == SnapshotOf(Initial)
  {
    assert c.listeners <= Deliver(c, ev).client.listeners;
    assert c.listeners <= Act(c, a).client.listeners;
  }

  /** As written, an `incoming-call` is taken in any status, because the mount
      set's guard read `idle`: a call in progress is replaced by the new
      caller, where the busy check means to ignore it. */
  lemma BusyCallReplaced(c: Client, from: UserId, name: string, offer: Signal)
    requires |c.listeners| > 0 && c.listeners[0] == SnapshotOf(Initial)
    ensures var r := Deliver(c, IncomingCall(from, name, offer));
            r.client.state.status == Incoming
            && r.client.state.call == Some(IncomingRecord(from, name, offer))
  {
    assert Saw(c.listeners, Idle) by {
      assert c.listeners[0].status == Idle;
    }
  }

  /** a calls b and b's answer arrives; a third user's call then replaces the
      connected call. The one-listener machine keeps the call with b. */
  lemma {:induction false} ConnectedCallReplaced(a: Participant, b: Participant, x: Participant,
                                                offer: Signal, other: Signal)
    ensures var started := Act(Mounted, Start(a, b, MediaReady(offer))).client;
      var connected := Deliver(started, CallAccepted).client;
      var interrupted := Deliver(connected, IncomingCall(x.id, x.name, other)).client;
      && connected.state.status == Connected
      && connected.state.call == Some(Call(false, b, None))
      && interrupted.state.call == Some(IncomingRecord(x.id, x.name, other))
    ensures var started := StartCall(Initial, a, b, MediaReady(offer)).state;
      var connected := OnCallAccepted(started).state;
      OnIncomingCall(connected, x.id, x.name, other).state == connected
  {
    var started := Act(Mounted, Start(a, b, MediaReady(offer))).client;
    assert started.listeners[1] == Snapshot(Calling, Some(Call(false, b, None)));
    assert Saw(started.listeners, Calling);
    var connected := Deliver(started, CallAccepted).client;
    MountSetStays(started, CallAccepted, HangUp);
    BusyCallReplaced(connected, x.id, x.name, other);
  }

  /** As written, a failed `startCall` leaves a set that closed over
      `calling`; a later `call-accepted` then moves the idle client to
      `connected` with no call recorded, which the one-listener machine never
      reaches. */
  lemma {:induction false} StaleAcceptBreaksInvariant(a: Participant, b: Participant)
    ensures var failed := Act(Mounted, Start(a, b, MediaFailed)).client;
      var stray := Deliver(failed, CallAccepted).client;
      && failed.state == Initial
      && stray.state == CallState(Connected, None, None)
      && !Consistent(stray.state)
    ensures Apply(Initial, CallAcceptedEvent).state == Initial
  {
    var failed := Act(Mounted, Start(a, b, MediaFailed)).client;
    assert failed.listeners[1] == Snapshot(Calling, Some(Call(false, b, None)));
    assert Saw(failed.listeners, Calling);
  }

  /** As written, once any set captured a call, every `end-call` or rejection
      the client receives makes it send `end-call` again, and it still
      remembers the call afterwards. Since the server relays every
      `end-call`, it follows that two such clients would keep answering each
      other; only the one-client step is stated here. */
  lemma EndedIsAnswered(c: Client, ev: SocketEvent)
    requires ev.CallEnded? || ev.CallRejected?
    requires Remembers(c.listeners)
    ensures var r := Deliver(c, ev);
      && |r.out| > 0
      && (forall m :: m in r.out ==> m.EndCallMsg?)
      && r.client.state == Initial
      && Remembers(r.client.listeners)
  {
    var r := Deliver(c, ev);
    var i :| 0 <= i < |c.listeners| && c.listeners[i].call.Some?;
    assert r.client.listeners[i] == c.listeners[i];
  }

  /** The one-listener machine answers at most once: after one `end-call` it
      has no call, and a second one sends nothing. */
  lemma EndedOnceIsQuiet(st: CallState)
    ensures OnCallRejectedOrEnded(OnCallRejectedOrEnded(st).state).out == []
    ensures |OnCallRejectedOrEnded(st).out| <= 1
  {
  }
}

=== FILE: call_view.dfy ===
/** The call overlay (frontend/src/components/CallManager.js): which view is
    shown for each call status, the `mm:ss` timer and the mute toggle. */
module CallView {
  import opened Common
  import opened Text
  import opened CallClient
  import CallListeners

  /** `formatTime(seconds)`: whole minutes and remaining seconds, each padded
      to two digits with zeros. */
  function FormatTime(seconds: nat): string
  {
    Clock(seconds / 60, seconds % 60)
  }

  /** Reads an `mm:ss` display back into seconds: the seconds are the last
      two characters, the colon stands just before them, and the minutes
      are everything before the colon; every field must be digits. */
  function ParseTime(t: string): (r: Option<nat>)
    ensures r.Some? ==> |t| >= 4 && t[|t| - 3] == ':' && IsDigits(t[|t| - 2..])
  {
    if |t| >= 4 && t[|t| - 3] == ':' && IsDigits(t[..|t| - 3]) && IsDigits(t[|t| - 2..])
    then Some(ParseDigits(t[..|t| - 3]) * 60 + ParseDigits(t[|t| - 2..]))
    else None
  }

  /** The display of `m` minutes and `s` seconds, each zero-padded to two
      digits. */
  function Clock(m: nat, s: nat): string
  {
    PadStart(NatToString(m), 2, '0') + ":" + PadStart(NatToString(s), 2, '0')
  }

  /** An `mm:ss` string of digit fields, with two seconds digits, reads back
      as minutes·60 + seconds. */
  lemma ParseTimeFields(mm: string, ss: string)
    requires |mm| > 0 && |ss| == 2 && IsDigits(mm) && IsDigits(ss)
    ensures ParseTime(mm + ":" + ss) == Some(ParseDigits(mm) * 60 + ParseDigits(ss))
  {
    var t := mm + ":" + ss;
    assert t[..|t| - 3] == mm;
    assert t[|t| - 2..] == ss;
  }

  /** The two zero-padded fields of a clock display, with their values. */
  lemma ClockFields(m: nat, s: nat) returns (mm: string, ss: string)
    requires s < 60
    ensures Clock(m, s) == mm + ":" + ss
    ensures |mm| >= 2 && IsDigits(mm) && ParseDigits(mm) == m
    ensures |ss| == 2 && IsDigits(ss) && ParseDigits(ss) == s
  {
    mm := PadStart(NatToString(m), 2, '0');
    ss := PadStart(NatToString(s), 2, '0');
    PadStartZeroValue(NatToString(m), 2);
    PadStartZeroValue(NatToString(s), 2);
    ParsePrint(m);
    ParsePrint(s);
  }

  /** A clock display reads back as minutes·60 + seconds, and its seconds
      field is the two digits of `s`. */
  lemma ClockParses(m: nat, s: nat)
    requires s < 60
    ensures ParseTime(Clock(m, s)) == Some(m * 60 + s)
    ensures var t := Clock(m, s); ParseDigits(t[|t| - 2..]) == s
  {
    var mm, ss := ClockFields(m, s);
    ParseTimeFields(mm, ss);
    var t := mm + ":" + ss;
    assert t[|t| - 2..] == ss;
  }

  /** Minutes and seconds recombine into the elapsed seconds. */
  lemma MinutesSecondsRecombine(seconds: nat)
    ensures (seconds / 60) * 60 + seconds % 60 == seconds
  {
  }

  /** The displayed time denotes exactly the elapsed seconds, and its seconds
      field, after the colon, is two digits below 60. */
  lemma {:induction false} FormatTimeRoundTrip(seconds: nat)
    ensures ParseTime(FormatTime(seconds)) == Some(seconds)
    ensures var t := FormatTime(seconds);
            |t| >= 4 && t[|t| - 3] == ':' && IsDigits(t[|t| - 2..]) && ParseDigits(t[|t| - 2..]) < 60
  {
    ClockParses(seconds / 60, seconds % 60);
    MinutesSecondsRecombine(seconds);
  }

  /** The call timer: `duration` counts seconds while connected. */
  datatype Timer = Timer(status: CallStatus, duration: nat)

  datatype TimerEvent = StatusChanged(status: CallStatus) | Tick

  /** The timer effect: a status change to connected starts the interval,
      any other status resets the duration; ticks only arrive while the
      interval runs. */
  function TimerStep(t: Timer, ev: TimerEvent): (r: Timer)
    ensures ev.StatusChanged? ==> r.status == ev.status
    ensures ev.StatusChanged? && ev.status != Connected ==> r.duration == 0
    ensures ev.Tick? && t.status == Connected ==> r == t.(duration := t.duration + 1)
    ensures ev.Tick? && t.status != Connected ==> r == t
  {
    match ev
    case StatusChanged(s) => if s == Connected then Timer(s, t.duration) else Timer(s, 0)
    case Tick => if t.status == Connected then t.(duration := t.duration + 1) else t
  }

  function TimerRun(t: Timer, events: seq<TimerEvent>): Timer
    decreases |events|
  {
    if |events| == 0 then t else TimerRun(TimerStep(t, events[0]), events[1..])
  }

  /** Outside a connected call the displayed duration is zero. */
  predicate TimerReset(t: Timer) {
    t.status != Connected ==> t.duration == 0
  }

  lemma {:induction false} TimerRunKeepsReset(t: Timer, events: seq<TimerEvent>)
    requires TimerReset(t)
    ensures TimerReset(TimerRun(t, events))
    decreases |events|
  {
    if |events| > 0 {
      TimerRunKeepsReset(TimerStep(t, events[0]), events[1..]);
    }
  }

  function Ticks(k: nat): (r: seq<TimerEvent>)
    ensures |r| == k && forall i :: 0 <= i < k ==> r[i] == Tick
  {
    seq(k, _ => Tick)
  }

  /** Entering a connected call and receiving `k` ticks shows `k` seconds. */
  lemma {:induction false} TimerCountsTicks(t: Timer, k: nat)
    requires TimerReset(t) && t.status != Connected
    ensures TimerRun(t, [StatusChanged(Connected)] + Ticks(k)) == Timer(Connected, k)
  {
    TicksFromConnected(Timer(Connected, 0), k);
    assert ([StatusChanged(Connected)] + Ticks(k))[1..] == Ticks(k);
  }

  lemma {:induction false} TicksFromConnected(t: Timer, k: nat)
    requires t.status == Connected
    ensures TimerRun(t, Ticks(k)) == t.(duration := t.duration + k)
    decreases k
  {
    if k > 0 {
      assert Ticks(k)[1..] == Ticks(k - 1);
      TicksFromConnected(t.(duration := t.duration + 1), k - 1);
    }
  }

  /** What the overlay renders. `RenderCrash` is a render that throws: every
      view but the hidden one reads `call.otherUser.name`, which fails when no
      call is recorded. */
  datatype View =
    | Hidden
    | IncomingModal(callerName: string)
    | ActiveCall(otherName: string, caption: string, timer: Option<string>)
    | RenderCrash

  /** The rendered view for a call status and the recorded call. */
  function ViewOf(status: CallStatus, call: Option<Call>, duration: nat): (v: View)
    ensures v.Hidden? <==> status == Idle
    ensures v.RenderCrash? <==> status != Idle && call.None?
    ensures v.IncomingModal? <==> status == Incoming && call.Some?
    ensures v.IncomingModal? ==> v.callerName == call.value.otherUser.name
    ensures v.ActiveCall? ==> call.Some? && v.otherName == call.value.otherUser.name
    ensures v.ActiveCall? ==> (v.caption == "Calling..." <==> status == Calling)
    ensures v.ActiveCall? ==> (v.timer.Some? <==> status == Connected)
    ensures v.ActiveCall? && v.timer.Some? ==> ParseTime(v.timer.value) == Some(duration)
  {
    match status
    case Idle => Hidden
    case Incoming => if call.None? then RenderCrash else IncomingModal(call.value.otherUser.name)
    case Calling => if call.None? then RenderCrash else ActiveCall(call.value.otherUser.name, "Calling...", None)
    case Connected =>
      if call.None? then RenderCrash
      else
        FormatTimeRoundTrip(duration);
        ActiveCall(call.value.otherUser.name, "Connected", Some(FormatTime(duration)))
  }

  /** A state the call machine keeps consistent never crashes the overlay. */
  lemma ConsistentNeverCrashes(st: CallState, duration: nat)
    requires Consistent(st)
    ensures !ViewOf(st.status, st.call, duration).RenderCrash?
  {
  }

  /** As written, the stray `call-accepted` after a failed start leaves the
      client connected with no call, and the overlay's render throws. */
  lemma StaleAcceptCrashesOverlay(a: Participant, b: Participant, duration: nat)
    ensures var stray := CallListeners.Deliver(CallListeners.Act(CallListeners.Mounted,
                                                                 CallListeners.Start(a, b, MediaFailed)).client,
                                               CallListeners.CallAccepted).client.state;
            ViewOf(stray.status, stray.call, duration) == RenderCrash
  {
    CallListeners.StaleAcceptBreaksInvariant(a, b);
  }

  /** `toggleMute`: flips the muted flag only when a local stream exists. */
  function ToggleMute(hasLocalStream: bool, muted: bool): (m: bool)
    ensures hasLocalStream ==> m != muted
    ensures !hasLocalStream ==> m == muted
  {
    if hasLocalStream then !muted else muted
  }
}

=== FILE: chat_page.dfy ===
/** The chat page's client state (frontend/src/pages/ChatPage.js): the
    conversation list kept up to date by incoming and sent messages, the open
    thread, the typing flag and the online-users list. Server calls become
    outcome parameters. */
module ChatPage {
  import opened Common
  import opened ChatTypes
  import ConversationList

  /** The user at the other end of a message, seen from `me`. */
  function Counterpart(m: ClientMessage, me: UserId): (other: UserId)
    ensures IdOf(m.senderId) == me ==> other == IdOf(m.receiverId)
    ensures IdOf(m.senderId) != me ==> other == IdOf(m.senderId)
  {
    if IdOf(m.senderId) == me then IdOf(m.receiverId) else IdOf(m.senderId)
  }

  /** The position of the first conversation with counterpart `id`. */
  function IndexOfUser(convs: seq<Conversation>, id: UserId): (r: Option<nat>)
    ensures r.Some? ==> r.value < |convs| && convs[r.value].user.id == id
    ensures r.Some? ==> forall j :: 0 <= j < r.value ==> convs[j].user.id != id
    ensures r.None? ==> forall j :: 0 <= j < |convs| ==> convs[j].user.id != id
  {
    FindIndex((c: Conversation) => c.user.id == id, convs)
  }

  /** Whether a message raises its conversation's unread counter: it was sent
      by someone other than `me` who is not the selected user. */
  predicate CountsAsUnread(m: ClientMessage, me: UserId, selected: Option<UserId>) {
    IdOf(m.senderId) != me && (selected.None? || selected.value != IdOf(m.senderId))
  }

  /** `s` without its element at `i`. */
  function Without<T>(s: seq<T>, i: nat): (r: seq<T>)
    requires i < |s|
    ensures |r| == |s| - 1
    ensures forall k :: 0 <= k < i ==> r[k] == s[k]
    ensures forall k :: i <= k < |r| ==> r[k] == s[k + 1]
  {
    s[..i] + s[i + 1..]
  }

  /** `updateConversationList(message)`: move the counterpart's conversation
      to the front with the new last message, or start a conversation when the
      sender is populated; otherwise leave the list alone. */
  function UpdateConversationList(convs: seq<Conversation>, m: ClientMessage, me: UserId,
                                  selected: Option<UserId>): (r: seq<Conversation>)
    ensures IndexOfUser(convs, Counterpart(m, me)).Some? ==>
      var i := IndexOfUser(convs, Counterpart(m, me)).value;
      && |r| == |convs|
      && r[0].user == convs[i].user
      && r[0].lastMessage == m
      && r[0].unreadCount == convs[i].unreadCount + (if CountsAsUnread(m, me, selected) then 1 else 0)
      && r[1..] == Without(convs, i)
    ensures IndexOfUser(convs, Counterpart(m, me)).None? && m.senderId.Populated? ==>
      r == [Conversation(m.senderId.user, m, 1)] + convs
    ensures IndexOfUser(convs, Counterpart(m, me)).None? && m.senderId.RawId? ==> r == convs
  {
    match IndexOfUser(convs, Counterpart(m, me))
    case Some(i) =>
      var c := convs[i];
      var bump := if CountsAsUnread(m, me, selected) then 1 else 0;
      [c.(lastMessage := m, unreadCount := c.unreadCount + bump)] + Without(convs, i)
    case None =>
      if m.senderId.Populated? then [Conversation(m.senderId.user, m, 1)] + convs else convs
  }

  /** The unread total grows by one exactly for a counted message to an
      existing conversation or a new populated conversation, and otherwise
      stays the same. */
  lemma {:induction false} UpdateUnreadTotal(convs: seq<Conversation>, m: ClientMessage, me: UserId,
                                             selected: Option<UserId>)
    ensures var r := UpdateConversationList(convs, m, me, selected);
      var found := IndexOfUser(convs, Counterpart(m, me)).Some?;
      TotalUnread(r) == TotalUnread(convs)
        + (if found then (if CountsAsUnread(m, me, selected) then 1 else 0)
           else if m.senderId.Populated? then 1 else 0)
  {
    var f := (c: Conversation) => c.unreadCount as int;
    var r := UpdateConversationList(convs, m, me, selected);
    match IndexOfUser(convs, Counterpart(m, me))
    case Some(i) =>
      assert convs == convs[..i] + [convs[i]] + convs[i + 1..];
      SumAppend(f, convs[..i] + [convs[i]], convs[i + 1..]);
      SumAppend(f, convs[..i], [convs[i]]);
      SumAppend(f, convs[..i], convs[i + 1..]);
      SumAppend(f, [r[0]], Without(convs, i));
      assert r == [r[0]] + Without(convs, i);
    case None =>
      if m.senderId.Populated? {
        SumAppend(f, [r[0]], convs);
      }
  }

  /** A received message keeps the counterparts distinct. */
  lemma {:induction false} UpdateKeepsUsersDistinct(convs: seq<Conversation>, m: ClientMessage, me: UserId,
                                                    selected: Option<UserId>)
    requires DistinctUsers(convs)
    requires IdOf(m.senderId) != me
    ensures DistinctUsers(UpdateConversationList(convs, m, me, selected))
  {
    var r := UpdateConversationList(convs, m, me, selected);
    match IndexOfUser(convs, Counterpart(m, me))
    case Some(i) =>
      forall a, b | 0 <= a < b < |r| ensures r[a].user.id != r[b].user.id {
        var a' := if a == 0 then i else if a - 1 < i then a - 1 else a;
        var b' := if b - 1 < i then b - 1 else b;
        assert r[a].user.id == convs[a'].user.id;
        assert r[b].user.id == convs[b'].user.id;
      }
    case None =>
  }

  /** A message from the other user, delivered by the socket server with a
      populated sender, is previewed with "You: " by the list as written,
      while it was the counterpart who sent it. */
  lemma ReceivedPreviewMislabelled(convs: seq<Conversation>, other: ChatUser, to: PartyRef, id: string,
                                   text: string, me: UserId, selected: Option<UserId>)
    requires other.id != me
    requires IndexOfUser(convs, other.id).Some?
    ensures var m := ClientMessage(id, Populated(other), to, text);
      var r := UpdateConversationList(convs, m, me, selected);
      && r[0].user.id == other.id
      && ConversationList.PreviewPrefix(r[0]) == "You: "
      && ConversationList.PreviewPrefixIntended(r[0]) == ""
  {
  }

  /** The chat page state. */
  datatype ChatState = ChatState(
    me: UserId,
    conversations: seq<Conversation>,
    selected: Option<ChatUser>,
    messages: seq<ClientMessage>,
    isTyping: bool,
    onlineUsers: seq<UserId>)

  function SelectedId(st: ChatState): Option<UserId> {
    if st.selected.Some? then Some(st.selected.value.id) else None
  }

  /** `user-online`: append, duplicates included. */
  function OnUserOnline(online: seq<UserId>, id: UserId): (r: seq<UserId>)
    ensures r == online + [id]
  {
    online + [id]
  }

  /** `user-offline`: remove every occurrence of the id, keep the rest in order. */
  function OnUserOffline(online: seq<UserId>, id: UserId): (r: seq<UserId>)
    ensures id !in r
    ensures forall x :: x in r ==> x in online
  {
    Filter((x: UserId) => x != id, online)
  }

  /** Going offline removes exactly the given id: every other id that was
      online stays online, in its original order. */
  lemma {:induction false} OfflineRemovesOnlyThatId(online: seq<UserId>, id: UserId, x: UserId)
    requires x != id
    ensures x in OnUserOffline(online, id) <==> x in online
    ensures IsSubsequence(OnUserOffline(online, id), online)
  {
    if x in online {
      FilterKeeps((y: UserId) => y != id, online, x);
    }
    FilterIsSubsequence((y: UserId) => y != id, online);
  }

  /** Joining twice and leaving once still leaves the user offline. */
  lemma OfflineAfterRepeatedOnline(online: seq<UserId>, id: UserId)
    ensures id !in OnUserOffline(OnUserOnline(OnUserOnline(online, id), id), id)
  {
  }

  /** Whether a message belongs to the open thread. */
  predicate FromSelected(st: ChatState, m: ClientMessage) {
    st.selected.Some? && IdOf(m.senderId) == st.selected.value.id
  }

  /** The effect of `receive-message`: the new state and the id of the
      message the page marks as read through the API, if any. */
  datatype Received = Received(state: ChatState, markRead: Option<string>)

  function OnReceiveMessage(st: ChatState, m: ClientMessage): (r: Received)
    ensures FromSelected(st, m) ==> r.state.messages == st.messages + [m] && r.markRead == Some(m.id)
    ensures !FromSelected(st, m) ==> r.state.messages == st.messages && r.markRead.None?
    ensures r.state.conversations == UpdateConversationList(st.conversations, m, st.me, SelectedId(st))
    ensures r.state.selected == st.selected && r.state.onlineUsers == st.onlineUsers
  {
    var convs := UpdateConversationList(st.conversations, m, st.me, SelectedId(st));
    if FromSelected(st, m) then Received(st.(messages := st.messages + [m], conversations := convs), Some(m.id))
    else Received(st.(conversations := convs), None)
  }

  /** A message from the open thread's user never raises an unread counter. */
  lemma OpenThreadMessagesAreRead(st: ChatState, m: ClientMessage)
    requires FromSelected(st, m)
    ensures !CountsAsUnread(m, st.me, SelectedId(st))
  {
  }

  /** `typing`/`stop-typing`: only the selected user's indicator is shown. */
  function OnTyping(st: ChatState, senderId: UserId, typing: bool): (r: ChatState)
    ensures st.selected.Some? && senderId == st.selected.value.id ==> r == st.(isTyping := typing)
    ensures !(st.selected.Some? && senderId == st.selected.value.id) ==> r == st
  {
    if st.selected.Some? && senderId == st.selected.value.id then st.(isTyping := typing) else st
  }

  /** Set the counterpart's unread counter to zero, touching nothing else. */
  function ZeroUnread(convs: seq<Conversation>, id: UserId): (r: seq<Conversation>)
    ensures |r| == |convs|
    ensures forall k :: 0 <= k < |r| ==> r[k].user == convs[k].user && r[k].lastMessage == convs[k].lastMessage
    ensures forall k :: 0 <= k < |r| ==> r[k].unreadCount == (if convs[k].user.id == id then 0 else convs[k].unreadCount)
  {
    seq(|convs|, k requires 0 <= k < |convs| =>
      if convs[k].user.id == id then convs[k].(unreadCount := 0) else convs[k])
  }

  /** With distinct counterparts, selecting a user removes exactly that
      conversation's unread messages from the total. */
  lemma {:induction false} ZeroUnreadTotal(convs: seq<Conversation>, i: nat)
    requires i < |convs| && DistinctUsers(convs)
    ensures TotalUnread(ZeroUnread(convs, convs[i].user.id)) == TotalUnread(convs) - convs[i].unreadCount
  {
    var f := (c: Conversation) => c.unreadCount as int;
    var id := convs[i].user.id;
    var r := ZeroUnread(convs, id);
    assert convs == convs[..i] + [convs[i]] + convs[i + 1..];
    assert r == r[..i] + [r[i]] + r[i + 1..];
    assert r[..i] == convs[..i] by {
      forall k | 0 <= k < i ensures r[k] == convs[k] { assert convs[k].user.id != id; }
    }
    assert r[i + 1..] == convs[i + 1..] by {
      forall k | i + 1 <= k < |r| ensures r[k] == convs[k] { assert convs[k].user.id != id; }
    }
    SumAppend(f, convs[..i] + [convs[i]], convs[i + 1..]);
    SumAppend(f, convs[..i], [convs[i]]);
    SumAppend(f, r[..i] + [r[i]], r[i + 1..]);
    SumAppend(f, r[..i], [r[i]]);
  }

  /** What the conversation fetch in `handleSelectUser` returns: failure, or
      the thread and whether marking it read succeeded. */
  datatype ThreadFetch = FetchFailed | Fetched(thread: seq<ClientMessage>, markedRead: bool)

  /** `handleSelectUser(u)`: select and clear the typing flag at once; on a
      successful fetch show the thread, and once it is marked read zero the
      conversation's unread counter. */
  function SelectUser(st: ChatState, u: ChatUser, fetch: ThreadFetch): (r: ChatState)
    ensures r.selected == Some(u) && !r.isTyping
    ensures fetch.FetchFailed? ==> r.messages == st.messages && r.conversations == st.conversations
    ensures fetch.Fetched? ==> r.messages == fetch.thread
    ensures fetch.Fetched? && fetch.markedRead ==> r.conversations == ZeroUnread(st.conversations, u.id)
    ensures fetch.Fetched? && !fetch.markedRead ==> r.conversations == st.conversations
    ensures r.onlineUsers == st.onlineUsers && r.me == st.me
  {
    var base := st.(selected := Some(u), isTyping := false);
    match fetch
    case FetchFailed => base
    case Fetched(thread, marked) =>
      if marked then base.(messages := thread, conversations := ZeroUnread(st.conversations, u.id))
      else base.(messages := thread)
  }

  /** The `receiverType` of an outgoing message. */
  function ReceiverType(role: string): (t: string)
    ensures t == "User" <==> role == "student"
    ensures t != "User" ==> t == "Teacher"
  {
    if role == "student" then "User" else "Teacher"
  }

  /** The body of `messagesAPI.send`. */
  datatype SendRequest = SendRequest(receiverId: UserId, receiverType: string, text: string, messageType: string)

  /** What `handleSendMessage` does: the request made (none without a
      selected user), the new state, and the message relayed through the socket. */
  datatype Sent = Sent(request: Option<SendRequest>, state: ChatState, relayed: Option<ClientMessage>)

  function SendMessage(st: ChatState, text: string, saved: Option<ClientMessage>): (r: Sent)
    ensures st.selected.None? ==> r == Sent(None, st, None)
    ensures st.selected.Some? ==>
      r.request == Some(SendRequest(st.selected.value.id, ReceiverType(st.selected.value.role), text, "text"))
    ensures st.selected.Some? && saved.None? ==> r.state == st && r.relayed.None?
    ensures st.selected.Some? && saved.Some? ==>
      && r.state.messages == st.messages + [saved.value]
      && r.state.conversations == UpdateConversationList(st.conversations, saved.value, st.me, SelectedId(st))
      && r.relayed == saved
  {
    match st.selected
    case None => Sent(None, st, None)
    case Some(u) =>
      var req := SendRequest(u.id, ReceiverType(u.role), text, "text");
      match saved
      case None => Sent(Some(req), st, None)
      case Some(m) =>
        Sent(Some(req),
             st.(messages := st.messages + [m],
                 conversations := UpdateConversationList(st.conversations, m, st.me, SelectedId(st))),
             Some(m))
  }

  /** `handleTyping`: the typing notice goes to the selected user only. */
  function TypingTarget(st: ChatState): (to: Option<UserId>)
    ensures to.Some? <==> st.selected.Some?
    ensures to.Some? ==> to.value == st.selected.value.id
  {
    SelectedId(st)
  }
}

=== FILE: chat_types.dfy ===
/** The message and conversation records the chat page and its components
    share (frontend/src/pages/ChatPage.js and the components it renders). */
module ChatTypes {
  import opened Common

  type UserId = string

  /** A chat counterpart as the conversation list stores it (`conv.user`). */
  datatype ChatUser = ChatUser(id: UserId, name: string, role: string)

  /** A message's `senderId`/`receiverId`: populated with the user's display
      fields (as the socket server sends it) or the bare id. */
  datatype PartyRef = Populated(user: ChatUser) | RawId(rawId: UserId)

  /** `ref._id || ref`: the id a party reference denotes. */
  function IdOf(p: PartyRef): (id: UserId)
    ensures p.Populated? ==> id == p.user.id
    ensures p.RawId? ==> id == p.rawId
  {
    match p
    case Populated(u) => u.id
    case RawId(id) => id
  }

  datatype ClientMessage = ClientMessage(id: string, senderId: PartyRef, receiverId: PartyRef, text: string)

  datatype Conversation = Conversation(user: ChatUser, lastMessage: ClientMessage, unreadCount: nat)

  /** The sum of the unread counters of a conversation list. */
  function TotalUnread(convs: seq<Conversation>): int {
    Sum((c: Conversation) => c.unreadCount as int, convs)
  }

  /** No two conversations have the same counterpart. */
  predicate DistinctUsers(convs: seq<Conversation>) {
    forall i, j :: 0 <= i < j < |convs| ==> convs[i].user.id != convs[j].user.id
  }
}

=== FILE: chat_window.dfy ===
/** The open thread (frontend/src/components/ChatWindow.js): the draft's send
    guard, the Enter-key handling and the "own message" test. */
module ChatWindow {
  import opened Common
  import opened Text
  import opened ChatTypes

  /** What a send attempt does: the draft afterwards and the text handed to
      `onSendMessage`, if any. */
  datatype SendStep = SendStep(draft: string, sent: Option<string>)

  /** `handleSend`: a blank draft is kept and nothing is sent; otherwise the
      draft is sent as typed (untrimmed) and cleared. */
  function HandleSend(draft: string): (s: SendStep)
    ensures s.sent.None? <==> IsBlank(draft)
    ensures s.sent.None? ==> s.draft == draft
    ensures s.sent.Some? ==> s.sent.value == draft && s.draft == ""
  {
    TrimEmptyIffBlank(draft);
    if Trim(draft) == "" then SendStep(draft, None) else SendStep("", Some(draft))
  }

  /** Whatever is sent contains a non-white-space character. */
  lemma SentIsNeverBlank(draft: string)
    ensures HandleSend(draft).sent.Some? ==> !IsBlank(HandleSend(draft).sent.value)
  {
  }

  /** `handleKeyDown`: Enter without Shift attempts a send; every key press,
      Enter included, also reports typing. */
  datatype KeyStep = KeyStep(send: SendStep, typed: bool)

  function HandleKeyDown(draft: string, key: string, shift: bool): (k: KeyStep)
    ensures k.typed
    ensures key == "Enter" && !shift ==> k.send == HandleSend(draft)
    ensures !(key == "Enter" && !shift) ==> k.send == SendStep(draft, None)
  {
    KeyStep(if key == "Enter" && !shift then HandleSend(draft) else SendStep(draft, None), true)
  }

  /** The send button's `disabled` flag. */
  function SendDisabled(draft: string): (b: bool)
    ensures b <==> IsBlank(draft)
  {
    TrimEmptyIffBlank(draft);
    Trim(draft) == ""
  }

  /** The button is disabled exactly when pressing it would send nothing. */
  lemma DisabledIffNothingSent(draft: string)
    ensures SendDisabled(draft) <==> HandleSend(draft).sent.None?
  {
  }

  /** `isOwn`: the sender, populated or bare, is the current user. */
  function IsOwn(m: ClientMessage, me: UserId): (b: bool)
    ensures b <==> IdOf(m.senderId) == me
    ensures m.senderId.Populated? ==> (b <==> m.senderId.user.id == me)
    ensures m.senderId.RawId? ==> (b <==> m.senderId.rawId == me)
  {
    match m.senderId
    case Populated(u) => u.id == me
    case RawId(id) => id == me
  }
}

=== FILE: common.dfy ===
/** Small collection helpers shared by every module of the model: an option
    type for JavaScript's "missing" values and the order-preserving filter
    that `Array.prototype.filter` performs. */
module Common {

  /** A value that may be missing (`undefined`/`null` in the source). */
  datatype Option<+T> = None | Some(value: T) {
    function GetOr(default: T): T {
      match this
      case Some(v) => v
      case None => default
    }
  }

  /** A request value is truthy when present and not the empty string. */
  predicate Truthy(v: Option<string>) {
    v.Some? && v.value != ""
  }

  /** `s.filter(p)`: the elements of `s` satisfying `p`, in their original order. */
  function Filter<T>(p: T -> bool, s: seq<T>): (r: seq<T>)
    ensures |r| <= |s|
    ensures forall x :: x in r ==> x in s && p(x)
    decreases |s|
  {
    if |s| == 0 then []
    else if p(s[0]) then [s[0]] + Filter(p, s[1..])
    else Filter(p, s[1..])
  }

  /** Every element of `s` that satisfies `p` survives the filter. */
  lemma {:induction false} FilterKeeps<T>(p: T -> bool, s: seq<T>, x: T)
    requires x in s && p(x)
    ensures x in Filter(p, s)
    decreases |s|
  {
    if s[0] != x {
      assert x in s[1..];
      FilterKeeps(p, s[1..], x);
    }
  }

  /** The filter keeps exactly the elements satisfying `p`. */
  lemma FilterExactly<T>(p: T -> bool, s: seq<T>)
    ensures forall x :: x in Filter(p, s) <==> x in s && p(x)
  {
    forall x | x in s && p(x) ensures x in Filter(p, s) {
      FilterKeeps(p, s, x);
    }
  }

  /** Filtering distributes over concatenation. */
  lemma {:induction false} FilterAppend<T>(p: T -> bool, a: seq<T>, b: seq<T>)
    ensures Filter(p, a + b) == Filter(p, a) + Filter(p, b)
    decreases |a|
  {
    if |a| == 0 {
      assert a + b == b;
    } else {
      assert (a + b)[1..] == a[1..] + b;
      FilterAppend(p, a[1..], b);
    }
  }

  /** A filter whose predicate holds everywhere is the identity. */
  lemma {:induction false} FilterAll<T>(p: T -> bool, s: seq<T>)
    requires forall i :: 0 <= i < |s| ==> p(s[i])
    ensures Filter(p, s) == s
    decreases |s|
  {
    if |s| > 0 {
      FilterAll(p, s[1..]);
    }
  }

  /** A filter that keeps nothing yields the empty sequence. */
  lemma {:induction false} FilterNone<T>(p: T -> bool, s: seq<T>)
    requires forall i :: 0 <= i < |s| ==> !p(s[i])
    ensures Filter(p, s) == []
    decreases |s|
  {
    if |s| > 0 {
      FilterNone(p, s[1..]);
    }
  }

  /** A filter is empty exactly when no element satisfies the predicate. */
  lemma FilterEmptyIff<T>(p: T -> bool, s: seq<T>)
    ensures Filter(p, s) == [] <==> forall i :: 0 <= i < |s| ==> !p(s[i])
  {
    if forall i :: 0 <= i < |s| ==> !p(s[i]) {
      FilterNone(p, s);
    } else {
      var i :| 0 <= i < |s| && p(s[i]);
      FilterKeeps(p, s, s[i]);
    }
  }

  /** Predicates that agree on the elements of `s` filter it the same way. */
  lemma {:induction false} FilterCongruent<T>(p: T -> bool, q: T -> bool, s: seq<T>)
    requires forall i :: 0 <= i < |s| ==> p(s[i]) == q(s[i])
    ensures Filter(p, s) == Filter(q, s)
    decreases |s|
  {
    if |s| > 0 {
      FilterCongruent(p, q, s[1..]);
    }
  }

  /** The elements kept by `p` and the elements dropped by it together make up
      the input: the pair of filters is a partition. */
  lemma {:induction false} FilterPartition<T>(p: T -> bool, s: seq<T>)
    ensures multiset(Filter(p, s)) + multiset(Filter(x => !p(x), s)) == multiset(s)
    decreases |s|
  {
    if |s| > 0 {
      FilterPartition(p, s[1..]);
      assert s == [s[0]] + s[1..];
    }
  }

  /** `s` is obtained from `t` by deleting elements (order preserved). */
  ghost predicate IsSubsequence<T>(s: seq<T>, t: seq<T>)
    decreases |t|
  {
    if |s| == 0 then true
    else if |t| == 0 then false
    else if s[0] == t[0] then IsSubsequence(s[1..], t[1..])
    else IsSubsequence(s, t[1..])
  }

  /** The result of a filter is an order-preserving subsequence of its input. */
  lemma {:induction false} FilterIsSubsequence<T>(p: T -> bool, s: seq<T>)
    ensures IsSubsequence(Filter(p, s), s)
    decreases |s|
  {
    if |s| > 0 {
      FilterIsSubsequence(p, s[1..]);
      if !p(s[0]) {
        SubsequenceSkip(Filter(p, s[1..]), s[0], s[1..]);
      }
    }
  }

  /** Prepending an element to the larger sequence keeps a subsequence one. */
  lemma {:induction false} SubsequenceSkip<T>(s: seq<T>, x: T, t: seq<T>)
    requires IsSubsequence(s, t)
    ensures IsSubsequence(s, [x] + t)
    decreases |t|, 1
  {
    assert ([x] + t)[1..] == t;
    if |s| > 0 && s[0] == x {
      SubsequenceDropHead(s, t);
    }
  }

  /** Dropping the first element of a subsequence keeps it a subsequence. */
  lemma {:induction false} SubsequenceDropHead<T>(s: seq<T>, t: seq<T>)
    requires |s| > 0 && IsSubsequence(s, t)
    ensures IsSubsequence(s[1..], t)
    decreases |t|, 0
  {
    assert |t| > 0;
    if s[0] == t[0] {
      SubsequenceSkip(s[1..], t[0], t[1..]);
      assert [t[0]] + t[1..] == t;
    } else {
      SubsequenceDropHead(s, t[1..]);
      SubsequenceSkip(s[1..], t[0], t[1..]);
      assert [t[0]] + t[1..] == t;
    }
  }

  /** The number of elements of `s` satisfying `p`. */
  function Count<T>(p: T -> bool, s: seq<T>): (n: nat)
    ensures n <= |s|
    ensures n == |Filter(p, s)|
    decreases |s|
  {
    if |s| == 0 then 0
    else (if p(s[0]) then 1 else 0) + Count(p, s[1..])
  }

  /** The sum of `f` over the elements of `s` (`$sum`, `reduce`). */
  function Sum<T>(f: T -> int, s: seq<T>): int
    decreases |s|
  {
    if |s| == 0 then 0 else f(s[0]) + Sum(f, s[1..])
  }

  /** Sums are additive over concatenation. */
  lemma {:induction false} SumAppend<T>(f: T -> int, a: seq<T>, b: seq<T>)
    ensures Sum(f, a + b) == Sum(f, a) + Sum(f, b)
    decreases |a|
  {
    if |a| == 0 {
      assert a + b == b;
    } else {
      assert (a + b)[1..] == a[1..] + b;
      SumAppend(f, a[1..], b);
    }
  }

  /** The index of the first element satisfying `p` (`findIndex`), if any. */
  function FindIndex<T>(p: T -> bool, s: seq<T>): (r: Option<nat>)
    ensures r.Some? ==> r.value < |s| && p(s[r.value])
    ensures r.Some? ==> forall j :: 0 <= j < r.value ==> !p(s[j])
    ensures r.None? ==> forall j :: 0 <= j < |s| ==> !p(s[j])
    decreases |s|
  {
    if |s| == 0 then None
    else if p(s[0]) then Some(0)
    else match FindIndex(p, s[1..])
      case None => None
      case Some(i) => Some(i + 1)
  }
}

=== FILE: conversation_list.dfy ===
/** The conversation sidebar (frontend/src/components/ConversationList.js):
    the name search, the online and selected markers, the "You: " preview
    prefix and the unread badge. */
module ConversationList {
  import opened Common
  import opened Text
  import opened ChatTypes

  /** The search test: the lower-cased name contains the lower-cased term. */
  predicate NameMatches(term: string, c: Conversation) {
    Includes(Lower(c.user.name), Lower(term))
  }

  /** `filteredConversations`. */
  function Visible(convs: seq<Conversation>, term: string): (r: seq<Conversation>)
    ensures forall c :: c in r ==> c in convs && NameMatches(term, c)
  {
    Filter((c: Conversation) => NameMatches(term, c), convs)
  }

  /** A conversation is shown exactly when it is in the list and its name
      matches; the shown rows keep the list's order. */
  lemma {:induction false} VisibleExactly(convs: seq<Conversation>, term: string, c: Conversation)
    ensures c in Visible(convs, term) <==> c in convs && NameMatches(term, c)
    ensures IsSubsequence(Visible(convs, term), convs)
  {
    if c in convs && NameMatches(term, c) {
      FilterKeeps((c: Conversation) => NameMatches(term, c), convs, c);
    }
    FilterIsSubsequence((c: Conversation) => NameMatches(term, c), convs);
  }

  /** An empty search term shows every conversation. */
  lemma {:induction false} EmptySearchShowsAll(convs: seq<Conversation>)
    ensures Visible(convs, "") == convs
  {
    forall i | 0 <= i < |convs| ensures NameMatches("", convs[i]) {
      IncludesEmpty(Lower(convs[i].user.name));
    }
    FilterAll((c: Conversation) => NameMatches("", c), convs);
  }

  /** Search ignores the case of ASCII letters in the term. */
  lemma {:induction false} SearchIgnoresTermCase(convs: seq<Conversation>, term: string, term2: string)
    requires Lower(term) == Lower(term2)
    ensures Visible(convs, term) == Visible(convs, term2)
  {
    FilterCongruent((c: Conversation) => NameMatches(term, c), (c: Conversation) => NameMatches(term2, c), convs);
  }

  /** The green dot: the counterpart's id is among the online users. */
  function IsOnline(online: seq<UserId>, c: Conversation): (b: bool)
    ensures b <==> exists k :: 0 <= k < |online| && online[k] == c.user.id
  {
    c.user.id in online
  }

  /** The highlight: a user is selected and it is this row's counterpart. */
  function IsSelected(selected: Option<ChatUser>, c: Conversation): (b: bool)
    ensures b <==> selected.Some? && selected.value.id == c.user.id
  {
    selected.Some? && selected.value.id == c.user.id
  }

  /** The preview prefix as written: the last message's `senderId` is compared
      with the counterpart's id without unwrapping it, so a populated sender
      never compares equal. */
  function PreviewPrefix(c: Conversation): (p: string)
    ensures p == "" || p == "You: "
    ensures c.lastMessage.senderId.Populated? ==> p == "You: "
    ensures c.lastMessage.senderId.RawId? ==> (p == "" <==> c.lastMessage.senderId.rawId == c.user.id)
  {
    match c.lastMessage.senderId
    case Populated(_) => "You: "
    case RawId(id) => if id == c.user.id then "" else "You: "
  }

  /** The evidently intended prefix: "You: " exactly when the counterpart did
      not send the last message. */
  function PreviewPrefixIntended(c: Conversation): (p: string)
    ensures p == "" <==> IdOf(c.lastMessage.senderId) == c.user.id
    ensures p != "" ==> p == "You: "
  {
    if IdOf(c.lastMessage.senderId) == c.user.id then "" else "You: "
  }

  /** For bare ids the two prefixes agree; they differ only on populated
      senders that are the counterpart. */
  lemma PreviewPrefixesAgreeOnRawIds(c: Conversation)
    ensures c.lastMessage.senderId.RawId? ==> PreviewPrefix(c) == PreviewPrefixIntended(c)
    ensures PreviewPrefix(c) != PreviewPrefixIntended(c) <==>
      c.lastMessage.senderId.Populated? && c.lastMessage.senderId.user.id == c.user.id
  {
  }

  /** The unread badge is shown exactly when the counter is positive. */
  function ShowsBadge(c: Conversation): (b: bool)
    ensures b <==> c.unreadCount != 0
  {
    c.unreadCount > 0
  }

  /** One rendered row (with the corrected preview prefix). */
  datatype Row = Row(user: ChatUser, online: bool, selected: bool, preview: string, badge: Option<nat>)

  function RowOf(online: seq<UserId>, selected: Option<ChatUser>, c: Conversation): (r: Row)
    ensures r.user == c.user
    ensures r.online <==> c.user.id in online
    ensures r.selected <==> selected.Some? && selected.value.id == c.user.id
    ensures r.badge.Some? <==> c.unreadCount > 0
    ensures r.badge.Some? ==> r.badge.value == c.unreadCount
    ensures r.preview == PreviewPrefixIntended(c) + c.lastMessage.text
  {
    Row(c.user, IsOnline(online, c), IsSelected(selected, c),
        PreviewPrefixIntended(c) + c.lastMessage.text,
        if ShowsBadge(c) then Some(c.unreadCount) else None)
  }
}

=== FILE: dashboard_calendar.dfy ===
/** The dashboard calendar (frontend/src/components/DashboardCalendar.js):
    which days carry a booking dot and which bookings are listed for a day. */
module DashboardCalendar {
  import opened Common
  import opened Dates
  import opened Bookings

  /** A confirmed booking scheduled on day `d` (day, month and year equal). */
  predicate ShownOn(d: Day, b: Booking) {
    SameDay(d, b.scheduledDate) && b.bookingStatus == Confirmed
  }

  /** `hasBooking(date)`: some booking is shown on the day (`some`). */
  function HasBooking(bookings: seq<Booking>, d: Day): (b: bool)
    ensures b <==> exists k :: 0 <= k < |bookings| && ShownOn(d, bookings[k])
    decreases |bookings|
  {
    if |bookings| == 0 then false
    else
      assert forall k :: 1 <= k < |bookings| ==> bookings[1..][k - 1] == bookings[k];
      ShownOn(d, bookings[0]) || HasBooking(bookings[1..], d)
  }

  /** `getBookingsForDate(date)`: the bookings shown on the day, in order. */
  function BookingsForDate(bookings: seq<Booking>, d: Day): (r: seq<Booking>)
    ensures forall b :: b in r ==> b in bookings && ShownOn(d, b)
  {
    Filter((b: Booking) => ShownOn(d, b), bookings)
  }

  /** A day has a dot exactly when its list is non-empty; the list is an
      order-preserving selection of the bookings and misses none of them. */
  lemma {:induction false} DotIffListed(bookings: seq<Booking>, d: Day)
    ensures HasBooking(bookings, d) <==> |BookingsForDate(bookings, d)| > 0
    ensures IsSubsequence(BookingsForDate(bookings, d), bookings)
    ensures forall k :: 0 <= k < |bookings| && ShownOn(d, bookings[k]) ==> bookings[k] in BookingsForDate(bookings, d)
  {
    var p := (b: Booking) => ShownOn(d, b);
    FilterIsSubsequence(p, bookings);
    forall k | 0 <= k < |bookings| && ShownOn(d, bookings[k]) ensures bookings[k] in BookingsForDate(bookings, d) {
      FilterKeeps(p, bookings, bookings[k]);
    }
    if |BookingsForDate(bookings, d)| > 0 {
      var x := BookingsForDate(bookings, d)[0];
      assert x in BookingsForDate(bookings, d);
      var k :| 0 <= k < |bookings| && bookings[k] == x;
    }
  }

  /** The heading of a listed booking. */
  function Title(b: Booking): (t: string)
    ensures IsDemo(b) ==> t == "Demo Class"
    ensures !IsDemo(b) ==> t == b.subject + " Class"
  {
    if IsDemo(b) then "Demo Class" else b.subject + " Class"
  }
}

=== FILE: dates.dfy ===
/** Calendar days as (year, month, day) triples and months as indices
    year·12 + (month − 1). Time of day and time zones are not modelled. */
module Dates {

  /** A calendar day; `month` runs 1..12 as in Mongo's `$month`. */
  datatype Day = Day(year: int, month: int, day: int)

  predicate ValidDay(d: Day) {
    1 <= d.month <= 12 && 1 <= d.day <= 31
  }

  /** The month containing `d`, as a single index. */
  function MonthIndex(d: Day): int {
    d.year * 12 + (d.month - 1)
  }

  /** Chronological order of days (`$gte` on dates at day granularity). */
  predicate OnOrAfter(a: Day, b: Day) {
    || a.year > b.year
    || (a.year == b.year && a.month > b.month)
    || (a.year == b.year && a.month == b.month && a.day >= b.day)
  }

  /** Strictly later days. */
  predicate After(a: Day, b: Day) {
    OnOrAfter(a, b) && a != b
  }

  /** Same calendar day: `getDate`, `getMonth` and `getFullYear` all agree. */
  predicate SameDay(a: Day, b: Day) {
    a.day == b.day && a.month == b.month && a.year == b.year
  }

  /** The year and month (1..12) of a month index. */
  function MonthOf(index: int): (d: Day)
    ensures 1 <= d.month <= 12 && d.day == 1
    ensures MonthIndex(d) == index
  {
    Day(index / 12, index % 12 + 1, 1)
  }

  /** `d.setMonth(d.getMonth() - k)` with the day of month kept as is (the
      day overflow of `Date.setMonth` is not modelled). */
  function MonthsBefore(d: Day, k: int): (r: Day)
    ensures MonthIndex(r) == MonthIndex(d) - k
    ensures r.day == d.day
    ensures 1 <= r.month <= 12
  {
    var m := MonthOf(MonthIndex(d) - k);
    Day(m.year, m.month, d.day)
  }

  predicate IsLeapYear(year: int) {
    (year % 4 == 0 && year % 100 != 0) || year % 400 == 0
  }

  /** The number of days of a month in the Gregorian calendar. */
  function DaysIn(year: int, month: int): (n: int)
    requires 1 <= month <= 12
    ensures 28 <= n <= 31
    ensures n == 29 <==> month == 2 && IsLeapYear(year)
  {
    if month == 2 then (if IsLeapYear(year) then 29 else 28)
    else if month == 4 || month == 6 || month == 9 || month == 11 then 30
    else 31
  }

  /** `d.setMonth(d.getMonth() - k)` as JavaScript computes it: the day of
      month is kept, and a day past the end of the target month rolls over
      into the following month. */
  function SetMonthBack(d: Day, k: int): (r: Day)
    requires ValidDay(d)
    ensures ValidDay(r)
    ensures var target := MonthsBefore(d, k);
      && (d.day <= DaysIn(target.year, target.month) ==> r == target)
      && (d.day > DaysIn(target.year, target.month) ==>
            MonthIndex(r) == MonthIndex(d) - k + 1 && r.day == d.day - DaysIn(target.year, target.month))
  {
    var target := MonthsBefore(d, k);
    var n := DaysIn(target.year, target.month);
    if d.day <= n then target
    else
      var next := MonthOf(MonthIndex(target) + 1);
      Day(next.year, next.month, d.day - n)
  }

  /** The weekday of `d`, 0 = Sunday .. 6 = Saturday (`Date.prototype.getDay`),
      in the proleptic Gregorian calendar (Sakamoto's method). */
  function Weekday(d: Day): (w: int)
    requires ValidDay(d)
    ensures 0 <= w < 7
  {
    var offsets := [0, 3, 2, 5, 0, 3, 5, 1, 4, 6, 2, 4];
    var y := if d.month < 3 then d.year - 1 else d.year;
    (y + y / 4 - y / 100 + y / 400 + offsets[d.month - 1] + d.day) % 7
  }

  /** The English weekday names in `getDay` order. */
  const WeekdayNames: seq<string> :=
    ["Sunday", "Monday", "Tuesday", "Wednesday", "Thursday", "Friday", "Saturday"]

  /** Month indices order days the same way `OnOrAfter` does, month by month. */
  lemma {:induction false} OnOrAfterMonth(a: Day, b: Day)
    requires ValidDay(a) && ValidDay(b)
    requires OnOrAfter(a, b)
    ensures MonthIndex(a) >= MonthIndex(b)
  {
    if a.year > b.year {
      assert a.year * 12 >= b.year * 12 + 12;
    }
  }
}

=== FILE: notification.dfy ===
/** The notification record (backend/models/Notification.js): which fields
    are required and which take defaults when a notification is created. */
module Notification {
  import opened Common

  /** A stored notification. `createdAt` is a clock reading supplied by the
      caller (the schema's `Date.now` default). */
  datatype Notice = Notice(
    recipient: string,
    message: string,
    kind: string,
    read: bool,
    relatedBookingId: Option<nat>,
    createdAt: int)

  /** The fields a caller passes to `Notification.create`; missing ones are `None`. */
  datatype NoticeInput = NoticeInput(
    recipient: Option<string>,
    message: Option<string>,
    kind: Option<string>,
    read: Option<bool>,
    relatedBookingId: Option<nat>)

  /** Why the schema refuses a document. */
  datatype ValidationError = RecipientRequired | MessageRequired

  datatype Created = Saved(notice: Notice) | Invalid(error: ValidationError)

  /** Validation and defaults: a recipient and a non-empty message are
      required (the recipient is checked first); `type` defaults to "info",
      `read` to false, the booking link stays optional. */
  function Create(input: NoticeInput, now: int): (r: Created)
    ensures r.Saved? <==> input.recipient.Some? && input.message.Some? && input.message.value != ""
    ensures input.recipient.None? ==> r == Invalid(RecipientRequired)
    ensures input.recipient.Some? && (input.message.None? || input.message.value == "") ==>
      r == Invalid(MessageRequired)
    ensures r.Saved? ==>
      && r.notice.recipient == input.recipient.value
      && r.notice.message == input.message.value
      && r.notice.kind == input.kind.GetOr("info")
      && r.notice.read == input.read.GetOr(false)
      && r.notice.relatedBookingId == input.relatedBookingId
      && r.notice.createdAt == now
  {
    if input.recipient.None? then Invalid(RecipientRequired)
    else if input.message.None? || input.message.value == "" then Invalid(MessageRequired)
    else Saved(Notice(input.recipient.value, input.message.value, input.kind.GetOr("info"),
                      input.read.GetOr(false), input.relatedBookingId, now))
  }

  /** A notification created with only the required fields is an unread
      "info" notice with no booking link. */
  lemma DefaultsOfMinimalNotice(recipient: string, message: string, now: int)
    requires message != ""
    ensures Create(NoticeInput(Some(recipient), Some(message), None, None, None), now)
      == Saved(Notice(recipient, message, "info", false, None, now))
  {
  }
}

=== FILE: notification_bell.dfy ===
/** The notification bell of frontend/src/components/NotificationBell.js: the
    fetched list, the unread counter kept beside it, marking as read, and the
    dot colour. Polling and the outside-click listener are not modelled. */
module NotificationBell {
  import opened Common

  datatype Item = Item(id: string, read: bool, kind: string)

  datatype Bell = Bell(items: seq<Item>, unreadCount: int, isOpen: bool)

  const Empty: Bell := Bell([], 0, false)

  predicate IsUnread(n: Item) { !n.read }

  /** The number of unread notifications. */
  function UnreadIn(items: seq<Item>): nat {
    Count(IsUnread, items)
  }

  /** The counter agrees with the list. */
  predicate CountExact(b: Bell) {
    b.unreadCount == UnreadIn(b.items)
  }

  predicate UniqueIds(items: seq<Item>) {
    forall i, j :: 0 <= i < j < |items| ==> items[i].id != items[j].id
  }

  /** The answer of `notificationsAPI.getAll()`. */
  datatype FetchResult = Answered(success: bool, notifications: seq<Item>) | FetchError

  /** `fetchNotifications`: a successful answer replaces the list and recounts;
      a failed or unsuccessful one changes nothing. */
  function Fetch(b: Bell, res: FetchResult): (r: Bell)
    ensures res.Answered? && res.success ==> r.items == res.notifications && r.isOpen == b.isOpen && CountExact(r)
    ensures !(res.Answered? && res.success) ==> r == b
  {
    match res
    case FetchError => b
    case Answered(success, ns) => if success then b.(items := ns, unreadCount := UnreadIn(ns)) else b
  }

  /** `prev.map(n => n._id === id ? {...n, read: true} : n)`. */
  function MarkItems(items: seq<Item>, id: string): (r: seq<Item>)
    ensures |r| == |items|
    ensures forall i :: 0 <= i < |items| ==> r[i] == if items[i].id == id then items[i].(read := true) else items[i]
  {
    seq(|items|, i requires 0 <= i < |items| => if items[i].id == id then items[i].(read := true) else items[i])
  }

  function Max(a: int, b: int): int { if a >= b then a else b }

  /** `handleMarkAsRead(id)`; `apiOk` says whether the request succeeded. */
  function MarkAsRead(b: Bell, id: string, apiOk: bool): (r: Bell)
    ensures !apiOk ==> r == b
    ensures apiOk ==> r.items == MarkItems(b.items, id) && r.unreadCount == Max(0, b.unreadCount - 1)
    ensures r.unreadCount >= 0 || r == b
    ensures r.isOpen == b.isOpen
  {
    if apiOk then b.(items := MarkItems(b.items, id), unreadCount := Max(0, b.unreadCount - 1)) else b
  }

  /** The click on rendered item `i` (line 89): the guard reads the rendered
      `read` flag, and a `markAsRead` request for the item's id is sent only
      when it is unread. Its answer is applied later by `MarkAsRead`. */
  function ClickRequest(b: Bell, i: nat): (req: Option<string>)
    requires i < |b.items|
    ensures req.Some? <==> !b.items[i].read
    ensures req.Some? ==> req.value == b.items[i].id
  {
    if b.items[i].read then None else Some(b.items[i].id)
  }

  /** Clicking item `i` when its answer arrives before anything else happens:
      it is marked only when it is unread. */
  function ClickItem(b: Bell, i: nat, apiOk: bool): (r: Bell)
    requires i < |b.items|
    ensures b.items[i].read || !apiOk ==> r == b
    ensures !b.items[i].read && apiOk ==>
      |r.items| == |b.items| && r.items[i].read && r.unreadCount == Max(0, b.unreadCount - 1)
  {
    if !b.items[i].read then MarkAsRead(b, b.items[i].id, apiOk) else b
  }

  /** The counter is never negative, given that it starts that way. */
  lemma ClickKeepsNonNegative(b: Bell, i: nat, apiOk: bool)
    requires i < |b.items| && b.unreadCount >= 0
    ensures ClickItem(b, i, apiOk).unreadCount >= 0
  {
  }

  /** Marking the only item with id `items[i].id`, which is unread, lowers the
      unread number by exactly one. */
  lemma {:induction false} MarkUniqueUnread(items: seq<Item>, i: nat)
    requires i < |items| && UniqueIds(items) && !items[i].read
    ensures UnreadIn(MarkItems(items, items[i].id)) == UnreadIn(items) - 1
    decreases |items|
  {
    var id := items[i].id;
    var m := MarkItems(items, id);
    assert m[0] == if items[0].id == id then items[0].(read := true) else items[0];
    assert m[1..] == MarkItems(items[1..], id);
    if i == 0 {
      forall j | 0 <= j < |items[1..]| ensures items[1..][j].id != id {
        assert items[1..][j] == items[j + 1];
      }
      assert MarkItems(items[1..], id) == items[1..];
    } else {
      assert items[0].id != id;
      assert items[1..][i - 1] == items[i];
      MarkUniqueUnread(items[1..], i - 1);
    }
  }

  /** With unique ids, clicking keeps the counter equal to the number unread:
      the guard on read items is what makes this hold. */
  lemma ClickKeepsCountExact(b: Bell, i: nat, apiOk: bool)
    requires i < |b.items| && UniqueIds(b.items) && CountExact(b)
    ensures CountExact(ClickItem(b, i, apiOk))
    ensures UniqueIds(ClickItem(b, i, apiOk).items)
  {
    if !b.items[i].read && apiOk {
      MarkUniqueUnread(b.items, i);
      assert UnreadIn(b.items) >= 1;
    }
  }

  /** Marking the same id twice is marking it once. */
  lemma MarkItemsTwice(items: seq<Item>, id: string)
    ensures MarkItems(MarkItems(items, id), id) == MarkItems(items, id)
  {
  }

  /** As written, two clicks on an unread item before the first answer
      arrives both pass the guard, since the render still shows it unread,
      and both successful answers lower the counter: one item fewer is
      unread, but the counter fell by two. */
  lemma DoubleClickDrifts(b: Bell, i: nat)
    requires i < |b.items| && UniqueIds(b.items) && CountExact(b) && !b.items[i].read
    ensures ClickRequest(b, i) == Some(b.items[i].id)
    ensures var after := MarkAsRead(MarkAsRead(b, b.items[i].id, true), b.items[i].id, true);
      && UnreadIn(after.items) == b.unreadCount - 1
      && after.unreadCount == Max(0, b.unreadCount - 2)
      && (b.unreadCount >= 2 ==> !CountExact(after))
  {
    MarkItemsTwice(b.items, b.items[i].id);
    MarkUniqueUnread(b.items, i);
  }

  /** As written, a refresh whose answer already shows the item read, landing
      before the `markAsRead` answer, makes the counter drift the same way. */
  lemma RefreshBeforeAnswerDrifts(b: Bell, i: nat)
    requires i < |b.items| && UniqueIds(b.items) && CountExact(b) && !b.items[i].read
    ensures var fetched := Fetch(b, Answered(true, MarkItems(b.items, b.items[i].id)));
            var after := MarkAsRead(fetched, b.items[i].id, true);
      && UnreadIn(after.items) == b.unreadCount - 1
      && after.unreadCount == Max(0, b.unreadCount - 2)
      && (b.unreadCount >= 2 ==> !CountExact(after))
  {
    MarkItemsTwice(b.items, b.items[i].id);
    MarkUniqueUnread(b.items, i);
  }

  /** The evidently intended answer handler: the counter is recomputed from
      the marked list instead of decremented. */
  function MarkAsReadIntended(b: Bell, id: string, apiOk: bool): (r: Bell)
    ensures !apiOk ==> r == b
    ensures apiOk ==> r.items == MarkItems(b.items, id) && CountExact(r)
    ensures r.isOpen == b.isOpen
  {
    if apiOk then b.(items := MarkItems(b.items, id), unreadCount := UnreadIn(MarkItems(b.items, id))) else b
  }

  /** With the intended handler the counter stays exact whatever the order
      and number of answers and refreshes. */
  lemma {:induction false} IntendedAnswersKeepCountExact(b: Bell, answers: seq<(string, bool)>)
    requires CountExact(b)
    ensures CountExact(ApplyAnswers(b, answers))
    decreases |answers|
  {
    if |answers| > 0 {
      IntendedAnswersKeepCountExact(MarkAsReadIntended(b, answers[0].0, answers[0].1), answers[1..]);
    }
  }

  /** The answers of several `markAsRead` requests applied in arrival order by
      the intended handler. */
  function ApplyAnswers(b: Bell, answers: seq<(string, bool)>): (r: Bell)
    ensures r.isOpen == b.isOpen
    decreases |answers|
  {
    if |answers| == 0 then b
    else ApplyAnswers(MarkAsReadIntended(b, answers[0].0, answers[0].1), answers[1..])
  }

  /** Without the guard, marking an already-read item would lower the counter
      below the number unread. */
  lemma UnguardedMarkDrifts()
    ensures var b := Bell([Item("a", true, "info"), Item("b", false, "info")], 1, false);
            CountExact(b) && !CountExact(MarkAsRead(b, "a", true))
  {
    var b := Bell([Item("a", true, "info"), Item("b", false, "info")], 1, false);
    var m := MarkItems(b.items, "a");
    assert m == [Item("a", true, "info"), Item("b", false, "info")];
  }

  /** The colour of an item's dot. */
  datatype Colour = Green | Red | Blue

  function DotColour(kind: string): (c: Colour)
    ensures c == Green <==> kind == "success"
    ensures c == Red <==> kind == "error"
  {
    if kind == "success" then Green else if kind == "error" then Red else Blue
  }

  /** The bell button toggles the dropdown. */
  function Toggle(b: Bell): (r: Bell)
    ensures r.isOpen != b.isOpen && r.items == b.items && r.unreadCount == b.unreadCount
  {
    b.(isOpen := !b.isOpen)
  }

  /** The red badge is shown only with a positive counter. */
  predicate ShowsBadge(b: Bell) { b.unreadCount > 0 }
}

=== FILE: profile_completion.dfy ===
/** The profile-strength card of frontend/src/components/ProfileCompletion.js:
    seven weighted criteria, the completion percentage and the list of what
    is still missing. */
module ProfileCompletion {
  import opened Common

  /** The teacher fields the criteria read; a missing text field is "". */
  datatype TeacherProfile = TeacherProfile(
    photo: string, videoIntro: string, teachingVideo: string,
    experience: int, subjects: seq<string>, boards: seq<string>,
    availability: seq<string>, hourlyRate: int, monthlyRate: int, aadhaarVerified: bool)

  datatype Criterion = Criterion(id: string, weight: nat, isComplete: bool)

  /** The criteria in display order with their weights. */
  function Criteria(u: TeacherProfile): (cs: seq<Criterion>)
    ensures |cs| == 7
    ensures cs[3].id == "about" && (cs[3].isComplete <==> u.experience > 0 && |u.subjects| > 0 && |u.boards| > 0)
    ensures cs[5].id == "pricing" && (cs[5].isComplete <==> u.hourlyRate > 0 && u.monthlyRate > 0)
  {
    [ Criterion("photo", 10, u.photo != ""),
      Criterion("videoIntro", 20, u.videoIntro != ""),
      Criterion("teachingVideo", 15, u.teachingVideo != ""),
      Criterion("about", 15, u.experience > 0 && |u.subjects| > 0 && |u.boards| > 0),
      Criterion("availability", 20, |u.availability| > 0),
      Criterion("pricing", 10, u.hourlyRate > 0 && u.monthlyRate > 0),
      Criterion("aadhaar", 10, u.aadhaarVerified) ]
  }

  function Weight(c: Criterion): int { c.weight }

  function EarnedWeight(c: Criterion): int { if c.isComplete then c.weight else 0 }

  /** The sum of the weights of the complete criteria. */
  function CompletedWeight(cs: seq<Criterion>): int {
    Sum(EarnedWeight, cs)
  }

  /** The weights add up to 100, whatever the profile. */
  lemma WeightsSumTo100(u: TeacherProfile)
    ensures Sum(Weight, Criteria(u)) == 100
  {
    var cs := Criteria(u);
    assert Sum(Weight, cs[6..]) == 10;
    assert Sum(Weight, cs[5..]) == 20;
    assert Sum(Weight, cs[4..]) == 40;
    assert Sum(Weight, cs[3..]) == 55;
    assert Sum(Weight, cs[2..]) == 70;
    assert Sum(Weight, cs[1..]) == 90;
  }

  /** Every criterion counts at most its weight, and a sum of earned weights
      lies between 0 and the total weight. */
  lemma {:induction false} EarnedBetween(cs: seq<Criterion>)
    ensures 0 <= CompletedWeight(cs) <= Sum(Weight, cs)
    decreases |cs|
  {
    if |cs| > 0 {
      EarnedBetween(cs[1..]);
    }
  }

  /** The completion percentage, `Math.round(completed / total * 100)`; with a
      total of 100 it is the completed weight itself. */
  function Percentage(u: TeacherProfile): (p: int)
    ensures 0 <= p <= 100
    ensures p == CompletedWeight(Criteria(u))
  {
    WeightsSumTo100(u);
    EarnedBetween(Criteria(u));
    CompletedWeight(Criteria(u))
  }

  /** The percentage is 100 exactly when every criterion is complete. */
  lemma {:induction false} FullIffAllComplete(cs: seq<Criterion>)
    ensures CompletedWeight(cs) == Sum(Weight, cs) <==> forall i :: 0 <= i < |cs| ==> (cs[i].isComplete || cs[i].weight == 0)
    decreases |cs|
  {
    if |cs| > 0 {
      FullIffAllComplete(cs[1..]);
      EarnedBetween(cs[1..]);
      if CompletedWeight(cs) == Sum(Weight, cs) {
        assert cs[0].isComplete || cs[0].weight == 0;
        forall i | 1 <= i < |cs| ensures cs[i].isComplete || cs[i].weight == 0 {
          assert cs[i] == cs[1..][i - 1];
        }
      }
    }
  }

  /** The criteria compared pointwise: `b` has every criterion `a` has. */
  predicate AtLeastAsComplete(a: seq<Criterion>, b: seq<Criterion>) {
    |a| == |b| && forall i :: 0 <= i < |a| ==> a[i].weight == b[i].weight && (a[i].isComplete ==> b[i].isComplete)
  }

  /** Completing more criteria never lowers the completed weight. */
  lemma {:induction false} CompletingNeverLowers(a: seq<Criterion>, b: seq<Criterion>)
    requires AtLeastAsComplete(a, b)
    ensures CompletedWeight(a) <= CompletedWeight(b)
    decreases |a|
  {
    if |a| > 0 {
      assert AtLeastAsComplete(a[1..], b[1..]) by {
        forall i | 0 <= i < |a[1..]| ensures a[1..][i].weight == b[1..][i].weight && (a[1..][i].isComplete ==> b[1..][i].isComplete) {
          assert a[1..][i] == a[i + 1] && b[1..][i] == b[i + 1];
        }
      }
      CompletingNeverLowers(a[1..], b[1..]);
    }
  }

  /** The profiles compared criterion by criterion. */
  lemma ProfileCompletingNeverLowers(u: TeacherProfile, v: TeacherProfile)
    requires forall i :: 0 <= i < 7 ==> Criteria(u)[i].isComplete ==> Criteria(v)[i].isComplete
    ensures Percentage(u) <= Percentage(v)
  {
    CompletingNeverLowers(Criteria(u), Criteria(v));
  }

  /** What the component renders. */
  datatype Card = Card(percentage: int, missing: seq<Criterion>)

  /** The component: nothing without a user or at 100%, otherwise the
      percentage and the first three incomplete criteria. */
  function Render(user: Option<TeacherProfile>): (r: Option<Card>)
    ensures user.None? ==> r.None?
    ensures user.Some? ==> (r.None? <==> Percentage(user.value) == 100)
    ensures r.Some? ==> r.value.percentage == Percentage(user.value) && |r.value.missing| <= 3
  {
    match user
    case None => None
    case Some(u) =>
      if Percentage(u) == 100 then None
      else
        var incomplete := Filter((c: Criterion) => !c.isComplete, Criteria(u));
        Some(Card(Percentage(u), if |incomplete| <= 3 then incomplete else incomplete[..3]))
  }

  /** The card is hidden exactly when every criterion is complete, and the
      listed criteria are the first incomplete ones in display order. */
  lemma RenderShowsFirstMissing(u: TeacherProfile)
    ensures Render(Some(u)).None? <==> forall i :: 0 <= i < 7 ==> Criteria(u)[i].isComplete
    ensures var incomplete := Filter((c: Criterion) => !c.isComplete, Criteria(u));
            Render(Some(u)).Some? ==>
              Render(Some(u)).value.missing == incomplete[..if |incomplete| <= 3 then |incomplete| else 3]
  {
    var cs := Criteria(u);
    WeightsSumTo100(u);
    FullIffAllComplete(cs);
    var incomplete := Filter((c: Criterion) => !c.isComplete, cs);
    assert incomplete[..|incomplete|] == incomplete;
  }
}

=== FILE: register_teacher.dfy ===
/** The teacher sign-up page (frontend/src/pages/RegisterTeacher.js): form
    edits, the three-step wizard, and the multipart request built on submit.
    `JSON.stringify` is not modelled: structured values stay structured. */
module RegisterTeacherPage {
  import opened Common
  import opened Text

  /** The address part of the form: its text fields by name, and the
      `[longitude, latitude]` pair once located. */
  datatype AddressForm = AddressForm(fields: map<string, string>, coordinates: seq<int>)

  datatype TeacherForm = TeacherForm(
    name: string, email: string, password: string, confirmPassword: string, phone: string,
    address: AddressForm,
    subjects: string, boards: string, classesCanTeach: string,
    experience: string, qualifications: string, hourlyRate: string, monthlyRate: string,
    aadhaarNumber: string, photo: Option<string>, aadhaarDoc: Option<string>)

  /** `handleAddressChange`: the named address field takes the new value. */
  function ChangeAddressField(f: TeacherForm, field: string, value: string): (r: TeacherForm)
    ensures field in r.address.fields && r.address.fields[field] == value
    ensures forall k :: k != field ==> (k in r.address.fields <==> k in f.address.fields)
    ensures forall k :: k != field && k in f.address.fields ==> r.address.fields[k] == f.address.fields[k]
    ensures r.address.coordinates == f.address.coordinates
    ensures r == f.(address := r.address)
  {
    f.(address := f.address.(fields := f.address.fields[field := value]))
  }

  /** The form with the located coordinates set: only the coordinates change. */
  function SetLocation(f: TeacherForm, longitude: int, latitude: int): (r: TeacherForm)
    ensures r.address.coordinates == [longitude, latitude]
    ensures r.address.fields == f.address.fields
    ensures r == f.(address := r.address)
  {
    f.(address := f.address.(coordinates := [longitude, latitude]))
  }

  /** The success callback of `getLocation` as written: it spreads the
      `formData` of the render in which the button was clicked (`captured`),
      so the form `current` when the position arrives is replaced. */
  function LocationArrives(current: TeacherForm, captured: TeacherForm, longitude: int, latitude: int): (r: TeacherForm)
    ensures r.address.coordinates == [longitude, latitude]
    ensures r == captured.(address := r.address)
    ensures r.address.fields == captured.address.fields
  {
    SetLocation(captured, longitude, latitude)
  }

  /** The evidently intended callback: a functional update of the form
      current when the position arrives. */
  function LocationArrivesIntended(current: TeacherForm, longitude: int, latitude: int): (r: TeacherForm)
    ensures r.address.coordinates == [longitude, latitude]
    ensures r == current.(address := r.address)
    ensures r.address.fields == current.address.fields
  {
    SetLocation(current, longitude, latitude)
  }

  /** As written, an address field typed while the position resolves is
      lost: the form after the callback holds the field's value from the
      click. */
  lemma LocationRevertsEdit(clicked: TeacherForm, field: string, value: string, longitude: int, latitude: int)
    requires field !in clicked.address.fields || clicked.address.fields[field] != value
    ensures var typed := ChangeAddressField(clicked, field, value);
            var after := LocationArrives(typed, clicked, longitude, latitude);
            (field in after.address.fields ==> after.address.fields[field] != value)
            && after.address.fields != typed.address.fields
  {
    var typed := ChangeAddressField(clicked, field, value);
    assert field in typed.address.fields;
  }

  /** With the intended callback the edit survives and the coordinates are
      set. */
  lemma LocationKeepsEditIntended(clicked: TeacherForm, field: string, value: string, longitude: int, latitude: int)
    ensures var typed := ChangeAddressField(clicked, field, value);
            var after := LocationArrivesIntended(typed, longitude, latitude);
            after.address.fields == typed.address.fields && after.address.fields[field] == value
            && after.address.coordinates == [longitude, latitude]
  {
  }

  /** Editing one address field twice keeps only the second value, and editing
      two different fields commutes. */
  lemma AddressEditsCompose(f: TeacherForm, a: string, b: string, x: string, y: string)
    ensures ChangeAddressField(ChangeAddressField(f, a, x), a, y) == ChangeAddressField(f, a, y)
    ensures a != b ==> ChangeAddressField(ChangeAddressField(f, a, x), b, y)
                       == ChangeAddressField(ChangeAddressField(f, b, y), a, x)
  {
  }

  /** `s.split(',').map(s => s.trim())`. */
  function CommaList(s: string): (r: seq<string>)
    ensures |r| == |Split(s, ',')|
    ensures forall i :: 0 <= i < |r| ==> r[i] == Trim(Split(s, ',')[i])
  {
    var pieces := Split(s, ',');
    seq(|pieces|, i requires 0 <= i < |pieces| => Trim(pieces[i]))
  }

  /** A comma list has one more entry than the text has commas, no entry
      contains a comma or starts or ends with white space, and the untrimmed
      pieces rejoin to the text typed. */
  lemma CommaListShape(s: string)
    ensures |CommaList(s)| == Occurrences(s, ',') + 1
    ensures forall i :: 0 <= i < |CommaList(s)| ==> ',' !in CommaList(s)[i]
    ensures forall i :: 0 <= i < |CommaList(s)| && |CommaList(s)[i]| > 0 ==>
              !IsSpace(CommaList(s)[i][0]) && !IsSpace(CommaList(s)[i][|CommaList(s)[i]| - 1])
    ensures Join(Split(s, ','), ',') == s
  {
    SplitCount(s, ',');
    JoinSplit(s, ',');
    var pieces := Split(s, ',');
    forall i | 0 <= i < |pieces| ensures ',' !in CommaList(s)[i] {
      TrimKeepsAbsent(pieces[i], ',');
    }
  }

  datatype Qualification = Qualification(degree: string, institution: string, year: int)

  /** A value appended to the multipart request. */
  datatype FormValue =
    | Text(s: string)
    | List(items: seq<string>)
    | Qualifications(q: seq<Qualification>)
    | AddressValue(a: AddressForm)
    | FileValue(file: string)

  datatype Entry = Entry(key: string, value: FormValue)

  /** The required entries, in the order `handleSubmit` appends them. */
  function BaseEntries(f: TeacherForm): (es: seq<Entry>)
    ensures |es| == 13
    ensures es[9] == Entry("qualifications", Qualifications([Qualification(f.qualifications, "Unknown", 2020)]))
    ensures es[6] == Entry("subjects", List(CommaList(f.subjects)))
  {
    [ Entry("name", Text(f.name)), Entry("email", Text(f.email)), Entry("password", Text(f.password)),
      Entry("phone", Text(f.phone)), Entry("aadhaarNumber", Text(f.aadhaarNumber)),
      Entry("address", AddressValue(f.address)),
      Entry("subjects", List(CommaList(f.subjects))), Entry("boards", List(CommaList(f.boards))),
      Entry("classesCanTeach", List(CommaList(f.classesCanTeach))),
      Entry("qualifications", Qualifications([Qualification(f.qualifications, "Unknown", 2020)])),
      Entry("experience", Text(f.experience)), Entry("hourlyRate", Text(f.hourlyRate)),
      Entry("monthlyRate", Text(f.monthlyRate)) ]
  }

  /** The file entries: each only when a file was selected. */
  function FileEntries(f: TeacherForm): (es: seq<Entry>)
    ensures |es| <= 2
    ensures (exists i :: 0 <= i < |es| && es[i].key == "photo") <==> f.photo.Some?
    ensures (exists i :: 0 <= i < |es| && es[i].key == "aadhaarDoc") <==> f.aadhaarDoc.Some?
  {
    match (f.photo, f.aadhaarDoc)
    case (Some(p), Some(d)) =>
      var es := [Entry("photo", FileValue(p)), Entry("aadhaarDoc", FileValue(d))];
      assert es[0].key == "photo" && es[1].key == "aadhaarDoc";
      es
    case (Some(p), None) =>
      var es := [Entry("photo", FileValue(p))];
      assert es[0].key == "photo";
      es
    case (None, Some(d)) =>
      var es := [Entry("aadhaarDoc", FileValue(d))];
      assert es[0].key == "aadhaarDoc";
      es
    case (None, None) => []
  }

  /** What pressing submit does before the server answers. */
  datatype Submission = PasswordMismatch | Submitted(entries: seq<Entry>)

  /** `handleSubmit` up to the request: mismatching passwords stop it. */
  function Submit(f: TeacherForm): (s: Submission)
    ensures s.PasswordMismatch? <==> f.password != f.confirmPassword
    ensures s.Submitted? ==> |s.entries| >= 13 && s.entries[..13] == BaseEntries(f) && s.entries[13..] == FileEntries(f)
  {
    if f.password != f.confirmPassword then PasswordMismatch
    else Submitted(BaseEntries(f) + FileEntries(f))
  }

  /** The confirmation field is never sent, and no file is sent that was not
      selected. */
  lemma SubmissionContents(f: TeacherForm)
    requires Submit(f).Submitted?
    ensures forall i :: 0 <= i < |Submit(f).entries| ==> Submit(f).entries[i].key != "confirmPassword"
    ensures f.photo.None? ==> forall i :: 0 <= i < |Submit(f).entries| ==> Submit(f).entries[i].key != "photo"
  {
    var es := Submit(f).entries;
    forall i | 0 <= i < |es| ensures es[i].key != "confirmPassword" {
      if i >= 13 {
        assert es[i] == FileEntries(f)[i - 13];
      } else {
        assert es[i] == BaseEntries(f)[i];
      }
    }
    if f.photo.None? {
      forall i | 0 <= i < |es| ensures es[i].key != "photo" {
        if i >= 13 {
          assert es[i] == FileEntries(f)[i - 13];
        } else {
          assert es[i] == BaseEntries(f)[i];
        }
      }
    }
  }

  /** The server's answer to `registerTeacher`. */
  datatype ServerAnswer = Accepted | Refused(message: Option<string>)

  /** The page after submit: the error shown and whether it navigated to the
      dashboard. */
  datatype AfterSubmit = AfterSubmit(error: Option<string>, navigated: bool)

  function Finish(f: TeacherForm, answer: ServerAnswer): (r: AfterSubmit)
    ensures f.password != f.confirmPassword ==> r == AfterSubmit(Some("Passwords do not match"), false)
    ensures r.navigated <==> f.password == f.confirmPassword && answer.Accepted?
    ensures r.error.Some? <==> !r.navigated
    ensures f.password == f.confirmPassword && answer.Refused? && !Truthy(answer.message)
            ==> r.error == Some("Registration failed")
  {
    if f.password != f.confirmPassword then AfterSubmit(Some("Passwords do not match"), false)
    else match answer
      case Accepted => AfterSubmit(None, true)
      case Refused(m) => AfterSubmit(Some(if Truthy(m) then m.value else "Registration failed"), false)
  }

  /** Step circle `i` is highlighted once the wizard has reached it. */
  predicate CircleOn(step: int, i: int) {
    step >= i
  }

  /** The connector after circle `i` is highlighted once the wizard is past it. */
  predicate ConnectorOn(step: int, i: int) {
    step > i
  }

  /** The highlighted circles are a prefix, and a highlighted connector sits
      between two highlighted circles. */
  lemma StepIndicatorShape(step: int, i: int, j: int)
    requires 1 <= i <= j <= 3
    ensures CircleOn(step, j) ==> CircleOn(step, i)
    ensures i < 3 && ConnectorOn(step, i) ==> CircleOn(step, i) && CircleOn(step, i + 1)
    ensures i < 3 ==> (ConnectorOn(step, i) <==> CircleOn(step, i + 1))
  {
  }

  /** The wizard's buttons: Next on steps 1 and 2, Back on steps 2 and 3. */
  datatype StepButton = NextButton | BackButton

  function PressStep(step: int, b: StepButton): (r: int)
    requires 1 <= step <= 3
    ensures 1 <= r <= 3
    ensures b.NextButton? && step < 3 ==> r == step + 1
    ensures b.BackButton? && step > 1 ==> r == step - 1
  {
    match b
    case NextButton => if step < 3 then step + 1 else step
    case BackButton => if step > 1 then step - 1 else step
  }

  /** Back undoes Next. */
  lemma BackUndoesNext(step: int)
    requires 1 <= step < 3
    ensures PressStep(PressStep(step, NextButton), BackButton) == step
  {
  }
}

=== FILE: socket_server.dfy ===
/** The real-time core of the server (backend/server.js): the `users`
    registry from user id to socket id and the Socket.io handlers for
    presence, chat relay, typing signals, read receipts and call signalling.

    Socket.io hands the server one event at a time, so every handler is a
    function from the current state, the id of the socket the event arrived
    on and the event to the next state and the list of emissions it makes.
    The server keeps no call state: the five call events are pure relays. */
module SocketServer {
  import opened Common

  type UserId = string
  type SocketId = string
  /** Offer, answer and ICE candidate payloads, relayed without interpretation. */
  type Signal = string

  datatype Binding = Binding(user: UserId, socket: SocketId)

  /** `users`, a JavaScript `Map`. Its iteration order is insertion order and
      `set` on a present key keeps the key's position, so it is a sequence of
      bindings in which each user appears at most once. */
  type Registry = seq<Binding>

  predicate WellFormed(reg: Registry) {
    forall i, j :: 0 <= i < j < |reg| ==> reg[i].user != reg[j].user
  }

  /** The position of `u`'s binding, if `u` is registered. */
  function IndexOfUser(reg: Registry, u: UserId): (r: Option<nat>)
    ensures r.Some? ==> r.value < |reg| && reg[r.value].user == u
    ensures r.Some? ==> forall j :: 0 <= j < r.value ==> reg[j].user != u
    ensures r.None? ==> forall j :: 0 <= j < |reg| ==> reg[j].user != u
    decreases |reg|
  {
    if |reg| == 0 then None
    else if reg[0].user == u then Some(0)
    else match IndexOfUser(reg[1..], u)
      case None => None
      case Some(i) => Some(i + 1)
  }

  /** `users.get(u)`. */
  function Lookup(reg: Registry, u: UserId): (r: Option<SocketId>)
    ensures r.Some? ==> Binding(u, r.value) in reg
    ensures r.None? ==> forall j :: 0 <= j < |reg| ==> reg[j].user != u
  {
    match IndexOfUser(reg, u)
    case Some(i) => Some(reg[i].socket)
    case None => None
  }

  /** In a well-formed registry a binding present for `u` is what `get` returns. */
  lemma LookupFinds(reg: Registry, u: UserId, s: SocketId)
    requires WellFormed(reg)
    requires Binding(u, s) in reg
    ensures Lookup(reg, u) == Some(s)
  {
    var k :| 0 <= k < |reg| && reg[k] == Binding(u, s);
    var i := IndexOfUser(reg, u).value;
    assert i == k;
  }

  /** `users.set(u, s)`: rebind `u` in place, or append a new binding. */
  function Bind(reg: Registry, u: UserId, s: SocketId): (r: Registry)
    ensures WellFormed(reg) ==> WellFormed(r)
    ensures Binding(u, s) in r
    ensures forall b :: b in reg && b.user != u ==> b in r
    ensures forall b :: b in r && b.user != u ==> b in reg
    ensures |r| == if Lookup(reg, u).Some? then |reg| else |reg| + 1
  {
    match IndexOfUser(reg, u)
    case Some(i) =>
      var r := reg[i := Binding(u, s)];
      assert r[i] == Binding(u, s);
      assert forall k :: 0 <= k < |reg| && k != i ==> r[k] == reg[k];
      r
    case None =>
      var r := reg + [Binding(u, s)];
      assert r[|reg|] == Binding(u, s);
      r
  }

  /** In a well-formed registry, `set(u, s)` makes `get(u)` return `s` and
      changes `get` for no other user. */
  lemma BindLookups(reg: Registry, u: UserId, s: SocketId)
    ensures WellFormed(reg) ==> Lookup(Bind(reg, u, s), u) == Some(s)
    ensures WellFormed(reg) ==> forall v :: v != u ==> Lookup(Bind(reg, u, s), v) == Lookup(reg, v)
  {
    var r := Bind(reg, u, s);
    if WellFormed(reg) {
      LookupFinds(r, u, s);
      forall v | v != u ensures Lookup(r, v) == Lookup(reg, v) {
        match Lookup(reg, v)
        case Some(x) => LookupFinds(r, v, x);
        case None =>
      }
    }
  }

  /** The position of the first binding (in insertion order) to socket `s`. */
  function IndexOfSocket(reg: Registry, s: SocketId): (r: Option<nat>)
    ensures r.Some? ==> r.value < |reg| && reg[r.value].socket == s
    ensures r.Some? ==> forall j :: 0 <= j < r.value ==> reg[j].socket != s
    ensures r.None? ==> forall j :: 0 <= j < |reg| ==> reg[j].socket != s
    decreases |reg|
  {
    if |reg| == 0 then None
    else if reg[0].socket == s then Some(0)
    else match IndexOfSocket(reg[1..], s)
      case None => None
      case Some(i) => Some(i + 1)
  }

  /** Removing one binding keeps the users distinct. */
  lemma RemoveKeepsWellFormed(reg: Registry, i: nat)
    requires WellFormed(reg) && i < |reg|
    ensures WellFormed(reg[..i] + reg[i + 1..])
  {
    var r := reg[..i] + reg[i + 1..];
    forall a, b | 0 <= a < b < |r| ensures r[a].user != r[b].user {
      var a' := if a < i then a else a + 1;
      var b' := if b < i then b else b + 1;
      assert r[a] == reg[a'] && r[b] == reg[b'];
    }
  }

  /** A stored chat message. Only `read` ever changes after creation. */
  datatype ChatMessage = ChatMessage(
    senderId: UserId,
    senderType: string,
    receiverId: UserId,
    receiverType: string,
    text: string,
    messageType: string,
    read: bool)

  /** The message collection; a message's id is its position. */
  type MessageLog = seq<ChatMessage>

  /** The payload of `send-message`; `messageType` may be missing or empty. */
  datatype SendData = SendData(
    senderId: UserId,
    receiverId: UserId,
    text: string,
    messageType: Option<string>,
    senderType: string,
    receiverType: string)

  /** The payload of `typing`/`stop-typing`, forwarded unchanged. */
  datatype TypingData = TypingData(senderId: UserId, receiverId: UserId)

  /** What the store does with a `send-message`: `Message.create` fails, or it
      succeeds and one of the two `populate` calls fails, or all succeed. */
  datatype PersistOutcome = Persisted | CreateFailed(error: string) | PopulateFailed(error: string)

  /** Whether `findByIdAndUpdate` resolved or threw. */
  datatype UpdateOutcome = Updated | UpdateFailed

  /** The events the server emits. */
  datatype ServerEvent =
    | UserOnline(user: UserId)
    | UserOffline(user: UserId)
    | ReceiveMessage(id: nat, message: ChatMessage)
    | MessageSent(id: nat, message: ChatMessage)
    | MessageError(error: string)
    | Typing(typing: TypingData)
    | StopTyping(typing: TypingData)
    | MessageRead(messageId: nat)
    | IncomingCall(from: UserId, name: string, offer: Signal, signal: Signal)
    | CallAccepted(signal: Signal, answer: Signal)
    | CallRejected
    | IceCandidate(candidate: Signal)
    | CallEnded

  /** `io.to(id).emit`/`socket.emit` reach one socket; `socket.broadcast.emit`
      reaches every socket except the sender's. */
  datatype Target = ToSocket(socket: SocketId) | AllExcept(socket: SocketId)

  datatype Emission = Emit(target: Target, event: ServerEvent)

  /** The events a client sends, with the store's answer where there is one. */
  datatype ClientEvent =
    | Join(user: UserId)
    | SendMessage(data: SendData, outcome: PersistOutcome)
    | TypingEvent(typing: TypingData)
    | StopTypingEvent(typing: TypingData)
    | ReadReceipt(messageId: nat, senderId: UserId, update: UpdateOutcome)
    | CallUser(to: UserId, offer: Signal, from: UserId, name: string)
    | AcceptCall(to: UserId, answer: Signal)
    | RejectCall(to: UserId)
    | IceCandidateEvent(to: UserId, candidate: Signal)
    | EndCall(to: UserId)
    | Disconnect

  datatype ServerState = ServerState(users: Registry, log: MessageLog)

  datatype Step = Step(state: ServerState, out: seq<Emission>)

  /** Emit `ev` to `to`'s socket when `to` is registered; drop it otherwise. */
  function RelayTo(reg: Registry, to: UserId, ev: ServerEvent): (out: seq<Emission>)
    ensures |out| <= 1
    ensures |out| == 1 <==> Lookup(reg, to).Some?
    ensures |out| == 1 ==> out[0] == Emit(ToSocket(Lookup(reg, to).value), ev)
  {
    match Lookup(reg, to)
    case Some(s) => [Emit(ToSocket(s), ev)]
    case None => []
  }

  /** `join`: bind the user to this socket (last join wins) and tell every
      other socket that the user is online. */
  function OnJoin(st: ServerState, sock: SocketId, u: UserId): (r: Step)
    ensures WellFormed(st.users) ==> Lookup(r.state.users, u) == Some(sock)
    ensures WellFormed(st.users) ==>
      forall v :: v != u ==> Lookup(r.state.users, v) == Lookup(st.users, v)
    ensures r.state.log == st.log
    ensures r.out == [Emit(AllExcept(sock), UserOnline(u))]
  {
    var users := Bind(st.users, u, sock);
    BindLookups(st.users, u, sock);
    Step(ServerState(users, st.log), [Emit(AllExcept(sock), UserOnline(u))])
  }

  /** The message `send-message` stores: unread, `messageType` defaulting to 'text'. */
  function NewMessage(data: SendData): (m: ChatMessage)
    ensures !m.read
    ensures m.messageType == if data.messageType.Some? && data.messageType.value != "" then data.messageType.value else "text"
    ensures m.senderId == data.senderId && m.receiverId == data.receiverId && m.text == data.text
    ensures m.senderType == data.senderType && m.receiverType == data.receiverType
  {
    ChatMessage(data.senderId, data.senderType, data.receiverId, data.receiverType, data.text,
      if data.messageType.Some? && data.messageType.value != "" then data.messageType.value else "text",
      false)
  }

  /** `send-message`: persist, deliver to the receiver if registered, confirm to
      the sender; any store failure reports `message-error` to the sender and
      delivers nothing. `senderId` is taken from the payload as given. */
  function OnSendMessage(st: ServerState, sock: SocketId, data: SendData, outcome: PersistOutcome): (r: Step)
    ensures r.state.users == st.users
    ensures outcome.CreateFailed? ==>
      r.state.log == st.log && r.out == [Emit(ToSocket(sock), MessageError(outcome.error))]
    ensures outcome.PopulateFailed? ==>
      r.state.log == st.log + [NewMessage(data)] && r.out == [Emit(ToSocket(sock), MessageError(outcome.error))]
    ensures outcome.Persisted? ==>
      && r.state.log == st.log + [NewMessage(data)]
      && r.out == RelayTo(st.users, data.receiverId, ReceiveMessage(|st.log|, NewMessage(data)))
                  + [Emit(ToSocket(sock), MessageSent(|st.log|, NewMessage(data)))]
  {
    var m := NewMessage(data);
    match outcome
    case CreateFailed(e) => Step(st, [Emit(ToSocket(sock), MessageError(e))])
    case PopulateFailed(e) => Step(ServerState(st.users, st.log + [m]), [Emit(ToSocket(sock), MessageError(e))])
    case Persisted =>
      var id := |st.log|;
      var delivered := match Lookup(st.users, data.receiverId)
        case Some(s) => [Emit(ToSocket(s), ReceiveMessage(id, m))]
        case None => [];
      Step(ServerState(st.users, st.log + [m]), delivered + [Emit(ToSocket(sock), MessageSent(id, m))])
  }

  /** Mark message `id` read; ids that name no message change nothing. */
  function MarkRead(log: MessageLog, id: nat): (r: MessageLog)
    ensures |r| == |log|
    ensures forall i :: 0 <= i < |log| && i != id ==> r[i] == log[i]
    ensures id < |log| ==> r[id] == log[id].(read := true)
  {
    if id < |log| then log[id := log[id].(read := true)] else log
  }

  /** `read-receipt`: set `read`, then tell the original sender if registered. */
  function OnReadReceipt(st: ServerState, id: nat, senderId: UserId, update: UpdateOutcome): (r: Step)
    ensures r.state.users == st.users
    ensures update.UpdateFailed? ==> r.state == st && r.out == []
    ensures update.Updated? ==> r.state.log == MarkRead(st.log, id)
    ensures update.Updated? ==> r.out == RelayTo(st.users, senderId, MessageRead(id))
  {
    match update
    case UpdateFailed => Step(st, [])
    case Updated => Step(ServerState(st.users, MarkRead(st.log, id)), RelayTo(st.users, senderId, MessageRead(id)))
  }

  /** Dispatch one client event arriving on socket `sock`. */
  function Handle(st: ServerState, sock: SocketId, ev: ClientEvent): (r: Step)
    ensures !ev.Join? && !ev.Disconnect? ==> r.state.users == st.users
    ensures WellFormed(st.users) ==> WellFormed(r.state.users)
    ensures LogEvolves(st.log, r.state.log)
  {
    match ev
    case Join(u) => OnJoin(st, sock, u)
    case SendMessage(data, outcome) => OnSendMessage(st, sock, data, outcome)
    case TypingEvent(t) => Step(st, RelayTo(st.users, t.receiverId, Typing(t)))
    case StopTypingEvent(t) => Step(st, RelayTo(st.users, t.receiverId, StopTyping(t)))
    case ReadReceipt(id, senderId, update) => OnReadReceipt(st, id, senderId, update)
    case CallUser(to, offer, from, name) => Step(st, RelayTo(st.users, to, IncomingCall(from, name, offer, offer)))
    case AcceptCall(to, answer) => Step(st, RelayTo(st.users, to, CallAccepted(answer, answer)))
    case RejectCall(to) => Step(st, RelayTo(st.users, to, CallRejected))
    case IceCandidateEvent(to, candidate) => Step(st, RelayTo(st.users, to, IceCandidate(candidate)))
    case EndCall(to) => Step(st, RelayTo(st.users, to, CallEnded))
    case Disconnect => OnDisconnect(st, sock)
  }

  /** `disconnect`: walk the bindings in insertion order, remove the first one
      whose socket is the closing socket and announce that user offline; stop
      there. */
  function OnDisconnect(st: ServerState, sock: SocketId): (r: Step)
    ensures r.state.log == st.log
    ensures WellFormed(st.users) ==> WellFormed(r.state.users)
    ensures IndexOfSocket(st.users, sock).None? ==> r.state == st && r.out == []
    ensures IndexOfSocket(st.users, sock).Some? ==>
      var i := IndexOfSocket(st.users, sock).value;
      && r.state.users == st.users[..i] + st.users[i + 1..]
      && r.out == [Emit(AllExcept(sock), UserOffline(st.users[i].user))]
  {
    match IndexOfSocket(st.users, sock)
    case None => Step(st, [])
    case Some(i) =>
      var users := st.users[..i] + st.users[i + 1..];
      if WellFormed(st.users) then
        RemoveKeepsWellFormed(st.users, i);
        Step(ServerState(users, st.log), [Emit(AllExcept(sock), UserOffline(st.users[i].user))])
      else
        Step(ServerState(users, st.log), [Emit(AllExcept(sock), UserOffline(st.users[i].user))])
  }

  /** How the message log may change: messages are only appended, and an
      existing message keeps every field except `read`, which only goes from
      false to true. */
  ghost predicate LogEvolves(before: MessageLog, after: MessageLog) {
    && |before| <= |after|
    && forall i :: 0 <= i < |before| ==>
         && after[i].(read := before[i].read) == before[i]
         && (before[i].read ==> after[i].read)
  }

  lemma LogEvolvesTransitive(a: MessageLog, b: MessageLog, c: MessageLog)
    requires LogEvolves(a, b) && LogEvolves(b, c)
    ensures LogEvolves(a, c)
  {
    forall i | 0 <= i < |a|
      ensures c[i].(read := a[i].read) == a[i] && (a[i].read ==> c[i].read)
    {
      assert b[i].(read := a[i].read) == a[i];
      assert c[i].(read := b[i].read) == b[i];
    }
  }

  /** The state and emissions after a sequence of (socket, event) pairs,
      processed one at a time in order. */
  function Run(st: ServerState, events: seq<(SocketId, ClientEvent)>): (r: Step)
    ensures WellFormed(st.users) ==> WellFormed(r.state.users)
    ensures LogEvolves(st.log, r.state.log)
    decreases |events|
  {
    if |events| == 0 then Step(st, [])
    else
      var first := Handle(st, events[0].0, events[0].1);
      var rest := Run(first.state, events[1..]);
      LogEvolvesTransitive(st.log, first.state.log, rest.state.log);
      Step(rest.state, first.out + rest.out)
  }

  /** A reconnect followed by the old socket's disconnect: the old socket's
      `disconnect` removes nothing and announces nobody offline, and the user
      stays bound to the new socket. */
  lemma StaleDisconnectIsNoOp(st: ServerState, u: UserId, oldSock: SocketId, newSock: SocketId)
    requires WellFormed(st.users)
    requires Lookup(st.users, u) == Some(oldSock)
    requires oldSock != newSock
    requires forall b :: b in st.users && b.user != u ==> b.socket != oldSock
    ensures var afterJoin := OnJoin(st, newSock, u).state;
            var r := OnDisconnect(afterJoin, oldSock);
            r.state == afterJoin && r.out == [] && Lookup(r.state.users, u) == Some(newSock)
  {
    var afterJoin := OnJoin(st, newSock, u).state;
    forall j | 0 <= j < |afterJoin.users| ensures afterJoin.users[j].socket != oldSock {
      var b := afterJoin.users[j];
      if b.user != u {
        assert b in st.users;
      } else {
        LookupFinds(afterJoin.users, u, b.socket);
      }
    }
  }

  /** A disconnect removes at most one binding, and the user it removes was
      bound to the closing socket. */
  lemma DisconnectRemovesAtMostOne(st: ServerState, sock: SocketId)
    requires WellFormed(st.users)
    ensures var r := OnDisconnect(st, sock);
      && |st.users| - 1 <= |r.state.users| <= |st.users|
      && |r.out| <= 1
      && (|r.out| == 1 <==> |r.state.users| == |st.users| - 1)
      && forall e :: e in r.out ==>
           (&& e.target == AllExcept(sock) && e.event.UserOffline?
            && Lookup(st.users, e.event.user) == Some(sock)
            && Lookup(r.state.users, e.event.user).None?)
  {
    var r := OnDisconnect(st, sock);
    match IndexOfSocket(st.users, sock)
    case None =>
    case Some(i) =>
      var u := st.users[i].user;
      LookupFinds(st.users, u, sock);
      var rest := st.users[..i] + st.users[i + 1..];
      forall j | 0 <= j < |rest| ensures rest[j].user != u {
        if j < i { assert rest[j] == st.users[j]; } else { assert rest[j] == st.users[j + 1]; }
      }
  }

  /** Everything but `join` and `disconnect` leaves the registry alone, and the
      call events in particular are relays that emit to `users.get(to)` or
      nothing; `incoming-call` carries the offer as both `offer` and `signal`. */
  lemma CallEventsAreRelays(st: ServerState, sock: SocketId, ev: ClientEvent)
    requires ev.CallUser? || ev.AcceptCall? || ev.RejectCall? || ev.IceCandidateEvent? || ev.EndCall?
    ensures var r := Handle(st, sock, ev);
      && r.state == st
      && |r.out| <= 1
      && (|r.out| == 1 <==> Lookup(st.users, ev.to).Some?)
      && (|r.out| == 1 ==> r.out[0].target == ToSocket(Lookup(st.users, ev.to).value))
      && (ev.CallUser? && |r.out| == 1 ==> r.out[0].event == IncomingCall(ev.from, ev.name, ev.offer, ev.offer))
  {
  }

  /** `typing`/`stop-typing` store nothing and forward the payload unchanged to
      a registered receiver, and are dropped otherwise. */
  lemma TypingIsForwardedUnchanged(st: ServerState, sock: SocketId, t: TypingData)
    ensures var r := Handle(st, sock, TypingEvent(t));
      && r.state == st
      && (Lookup(st.users, t.receiverId).None? ==> r.out == [])
      && (Lookup(st.users, t.receiverId).Some? ==>
            r.out == [Emit(ToSocket(Lookup(st.users, t.receiverId).value), Typing(t))])
    ensures var r := Handle(st, sock, StopTypingEvent(t));
      && r.state == st
      && (Lookup(st.users, t.receiverId).None? ==> r.out == [])
      && (Lookup(st.users, t.receiverId).Some? ==>
            r.out == [Emit(ToSocket(Lookup(st.users, t.receiverId).value), StopTyping(t))])
  {
  }

  /** Repeating a read receipt leaves the log as the first one left it (it
      does emit `message-read` again). */
  lemma ReadReceiptIdempotent(st: ServerState, id: nat, senderId: UserId)
    ensures var once := OnReadReceipt(st, id, senderId, Updated);
            var twice := OnReadReceipt(once.state, id, senderId, Updated);
            twice.state == once.state && twice.out == once.out
  {
    var once := OnReadReceipt(st, id, senderId, Updated);
    var twice := OnReadReceipt(once.state, id, senderId, Updated);
    if id < |st.log| {
      assert once.state.log[id].read;
      assert twice.state.log == once.state.log;
    }
  }

  /** The chat scenario: u1 and u2 join on sockets s1 and s2, u1 sends "hi" to
      u2, u2 acknowledges it; u2 receives the unread message and u1 receives
      `message-read` for it. */
  lemma ChatScenario()
    ensures var data := SendData("u1", "u2", "hi", None, "User", "Teacher");
      var j1 := OnJoin(ServerState([], []), "s1", "u1");
      var j2 := OnJoin(j1.state, "s2", "u2");
      var sent := OnSendMessage(j2.state, "s1", data, Persisted);
      var ack := OnReadReceipt(sent.state, 0, "u1", Updated);
      var m := ChatMessage("u1", "User", "u2", "Teacher", "hi", "text", false);
      && sent.out == [Emit(ToSocket("s2"), ReceiveMessage(0, m)), Emit(ToSocket("s1"), MessageSent(0, m))]
      && ack.out == [Emit(ToSocket("s1"), MessageRead(0))]
      && ack.state.log == [m.(read := true)]
  {
    var j1 := OnJoin(ServerState([], []), "s1", "u1");
    assert j1.state.users == [Binding("u1", "s1")];
    var j2 := OnJoin(j1.state, "s2", "u2");
    assert j2.state.users == [Binding("u1", "s1"), Binding("u2", "s2")];
    LookupFinds(j2.state.users, "u2", "s2");
    LookupFinds(j2.state.users, "u1", "s1");
  }

  /** The call scenario: u1 calls u2 with offer O, u2 answers with R; u2
      receives `incoming-call` carrying O and u1 receives `call-accepted`
      carrying R. */
  lemma CallScenario(st: ServerState, s1: SocketId, s2: SocketId, offer: Signal, answer: Signal)
    requires WellFormed(st.users)
    requires Lookup(st.users, "u1") == Some(s1) && Lookup(st.users, "u2") == Some(s2)
    ensures Handle(st, s1, CallUser("u2", offer, "u1", "Asha")).out
              == [Emit(ToSocket(s2), IncomingCall("u1", "Asha", offer, offer))]
    ensures Handle(st, s2, AcceptCall("u1", answer)).out
              == [Emit(ToSocket(s1), CallAccepted(answer, answer))]
  {
  }
}

=== FILE: sorting.dfy ===
/** The stable sort `Array.prototype.sort` performs with a numeric key
    comparator, written as an insertion sort. */
module Sorting {
  import opened Common

  /** `s` is in ascending key order. */
  predicate SortedBy<T>(key: T -> int, s: seq<T>) {
    forall i, j :: 0 <= i < j < |s| ==> key(s[i]) <= key(s[j])
  }

  /** Inserts `x` before the first element with a larger-or-equal key. */
  function Insert<T>(key: T -> int, x: T, s: seq<T>): (r: seq<T>)
    ensures multiset(r) == multiset(s) + multiset{x}
    ensures |r| == |s| + 1
    decreases |s|
  {
    if |s| == 0 then [x]
    else if key(x) <= key(s[0]) then [x] + s
    else
      assert s == [s[0]] + s[1..];
      [s[0]] + Insert(key, x, s[1..])
  }

  lemma {:induction false} InsertSorted<T>(key: T -> int, x: T, s: seq<T>)
    requires SortedBy(key, s)
    ensures SortedBy(key, Insert(key, x, s))
    decreases |s|
  {
    if |s| > 0 && key(x) > key(s[0]) {
      InsertSorted(key, x, s[1..]);
      var r := Insert(key, x, s[1..]);
      assert forall k :: 0 <= k < |r| ==> r[k] in multiset(s[1..]) + multiset{x};
      forall k | 0 <= k < |r| ensures key(s[0]) <= key(r[k]) {
        assert r[k] in multiset(s[1..]) + multiset{x};
        if r[k] in multiset(s[1..]) {
          var j :| 1 <= j < |s| && s[j] == r[k];
        }
      }
    }
  }

  /** `s.sort((a, b) => key(a) - key(b))`: stable ascending order by key. */
  function SortBy<T>(key: T -> int, s: seq<T>): (r: seq<T>)
    ensures multiset(r) == multiset(s)
    decreases |s|
  {
    if |s| == 0 then []
    else
      assert s == [s[0]] + s[1..];
      Insert(key, s[0], SortBy(key, s[1..]))
  }

  lemma {:induction false} SortBySorted<T>(key: T -> int, s: seq<T>)
    ensures SortedBy(key, SortBy(key, s))
    decreases |s|
  {
    if |s| > 0 {
      SortBySorted(key, s[1..]);
      InsertSorted(key, s[0], SortBy(key, s[1..]));
    }
  }

  /** Inserting a key-1 element into "key-0 block then key-1 block" puts it
      at the head of the key-1 block. */
  lemma {:induction false} InsertAfterBlock<T>(key: T -> int, x: T, a: seq<T>, b: seq<T>)
    requires key(x) == 1
    requires forall i :: 0 <= i < |a| ==> key(a[i]) == 0
    requires forall i :: 0 <= i < |b| ==> key(b[i]) == 1
    ensures Insert(key, x, a + b) == a + [x] + b
    decreases |a|
  {
    if |a| == 0 {
      assert a + b == b;
    } else {
      assert (a + b)[1..] == a[1..] + b;
      InsertAfterBlock(key, x, a[1..], b);
    }
  }

  /** The key a "first group / second group" comparator sorts by. */
  function GroupKey<T>(p: T -> bool): T -> int {
    x => if p(x) then 0 else 1
  }

  /** The elements of `s` failing `p`, in their original order. */
  function FilterNot<T>(p: T -> bool, s: seq<T>): (r: seq<T>)
    ensures forall x :: x in r ==> x in s && !p(x)
  {
    Filter(x => !p(x), s)
  }

  /** In a partition every element satisfying `p` precedes every one that does not. */
  lemma PartitionOrdered<T>(p: T -> bool, s: seq<T>)
    ensures var r := Filter(p, s) + FilterNot(p, s);
            forall i, j :: 0 <= i < j < |r| && p(r[j]) ==> p(r[i])
  {
    var a := Filter(p, s);
    var b := FilterNot(p, s);
    var r := a + b;
    forall i, j | 0 <= i < j < |r| && p(r[j]) ensures p(r[i]) {
      assert r[i] == a[i] && a[i] in a;
    }
  }

  /** One step of the partition proof: the head joins its own group. */
  lemma InsertIntoGroups<T>(p: T -> bool, x: T, a: seq<T>, b: seq<T>)
    requires forall i :: 0 <= i < |a| ==> p(a[i])
    requires forall i :: 0 <= i < |b| ==> !p(b[i])
    ensures p(x) ==> Insert(GroupKey(p), x, a + b) == [x] + a + b
    ensures !p(x) ==> Insert(GroupKey(p), x, a + b) == a + [x] + b
  {
    var key := GroupKey(p);
    if p(x) {
      if |a + b| > 0 {
        assert key(x) == 0 && key((a + b)[0]) >= 0;
      }
    } else {
      InsertAfterBlock(key, x, a, b);
    }
  }

  /** With a two-valued key (0 first, then 1), the stable sort is the
      partition: the key-0 elements in their order, then the key-1 ones. */
  lemma {:induction false} BinarySortIsPartition<T>(p: T -> bool, s: seq<T>)
    ensures SortBy(GroupKey(p), s) == Filter(p, s) + FilterNot(p, s)
    decreases |s|
  {
    if |s| > 0 {
      BinarySortIsPartition(p, s[1..]);
      var a := Filter(p, s[1..]);
      var b := FilterNot(p, s[1..]);
      forall i | 0 <= i < |a| ensures p(a[i]) { assert a[i] in a; }
      forall i | 0 <= i < |b| ensures !p(b[i]) { assert b[i] in b; }
      InsertIntoGroups(p, s[0], a, b);
    }
  }
  /** A subsequence of a sorted sequence is sorted. */
  lemma {:induction false} FilterKeepsSorted<T>(key: T -> int, p: T -> bool, s: seq<T>)
    requires SortedBy(key, s)
    ensures SortedBy(key, Filter(p, s))
    decreases |s|
  {
    if |s| > 0 {
      FilterKeepsSorted(key, p, s[1..]);
      var rest := Filter(p, s[1..]);
      if p(s[0]) {
        forall j | 0 <= j < |rest| ensures key(s[0]) <= key(rest[j]) {
          assert rest[j] in s[1..];
          var k :| 0 <= k < |s[1..]| && s[1..][k] == rest[j];
          assert s[k + 1] == rest[j];
        }
        assert Filter(p, s) == [s[0]] + rest;
      }
    }
  }

  /** Both halves of a partition of a sorted sequence are sorted. */
  lemma PartitionKeepsSorted<T>(key: T -> int, p: T -> bool, s: seq<T>)
    requires SortedBy(key, s)
    ensures SortedBy(key, Filter(p, s)) && SortedBy(key, FilterNot(p, s))
  {
    FilterKeepsSorted(key, p, s);
    FilterKeepsSorted(key, x => !p(x), s);
  }
}

=== FILE: star_rating.dfy ===
/** The five-star widget of frontend/src/components/StarRating.js: which stars
    are filled, and how hover and click events change it. */
module StarRating {
  import opened Common

  /** The star indices, 1 through 5. */
  const Stars: seq<int> := [1, 2, 3, 4, 5]

  /** The value the stars show: the hovered star, or the rating when nothing
      is hovered (`hoverRating || rating`). */
  function Shown(rating: int, hover: int): (v: int)
    ensures hover != 0 ==> v == hover
    ensures hover == 0 ==> v == rating
  {
    if hover != 0 then hover else rating
  }

  predicate Filled(rating: int, hover: int, index: int) {
    index <= Shown(rating, hover)
  }

  /** The filled stars are a prefix of the five, of length the shown value
      clamped to 0..5. */
  lemma FilledPrefix(rating: int, hover: int, i: int, j: int)
    requires 1 <= i <= j <= 5
    ensures Filled(rating, hover, j) ==> Filled(rating, hover, i)
    ensures Filled(rating, hover, i) <==> i <= Shown(rating, hover)
  {
  }

  /** The number of filled stars. */
  function FilledCount(rating: int, hover: int): (n: nat)
    ensures n <= 5
    ensures forall k :: 0 <= k < |Stars| ==> (Filled(rating, hover, Stars[k]) <==> k < n)
  {
    var s := Shown(rating, hover);
    if s <= 0 then 0 else if s >= 5 then 5 else s
  }

  datatype StarEvent = MouseEnter(index: int) | MouseLeave | Click(index: int)

  /** The hover state after an event and the value passed to `onChange`, if it
      was called. */
  datatype StarStep = StarStep(hover: int, changed: Option<int>)

  function Handle(editable: bool, hasOnChange: bool, hover: int, ev: StarEvent): (r: StarStep)
    ensures !editable ==> r == StarStep(hover, None)
    ensures editable && ev.MouseLeave? ==> r == StarStep(0, None)
    ensures editable && ev.MouseEnter? ==> r == StarStep(ev.index, None)
    ensures ev.Click? ==> r.hover == hover && (r.changed.Some? <==> editable && hasOnChange)
    ensures r.changed.Some? ==> ev.Click? && r.changed.value == ev.index
  {
    match ev
    case MouseEnter(i) => if editable then StarStep(i, None) else StarStep(hover, None)
    case MouseLeave => if editable then StarStep(0, None) else StarStep(hover, None)
    case Click(i) => if editable && hasOnChange then StarStep(hover, Some(i)) else StarStep(hover, None)
  }

  /** The hover state and every `onChange` value after a sequence of events. */
  function Run(editable: bool, hasOnChange: bool, hover: int, evs: seq<StarEvent>): (r: (int, seq<int>))
    decreases |evs|
  {
    if |evs| == 0 then (hover, [])
    else
      var step := Handle(editable, hasOnChange, hover, evs[0]);
      var rest := Run(editable, hasOnChange, step.hover, evs[1..]);
      (rest.0, (if step.changed.Some? then [step.changed.value] else []) + rest.1)
  }

  /** A read-only widget starting unhovered stays unhovered, so it always shows
      the rating, and never calls `onChange`. */
  lemma {:induction false} ReadOnlyIsInert(hasOnChange: bool, evs: seq<StarEvent>)
    ensures Run(false, hasOnChange, 0, evs) == (0, [])
    decreases |evs|
  {
    if |evs| > 0 {
      ReadOnlyIsInert(hasOnChange, evs[1..]);
      var step := Handle(false, hasOnChange, 0, evs[0]);
      assert step == StarStep(0, None);
      var rest := Run(false, hasOnChange, step.hover, evs[1..]);
      assert rest == (0, []);
      var none: seq<int> := [];
      assert Run(false, hasOnChange, 0, evs) == (rest.0, none + rest.1);
      assert none + rest.1 == none;
    }
  }

  /** In an editable widget, hovering a star and leaving shows the rating again. */
  lemma HoverThenLeave(hasOnChange: bool, hover: int, i: int, rating: int)
    ensures var h := Handle(true, hasOnChange, Handle(true, hasOnChange, hover, MouseEnter(i)).hover, MouseLeave).hover;
            Shown(rating, h) == rating
  {
  }
}

=== FILE: teacher_routes.dfy ===
/** The teacher routes of backend/routes/teachers.js: the search query built
    from the query string, the distance cut-off and ordering, the
    "promoted first" ordering, the profile update that drops sensitive
    fields, and the photo/video uploads.

    The database is a sequence of teacher documents. `parseFloat`/`parseInt`
    of a query value is the parameter `num`, the case-insensitive regex text
    search is the parameter `textMatch`, and the distance from the caller's
    coordinates (`calculateDistance`) is the parameter `dist`; numbers are
    integers. */
module TeacherRoutes {
  import opened Common
  import opened Text
  import opened Sorting

  datatype Slot = Slot(start: string, end: string)
  datatype DayAvailability = DayAvailability(day: string, slots: seq<Slot>)

  /** The fields of a teacher document the search reads. */
  datatype Teacher = Teacher(
    id: string, name: string,
    subjects: seq<string>, boards: seq<string>, classesCanTeach: seq<string>,
    rating: int, monthlyRate: int, experience: int, examSpecialist: bool,
    availability: seq<DayAvailability>,
    isActive: bool, promotionActive: bool)

  /** `req.query` of `GET /api/teachers/search`: every value is an optional string. */
  datatype SearchParams = SearchParams(
    latitude: Option<string>, longitude: Option<string>,
    subject: Option<string>, board: Option<string>, cls: Option<string>,
    minRating: Option<string>, minPrice: Option<string>, maxPrice: Option<string>,
    minExperience: Option<string>, examSpecialist: Option<string>,
    maxDistance: Option<string>, day: Option<string>, time: Option<string>,
    search: Option<string>)

  datatype AvailabilityQuery = AvailabilityQuery(day: string, time: string)

  /** The Mongo query object: each optional part is a filter that is present. */
  datatype Query = Query(
    isActive: bool,
    search: Option<string>, subject: Option<string>, board: Option<string>, cls: Option<string>,
    minRating: Option<int>, minRate: Option<int>, maxRate: Option<int>, minExperience: Option<int>,
    examSpecialistOnly: bool, availability: Option<AvailabilityQuery>)

  /** A string filter, kept only when its parameter is truthy. */
  function TextFilter(v: Option<string>): (r: Option<string>)
    ensures r.Some? <==> Truthy(v)
    ensures r.Some? ==> r == v
  {
    if Truthy(v) then v else None
  }

  /** A numeric filter, kept only when its parameter is truthy. */
  function NumFilter(v: Option<string>, num: string -> int): (r: Option<int>)
    ensures r.Some? <==> Truthy(v)
    ensures r.Some? ==> r.value == num(v.value)
  {
    if Truthy(v) then Some(num(v.value)) else None
  }

  /** The query of teachers.js:30-88. */
  function BuildQuery(p: SearchParams, num: string -> int): (q: Query)
    ensures q.isActive
    ensures q.examSpecialistOnly <==> p.examSpecialist == Some("true")
    ensures q.availability.Some? <==> Truthy(p.day) && Truthy(p.time)
    ensures q.minRate.Some? <==> Truthy(p.minPrice)
    ensures q.maxRate.Some? <==> Truthy(p.maxPrice)
  {
    Query(true,
      TextFilter(p.search), TextFilter(p.subject), TextFilter(p.board), TextFilter(p.cls),
      NumFilter(p.minRating, num), NumFilter(p.minPrice, num), NumFilter(p.maxPrice, num),
      NumFilter(p.minExperience, num),
      p.examSpecialist == Some("true"),
      if Truthy(p.day) && Truthy(p.time) then Some(AvailabilityQuery(p.day.value, p.time.value)) else None)
  }

  /** Some slot of `slots` starts at or before `time`. */
  predicate SomeStartBy(slots: seq<Slot>, time: string) {
    exists i :: 0 <= i < |slots| && LexLe(slots[i].start, time)
  }

  /** Some slot of `slots` ends at or after `time`. */
  predicate SomeEndFrom(slots: seq<Slot>, time: string) {
    exists i :: 0 <= i < |slots| && LexLe(time, slots[i].end)
  }

  /** The `$elemMatch` of teachers.js:81-87 as Mongo evaluates it: an entry for
      the day whose `slots.start` has some value ≤ time and whose
      `slots.end` has some value ≥ time, possibly of different slots. */
  predicate AvailableAsWritten(t: Teacher, a: AvailabilityQuery) {
    exists k :: 0 <= k < |t.availability| && t.availability[k].day == a.day
      && SomeStartBy(t.availability[k].slots, a.time) && SomeEndFrom(t.availability[k].slots, a.time)
  }

  /** One slot of the day contains the time. */
  predicate SlotCovers(s: Slot, time: string) {
    LexLe(s.start, time) && LexLe(time, s.end)
  }

  /** The evidently intended availability filter: one slot of that day
      contains the time. */
  predicate AvailableAt(t: Teacher, a: AvailabilityQuery) {
    exists k :: 0 <= k < |t.availability| && t.availability[k].day == a.day
      && exists i :: 0 <= i < |t.availability[k].slots| && SlotCovers(t.availability[k].slots[i], a.time)
  }

  /** The corrected filter only narrows the one written. */
  lemma AvailableImpliesAsWritten(t: Teacher, a: AvailabilityQuery)
    requires AvailableAt(t, a)
    ensures AvailableAsWritten(t, a)
  {
    var k :| 0 <= k < |t.availability| && t.availability[k].day == a.day
      && exists i :: 0 <= i < |t.availability[k].slots| && SlotCovers(t.availability[k].slots[i], a.time);
    var i :| 0 <= i < |t.availability[k].slots| && SlotCovers(t.availability[k].slots[i], a.time);
    assert LexLe(t.availability[k].slots[i].start, a.time);
    assert LexLe(a.time, t.availability[k].slots[i].end);
  }

  /** A teacher free 09:00-10:00 and 14:00-15:00 on Monday passes the filter
      as written for 12:00, when no slot of theirs contains it. */
  lemma AvailabilityGapPasses()
    ensures var t := Teacher("t", "T", [], [], [], 0, 0, 0, false,
              [DayAvailability("Monday", [Slot("09:00", "10:00"), Slot("14:00", "15:00")])], true, false);
            var a := AvailabilityQuery("Monday", "12:00");
            AvailableAsWritten(t, a) && !AvailableAt(t, a)
  {
    var slots := [Slot("09:00", "10:00"), Slot("14:00", "15:00")];
    var t := Teacher("t", "T", [], [], [], 0, 0, 0, false, [DayAvailability("Monday", slots)], true, false);
    var a := AvailabilityQuery("Monday", "12:00");
    assert LexLe("09:00", "12:00");
    assert LexLe("12:00", "15:00");
    assert LexLe(slots[0].start, "12:00");
    assert LexLe("12:00", slots[1].end);
    assert t.availability[0].day == a.day;
    assert !LexLe("12:00", "10:00");
    assert !LexLe("14:00", "12:00");
    assert !SlotCovers(slots[0], "12:00") && !SlotCovers(slots[1], "12:00");
  }

  /** A document satisfies the query: array fields contain the value, numeric
      bounds are inclusive. */
  predicate Matches(q: Query, textMatch: (string, Teacher) -> bool, t: Teacher) {
    && t.isActive == q.isActive
    && (q.search.Some? ==> textMatch(q.search.value, t))
    && (q.subject.Some? ==> q.subject.value in t.subjects)
    && (q.board.Some? ==> q.board.value in t.boards)
    && (q.cls.Some? ==> q.cls.value in t.classesCanTeach)
    && (q.minRating.Some? ==> t.rating >= q.minRating.value)
    && (q.minRate.Some? ==> t.monthlyRate >= q.minRate.value)
    && (q.maxRate.Some? ==> t.monthlyRate <= q.maxRate.value)
    && (q.minExperience.Some? ==> t.experience >= q.minExperience.value)
    && (q.examSpecialistOnly ==> t.examSpecialist)
    && (q.availability.Some? ==> AvailableAsWritten(t, q.availability.value))
  }

  /** Which teachers a request admits, read off the parameters directly. */
  predicate Admits(p: SearchParams, num: string -> int, textMatch: (string, Teacher) -> bool, t: Teacher) {
    && t.isActive
    && (Truthy(p.search) ==> textMatch(p.search.value, t))
    && (Truthy(p.subject) ==> p.subject.value in t.subjects)
    && (Truthy(p.board) ==> p.board.value in t.boards)
    && (Truthy(p.cls) ==> p.cls.value in t.classesCanTeach)
    && (Truthy(p.minRating) ==> t.rating >= num(p.minRating.value))
    && (Truthy(p.minPrice) ==> num(p.minPrice.value) <= t.monthlyRate)
    && (Truthy(p.maxPrice) ==> t.monthlyRate <= num(p.maxPrice.value))
    && (Truthy(p.minExperience) ==> t.experience >= num(p.minExperience.value))
    && (p.examSpecialist == Some("true") ==> t.examSpecialist)
    && (Truthy(p.day) && Truthy(p.time) ==> AvailableAsWritten(t, AvailabilityQuery(p.day.value, p.time.value)))
  }

  /** The built query admits exactly the teachers the parameters describe. */
  lemma MatchesIffAdmits(p: SearchParams, num: string -> int, textMatch: (string, Teacher) -> bool, t: Teacher)
    ensures Matches(BuildQuery(p, num), textMatch, t) <==> Admits(p, num, textMatch, t)
  {
  }

  /** A request without filters admits every active teacher and no inactive one. */
  lemma NoFiltersAdmitsActive(num: string -> int, textMatch: (string, Teacher) -> bool, t: Teacher,
                              lat: Option<string>, lng: Option<string>, maxDistance: Option<string>)
    ensures var p := SearchParams(lat, lng, None, None, None, None, None, None, None, None, maxDistance, None, None, None);
            Matches(BuildQuery(p, num), textMatch, t) <==> t.isActive
  {
  }

  /** An empty-string parameter is ignored exactly like a missing one. */
  lemma EmptyParamIgnored(p: SearchParams, num: string -> int, textMatch: (string, Teacher) -> bool, t: Teacher)
    ensures Matches(BuildQuery(p.(minPrice := Some("")), num), textMatch, t)
        <==> Matches(BuildQuery(p.(minPrice := None), num), textMatch, t)
    ensures Matches(BuildQuery(p.(subject := Some("")), num), textMatch, t)
        <==> Matches(BuildQuery(p.(subject := None), num), textMatch, t)
  {
  }

  /** A result entry: the document, with its distance when coordinates were given. */
  datatype Listed = Listed(teacher: Teacher, distance: Option<int>)

  function DistanceKey(l: Listed): int {
    l.distance.GetOr(0)
  }

  predicate IsPromoted(l: Listed) {
    l.teacher.promotionActive
  }

  /** `teachers.map(t => ({...t, distance}))`. */
  function WithDistances(ts: seq<Teacher>, dist: Teacher -> int): (r: seq<Listed>)
    ensures |r| == |ts|
    ensures forall i :: 0 <= i < |ts| ==> r[i] == Listed(ts[i], Some(dist(ts[i])))
  {
    seq(|ts|, i requires 0 <= i < |ts| => Listed(ts[i], Some(dist(ts[i]))))
  }

  function WithoutDistances(ts: seq<Teacher>): (r: seq<Listed>)
    ensures |r| == |ts|
    ensures forall i :: 0 <= i < |ts| ==> r[i] == Listed(ts[i], None)
  {
    seq(|ts|, i requires 0 <= i < |ts| => Listed(ts[i], None))
  }

  /** Whether both coordinates were given. */
  predicate Located(p: SearchParams) {
    Truthy(p.latitude) && Truthy(p.longitude)
  }

  /** The stored documents the query admits (`Teacher.find(query)`). */
  function Found(store: seq<Teacher>, p: SearchParams, num: string -> int,
                 textMatch: (string, Teacher) -> bool): (r: seq<Teacher>)
    ensures forall t :: t in r <==> t in store && Matches(BuildQuery(p, num), textMatch, t)
  {
    var admitted := t => Matches(BuildQuery(p, num), textMatch, t);
    FilterExactly(admitted, store);
    Filter(admitted, store)
  }

  /** The `maxDistance` cut-off, applied only when the parameter is truthy. */
  function WithinReach(ls: seq<Listed>, p: SearchParams, num: string -> int): (r: seq<Listed>)
    ensures Truthy(p.maxDistance) ==>
      forall l :: l in r <==> l in ls && DistanceKey(l) <= num(p.maxDistance.value)
    ensures !Truthy(p.maxDistance) ==> r == ls
  {
    if Truthy(p.maxDistance) then
      var near := (l: Listed) => DistanceKey(l) <= num(p.maxDistance.value);
      FilterExactly(near, ls);
      Filter(near, ls)
    else ls
  }

  /** The list before the promotion ordering (teachers.js:91-120): the matching
      documents; with coordinates, annotated with distances, cut at
      `maxDistance` when given, and sorted nearest first. */
  function Candidates(store: seq<Teacher>, p: SearchParams, num: string -> int,
                      textMatch: (string, Teacher) -> bool, dist: Teacher -> int): (r: seq<Listed>)
  {
    var found := Found(store, p, num, textMatch);
    if !Located(p) then WithoutDistances(found)
    else SortBy(DistanceKey, WithinReach(WithDistances(found, dist), p, num))
  }

  /** With coordinates the candidates are nearest first. */
  lemma CandidatesNearestFirst(store: seq<Teacher>, p: SearchParams, num: string -> int,
                               textMatch: (string, Teacher) -> bool, dist: Teacher -> int)
    requires Located(p)
    ensures SortedBy(DistanceKey, Candidates(store, p, num, textMatch, dist))
  {
    SortBySorted(DistanceKey, WithinReach(WithDistances(Found(store, p, num, textMatch), dist), p, num));
  }

  /** `GET /api/teachers/search`: the candidates with promoted teachers moved
      first by a stable sort (teachers.js:122-127). */
  function Search(store: seq<Teacher>, p: SearchParams, num: string -> int,
                  textMatch: (string, Teacher) -> bool, dist: Teacher -> int): (r: seq<Listed>)
    ensures multiset(r) == multiset(Candidates(store, p, num, textMatch, dist))
  {
    SortBy(GroupKey(IsPromoted), Candidates(store, p, num, textMatch, dist))
  }

  /** Every candidate is a stored teacher the query admits; with coordinates it
      carries its distance, within `maxDistance` when that was given. */
  lemma CandidatesAdmitted(store: seq<Teacher>, p: SearchParams, num: string -> int,
                           textMatch: (string, Teacher) -> bool, dist: Teacher -> int, l: Listed)
    requires l in Candidates(store, p, num, textMatch, dist)
    ensures l.teacher in store && Admits(p, num, textMatch, l.teacher)
    ensures Located(p) ==> l.distance == Some(dist(l.teacher))
    ensures Located(p) && Truthy(p.maxDistance) ==> dist(l.teacher) <= num(p.maxDistance.value)
    ensures !Located(p) ==> l.distance.None?
  {
    var found := Found(store, p, num, textMatch);
    var c := Candidates(store, p, num, textMatch, dist);
    if Located(p) {
      var annotated := WithDistances(found, dist);
      var near := WithinReach(annotated, p, num);
      assert l in multiset(near);
      assert l in annotated;
      var i :| 0 <= i < |annotated| && annotated[i] == l;
      assert found[i] in found;
    } else {
      var i :| 0 <= i < |c| && c[i] == l;
      assert found[i] in found;
    }
    MatchesIffAdmits(p, num, textMatch, l.teacher);
  }

  /** Without coordinates every admitted teacher is listed exactly as often as
      it is stored. */
  lemma UnlocatedListsAllAdmitted(store: seq<Teacher>, p: SearchParams, num: string -> int,
                                  textMatch: (string, Teacher) -> bool, dist: Teacher -> int, t: Teacher)
    requires !Located(p)
    requires t in store && Admits(p, num, textMatch, t)
    ensures Listed(t, None) in Search(store, p, num, textMatch, dist)
  {
    MatchesIffAdmits(p, num, textMatch, t);
    var found := Found(store, p, num, textMatch);
    var i :| 0 <= i < |found| && found[i] == t;
    var c := WithoutDistances(found);
    assert c[i] == Listed(t, None);
    assert Listed(t, None) in multiset(Search(store, p, num, textMatch, dist));
  }

  /** With coordinates every admitted teacher within `maxDistance` (when
      given) is listed with its distance. */
  lemma LocatedListsAllAdmitted(store: seq<Teacher>, p: SearchParams, num: string -> int,
                                textMatch: (string, Teacher) -> bool, dist: Teacher -> int, t: Teacher)
    requires Located(p)
    requires t in store && Admits(p, num, textMatch, t)
    requires Truthy(p.maxDistance) ==> dist(t) <= num(p.maxDistance.value)
    ensures Listed(t, Some(dist(t))) in Search(store, p, num, textMatch, dist)
  {
    MatchesIffAdmits(p, num, textMatch, t);
    var found := Found(store, p, num, textMatch);
    var i :| 0 <= i < |found| && found[i] == t;
    var annotated := WithDistances(found, dist);
    assert annotated[i] == Listed(t, Some(dist(t)));
    var near := WithinReach(annotated, p, num);
    assert Listed(t, Some(dist(t))) in near;
    assert Listed(t, Some(dist(t))) in multiset(SortBy(DistanceKey, near));
    assert Listed(t, Some(dist(t))) in multiset(Search(store, p, num, textMatch, dist));
  }

  /** The evidently intended availability filter, read off the parameters. */
  predicate SlotAvailable(p: SearchParams, t: Teacher) {
    Truthy(p.day) && Truthy(p.time) ==> AvailableAt(t, AvailabilityQuery(p.day.value, p.time.value))
  }

  /** The search with the intended availability filter. A teacher with a
      covering slot also passes the filter as written, so this is the search
      run on the teachers with a covering slot. */
  function SearchIntended(store: seq<Teacher>, p: SearchParams, num: string -> int,
                          textMatch: (string, Teacher) -> bool, dist: Teacher -> int): seq<Listed>
  {
    Search(Filter((t: Teacher) => SlotAvailable(p, t), store), p, num, textMatch, dist)
  }

  /** Every teacher the intended search lists is stored, admitted, and has one
      slot that contains the requested time. */
  lemma SearchIntendedAdmitted(store: seq<Teacher>, p: SearchParams, num: string -> int,
                               textMatch: (string, Teacher) -> bool, dist: Teacher -> int, l: Listed)
    requires l in SearchIntended(store, p, num, textMatch, dist)
    ensures l.teacher in store && Admits(p, num, textMatch, l.teacher) && SlotAvailable(p, l.teacher)
  {
    var kept := Filter((t: Teacher) => SlotAvailable(p, t), store);
    assert l in multiset(Candidates(kept, p, num, textMatch, dist));
    CandidatesAdmitted(kept, p, num, textMatch, dist, l);
  }

  /** Without coordinates the intended search lists every admitted stored
      teacher with a covering slot. */
  lemma SearchIntendedComplete(store: seq<Teacher>, p: SearchParams, num: string -> int,
                               textMatch: (string, Teacher) -> bool, dist: Teacher -> int, t: Teacher)
    requires !Located(p)
    requires t in store && Admits(p, num, textMatch, t) && SlotAvailable(p, t)
    ensures Listed(t, None) in SearchIntended(store, p, num, textMatch, dist)
  {
    var kept := Filter((t: Teacher) => SlotAvailable(p, t), store);
    FilterKeeps((t: Teacher) => SlotAvailable(p, t), store, t);
    UnlocatedListsAllAdmitted(kept, p, num, textMatch, dist, t);
  }

  /** The final order: every promoted teacher precedes every other one, and
      each group keeps the order it had before (the stable partition). */
  lemma SearchPromotedFirst(store: seq<Teacher>, p: SearchParams, num: string -> int,
                            textMatch: (string, Teacher) -> bool, dist: Teacher -> int)
    ensures var c := Candidates(store, p, num, textMatch, dist);
            Search(store, p, num, textMatch, dist) == Filter(IsPromoted, c) + FilterNot(IsPromoted, c)
    ensures var r := Search(store, p, num, textMatch, dist);
            forall i, j :: 0 <= i < j < |r| && IsPromoted(r[j]) ==> IsPromoted(r[i])
  {
    var c := Candidates(store, p, num, textMatch, dist);
    BinarySortIsPartition(IsPromoted, c);
    PartitionOrdered(IsPromoted, c);
  }

  /** With coordinates, each promotion group is listed nearest first. */
  lemma SearchNearestFirstInGroups(store: seq<Teacher>, p: SearchParams, num: string -> int,
                                   textMatch: (string, Teacher) -> bool, dist: Teacher -> int)
    requires Located(p)
    ensures var c := Candidates(store, p, num, textMatch, dist);
            SortedBy(DistanceKey, Filter(IsPromoted, c)) && SortedBy(DistanceKey, FilterNot(IsPromoted, c))
  {
    var c := Candidates(store, p, num, textMatch, dist);
    CandidatesNearestFirst(store, p, num, textMatch, dist);
    PartitionKeepsSorted(DistanceKey, IsPromoted, c);
  }

  /** A route's status and message. */
  datatype Reply = Reply(status: int, message: string)

  /** The fields a profile update may never write (teachers.js:209-214). */
  const SensitiveFields: set<string> :=
    {"password", "email", "role", "rating", "totalReviews", "totalStudents"}

  /** The request body with the sensitive keys deleted. */
  function StripSensitive<V>(updates: map<string, V>): (r: map<string, V>)
    ensures forall k :: k in r ==> k !in SensitiveFields
    ensures forall k :: k in updates && k !in SensitiveFields ==> k in r && r[k] == updates[k]
    ensures forall k :: k in r ==> k in updates
  {
    updates - SensitiveFields
  }

  datatype ProfileUpdate<V> = ProfileUpdate(reply: Reply, profile: map<string, V>)

  /** A JSON request body used as a Mongoose update document: its plain
      top-level fields, and the fields under its `$set` operator. Mongoose
      writes both. */
  datatype UpdateBody<V> = UpdateBody(fields: map<string, V>, setFields: map<string, V>)

  /** `findByIdAndUpdate(id, body)`: the plain fields and the `$set` fields
      are written over the stored profile; no other field changes. */
  function ApplyUpdate<V>(profile: map<string, V>, body: UpdateBody<V>): (after: map<string, V>)
    ensures forall k :: k in after <==> k in profile || k in body.fields || k in body.setFields
    ensures forall k :: k in body.setFields ==> after[k] == body.setFields[k]
    ensures forall k :: k in body.fields && k !in body.setFields ==> after[k] == body.fields[k]
    ensures forall k :: k in profile && k !in body.fields && k !in body.setFields ==> after[k] == profile[k]
  {
    profile + body.fields + body.setFields
  }

  /** `PUT /api/teachers/profile` as written: 403 for a non-teacher;
      otherwise the body, with the six sensitive top-level keys deleted, is
      the update document. The `delete` statements never look inside `$set`. */
  function UpdateProfile<V>(role: string, profile: map<string, V>, body: UpdateBody<V>): (u: ProfileUpdate<V>)
    ensures role != "teacher" ==> u == ProfileUpdate(Reply(403, "Only teachers can update teacher profiles"), profile)
    ensures role == "teacher" ==> u.reply == Reply(200, "Profile updated successfully")
  {
    if role != "teacher" then ProfileUpdate(Reply(403, "Only teachers can update teacher profiles"), profile)
    else ProfileUpdate(Reply(200, "Profile updated successfully"),
                       ApplyUpdate(profile, body.(fields := StripSensitive(body.fields))))
  }

  /** As written: a sensitive field given at the top level keeps its old
      value, every other given field is written, and fields not given stay
      as they were. A field under `$set` is written whatever its name. */
  lemma UpdateProfileFields<V>(role: string, profile: map<string, V>, body: UpdateBody<V>, k: string)
    ensures var after := UpdateProfile(role, profile, body).profile;
      && (k in SensitiveFields && k !in body.setFields ==>
            (k in after <==> k in profile) && (k in profile ==> after[k] == profile[k]))
      && (role == "teacher" && k in body.setFields ==> k in after && after[k] == body.setFields[k])
      && (role == "teacher" && k in body.fields && k !in SensitiveFields && k !in body.setFields ==>
            k in after && after[k] == body.fields[k])
      && (k !in body.fields && k !in body.setFields ==>
            (k in after <==> k in profile) && (k in profile ==> after[k] == profile[k]))
  {
  }

  /** As written, a teacher raises their own rating with the body
      `{"$set": {"rating": v}}`. */
  lemma SetOperatorWritesRating<V>(profile: map<string, V>, v: V)
    ensures var after := UpdateProfile("teacher", profile, UpdateBody(map[], map["rating" := v])).profile;
            "rating" in after && after["rating"] == v
  {
    assert "rating" in SensitiveFields;
  }

  /** The evidently intended update: the sensitive keys and every update
      operator are dropped, so only plain non-sensitive fields are written. */
  function UpdateProfileIntended<V>(role: string, profile: map<string, V>, body: UpdateBody<V>): (u: ProfileUpdate<V>)
    ensures role != "teacher" ==> u == ProfileUpdate(Reply(403, "Only teachers can update teacher profiles"), profile)
    ensures role == "teacher" ==> u.reply == Reply(200, "Profile updated successfully")
  {
    UpdateProfile(role, profile, UpdateBody(body.fields, map[]))
  }

  /** With the intended strip a sensitive field never changes, whatever the
      body holds; every other plain field given is written; nothing else
      changes. */
  lemma UpdateProfileIntendedFields<V>(role: string, profile: map<string, V>, body: UpdateBody<V>, k: string)
    ensures var after := UpdateProfileIntended(role, profile, body).profile;
      && (k in SensitiveFields ==> (k in after <==> k in profile) && (k in profile ==> after[k] == profile[k]))
      && (role == "teacher" && k in body.fields && k !in SensitiveFields ==> k in after && after[k] == body.fields[k])
      && (k !in body.fields ==> (k in after <==> k in profile) && (k in profile ==> after[k] == profile[k]))
  {
    UpdateProfileFields(role, profile, UpdateBody(body.fields, map[]), k);
  }

  /** Stripping twice is stripping once. */
  lemma StripIdempotent<V>(updates: map<string, V>)
    ensures StripSensitive(StripSensitive(updates)) == StripSensitive(updates)
  {
  }

  /** The outcome of an upload route: the reply and, on success, the single
      profile field written and the public path written to it. */
  datatype UploadResult = UploadResult(reply: Reply, written: Option<(string, string)>)

  const PhotoPrefix: string := "/uploads/photos/"
  const VideoPrefix: string := "/uploads/videos/"

  /** `POST /api/teachers/upload-photo`; `file` is the stored file name, if any. */
  function UploadPhoto(role: string, file: Option<string>): (u: UploadResult)
    ensures role != "teacher" ==> u == UploadResult(Reply(403, "Only teachers can upload photos"), None)
    ensures role == "teacher" && file.None? ==> u == UploadResult(Reply(400, "Please upload a photo"), None)
    ensures u.written.Some? <==> u.reply.status == 200
    ensures u.written.Some? ==> (file.Some? && u.written.value == ("photo", PhotoPrefix + file.value))
  {
    if role != "teacher" then UploadResult(Reply(403, "Only teachers can upload photos"), None)
    else if file.None? then UploadResult(Reply(400, "Please upload a photo"), None)
    else UploadResult(Reply(200, "Photo uploaded successfully"), Some(("photo", PhotoPrefix + file.value)))
  }

  /** The field a video upload writes. */
  function VideoField(videoType: Option<string>): (f: string)
    ensures f == "videoIntro" <==> videoType == Some("intro")
    ensures f == "videoIntro" || f == "teachingVideo"
  {
    if videoType == Some("intro") then "videoIntro" else "teachingVideo"
  }

  /** `POST /api/teachers/upload-video`: `videoType` 'intro' writes the intro
      video, any other value (or none) the teaching video. */
  function UploadVideo(role: string, file: Option<string>, videoType: Option<string>): (u: UploadResult)
    ensures role != "teacher" ==> u == UploadResult(Reply(403, "Only teachers can upload videos"), None)
    ensures role == "teacher" && file.None? ==> u == UploadResult(Reply(400, "Please upload a video"), None)
    ensures u.written.Some? <==> u.reply.status == 200
    ensures u.written.Some? ==> (file.Some? && u.written.value == (VideoField(videoType), VideoPrefix + file.value))
  {
    if role != "teacher" then UploadResult(Reply(403, "Only teachers can upload videos"), None)
    else if file.None? then UploadResult(Reply(400, "Please upload a video"), None)
    else UploadResult(Reply(200, "Video uploaded successfully"), Some((VideoField(videoType), VideoPrefix + file.value)))
  }

  /** A successful upload happens exactly for a teacher who sent a file. */
  lemma UploadSucceedsIff(role: string, file: Option<string>, videoType: Option<string>)
    ensures UploadPhoto(role, file).reply.status == 200 <==> role == "teacher" && file.Some?
    ensures UploadVideo(role, file, videoType).reply.status == 200 <==> role == "teacher" && file.Some?
  {
  }
}

=== FILE: teacher_search.dfy ===
/** The teacher search page (frontend/src/pages/TeacherSearch.js): the filter
    state, the params object it sends, the removal of empty params, the
    "clear all" and "use my location" actions, and how a response becomes
    the result list.

    A params object is an insertion-ordered list of key/value pairs. The
    request goes out through `teachersAPI.search`, which is taken to send the
    object as the query string; a number is written there by the parameter
    `render`. The results are the server's result entries. */
module TeacherSearch {
  import opened Common
  import TeacherRoutes

  /** A value of the filter state: selects and the slider give strings, the
      default radius and detected coordinates are numbers. */
  datatype ParamValue = Str(s: string) | Num(n: int) | Null

  datatype Filters = Filters(
    subject: ParamValue, board: ParamValue, cls: ParamValue,
    minRate: ParamValue, maxRate: ParamValue, rating: ParamValue,
    lat: ParamValue, lng: ParamValue, radius: ParamValue)

  /** The initial filters, restored by "Clear All": every field empty and a
      radius of 10 km. */
  const DefaultFilters: Filters :=
    Filters(Str(""), Str(""), Str(""), Str(""), Str(""), Str(""), Str(""), Str(""), Num(10))

  /** `locationStatus`: '', 'detecting', 'detected' or 'error'. */
  datatype LocationStatus = NoLocation | Detecting | Detected | LocationError

  datatype Page = Page(
    filters: Filters, keyword: string, locationStatus: LocationStatus,
    teachers: seq<TeacherRoutes.Listed>, loading: bool)

  const InitialPage: Page := Page(DefaultFilters, "", NoLocation, [], true)

  /** The keys of the params object `{...filters, search: keyword}`. */
  datatype Key =
    | SubjectKey | BoardKey | ClassKey | MinRateKey | MaxRateKey | RatingKey
    | LatKey | LngKey | RadiusKey | SearchKey

  /** The name each key has in the params object and so in the query string. */
  function Name(k: Key): string {
    match k
    case SubjectKey => "subject"
    case BoardKey => "board"
    case ClassKey => "class"
    case MinRateKey => "minRate"
    case MaxRateKey => "maxRate"
    case RatingKey => "rating"
    case LatKey => "lat"
    case LngKey => "lng"
    case RadiusKey => "radius"
    case SearchKey => "search"
  }

  /** The key the page sends under query-string name `n`, if any. */
  function KeyNamed(n: string): (r: Option<Key>)
    ensures r.Some? ==> Name(r.value) == n
    ensures r.None? ==> forall k: Key :: Name(k) != n
  {
    if n == "subject" then Some(SubjectKey)
    else if n == "board" then Some(BoardKey)
    else if n == "class" then Some(ClassKey)
    else if n == "minRate" then Some(MinRateKey)
    else if n == "maxRate" then Some(MaxRateKey)
    else if n == "rating" then Some(RatingKey)
    else if n == "lat" then Some(LatKey)
    else if n == "lng" then Some(LngKey)
    else if n == "radius" then Some(RadiusKey)
    else if n == "search" then Some(SearchKey)
    else None
  }

  type Param = (Key, ParamValue)

  /** The page's value for `k`. */
  function FieldValue(f: Filters, keyword: string, k: Key): ParamValue {
    match k
    case SubjectKey => f.subject
    case BoardKey => f.board
    case ClassKey => f.cls
    case MinRateKey => f.minRate
    case MaxRateKey => f.maxRate
    case RatingKey => f.rating
    case LatKey => f.lat
    case LngKey => f.lng
    case RadiusKey => f.radius
    case SearchKey => Str(keyword)
  }

  /** The params object before cleaning: the nine filters spread in their
      declaration order, then the keyword as `search`. */
  function RawParams(f: Filters, keyword: string): (ps: seq<Param>)
    ensures |ps| == 10
    ensures forall i :: 0 <= i < 10 ==> ps[i] == (KeyAt(i), FieldValue(f, keyword, KeyAt(i)))
  {
    seq(10, i => (KeyAt(i), FieldValue(f, keyword, KeyAt(i))))
  }

  /** The params object holds every key with the page's value for it, and
      nothing else. */
  lemma RawParamsFields(f: Filters, keyword: string)
    ensures forall k: Key :: (k, FieldValue(f, keyword, k)) in RawParams(f, keyword)
    ensures forall e :: e in RawParams(f, keyword) ==> e.1 == FieldValue(f, keyword, e.0)
  {
    var ps := RawParams(f, keyword);
    forall k: Key ensures (k, FieldValue(f, keyword, k)) in ps {
      assert ps[KeyIndex(k)] == (k, FieldValue(f, keyword, k));
    }
  }

  /** The key at position `i` of the params object (the last one past it). */
  function KeyAt(i: int): Key {
    if i == 0 then SubjectKey
    else if i == 1 then BoardKey
    else if i == 2 then ClassKey
    else if i == 3 then MinRateKey
    else if i == 4 then MaxRateKey
    else if i == 5 then RatingKey
    else if i == 6 then LatKey
    else if i == 7 then LngKey
    else if i == 8 then RadiusKey
    else SearchKey
  }

  /** The place of `k` in the params object. */
  function KeyIndex(k: Key): (i: nat)
    ensures i < 10 && KeyAt(i) == k
  {
    match k
    case SubjectKey => 0
    case BoardKey => 1
    case ClassKey => 2
    case MinRateKey => 3
    case MaxRateKey => 4
    case RatingKey => 5
    case LatKey => 6
    case LngKey => 7
    case RadiusKey => 8
    case SearchKey => 9
  }

  /** A value the cleaning loop deletes: strictly equal to '' or to null. */
  predicate IsEmpty(v: ParamValue) {
    v == Str("") || v == Null
  }

  predicate Kept(p: Param) {
    !IsEmpty(p.1)
  }

  /** The cleaning loop: every entry whose value is '' or null is deleted,
      every other entry is kept with its value. */
  function Clean(ps: seq<Param>): (r: seq<Param>)
    ensures forall x :: x in r <==> x in ps && !IsEmpty(x.1)
  {
    FilterExactly(Kept, ps);
    Filter(Kept, ps)
  }

  /** Cleaning keeps the order of the entries it keeps. */
  lemma CleanKeepsOrder(ps: seq<Param>)
    ensures IsSubsequence(Clean(ps), ps)
  {
    FilterIsSubsequence(Kept, ps);
  }

  /** Cleaning a cleaned object changes nothing. */
  lemma {:induction false} CleanIdempotent(ps: seq<Param>)
    ensures Clean(Clean(ps)) == Clean(ps)
  {
    var r := Clean(ps);
    assert forall i :: 0 <= i < |r| ==> Kept(r[i]) by {
      forall i | 0 <= i < |r| ensures Kept(r[i]) {
        assert r[i] in r;
      }
    }
    FilterAll(Kept, r);
  }

  /** The value sent under `k`, if any: the first entry with that key. */
  function Lookup(ps: seq<Param>, k: Key): (v: Option<ParamValue>)
    ensures v.Some? <==> exists i :: 0 <= i < |ps| && ps[i].0 == k
    ensures v.Some? ==> (k, v.value) in ps
    decreases |ps|
  {
    if |ps| == 0 then None
    else if ps[0].0 == k then Some(ps[0].1)
    else
      var rest := Lookup(ps[1..], k);
      assert forall i :: 1 <= i < |ps| ==> ps[i] == ps[1..][i - 1];
      rest
  }

  /** What the cleaned params hold under `k`: the page's value unless it is ''
      or null. */
  function Sent(f: Filters, keyword: string, k: Key): Option<ParamValue> {
    var v := FieldValue(f, keyword, k);
    if IsEmpty(v) then None else Some(v)
  }

  /** Looking a key up in the cleaned params finds exactly what `Sent` says. */
  lemma LookupCleaned(f: Filters, keyword: string, k: Key)
    ensures Lookup(Clean(RawParams(f, keyword)), k) == Sent(f, keyword, k)
  {
    var raw := RawParams(f, keyword);
    var ps := Clean(raw);
    var v := FieldValue(f, keyword, k);
    RawParamsFields(f, keyword);
    assert (k, v) in raw;
    if !IsEmpty(v) {
      assert (k, v) in ps;
      var i :| 0 <= i < |ps| && ps[i] == (k, v);
      assert ps[i].0 == k;
    }
  }

  /** The keyword is sent as `search` exactly when it is not empty. */
  lemma SearchSentIffKeyword(f: Filters, keyword: string)
    ensures Lookup(Clean(RawParams(f, keyword)), SearchKey).Some? <==> keyword != ""
  {
    LookupCleaned(f, keyword, SearchKey);
  }

  /** A query-string value as the server reads it. */
  function AsQueryValue(v: Option<ParamValue>, render: int -> string): (r: Option<string>)
    ensures r.None? <==> v.None? || v == Some(Null)
    ensures v.Some? && v.value.Str? ==> r == Some(v.value.s)
    ensures v.Some? && v.value.Num? ==> r == Some(render(v.value.n))
  {
    match v
    case None => None
    case Some(Str(s)) => Some(s)
    case Some(Num(n)) => Some(render(n))
    case Some(Null) => None
  }

  /** The server's `req.query[n]` for the cleaned params `ps`, as written:
      the value of the page key whose name is `n`. */
  function ReadAsWritten(ps: seq<Param>, n: string, render: int -> string): Option<string> {
    match KeyNamed(n)
    case None => None
    case Some(k) => AsQueryValue(Lookup(ps, k), render)
  }

  /** Of the names the search route reads, only `subject`, `board`, `class`
      and `search` are names the page uses. */
  lemma ServerNamesAsWritten()
    ensures KeyNamed("subject") == Some(SubjectKey) && KeyNamed("board") == Some(BoardKey)
    ensures KeyNamed("class") == Some(ClassKey) && KeyNamed("search") == Some(SearchKey)
    ensures KeyNamed("latitude").None? && KeyNamed("longitude").None? && KeyNamed("minRating").None?
    ensures KeyNamed("minPrice").None? && KeyNamed("maxPrice").None? && KeyNamed("minExperience").None?
    ensures KeyNamed("examSpecialist").None? && KeyNamed("maxDistance").None?
    ensures KeyNamed("day").None? && KeyNamed("time").None?
  {
  }

  /** The `req.query` the server receives for the page as written: every key
      arrives under the page's own name, and the server reads its
      parameters under its own names. */
  function RequestAsWritten(p: Page, render: int -> string): (q: TeacherRoutes.SearchParams)
    ensures q.subject == AsQueryValue(Sent(p.filters, p.keyword, SubjectKey), render)
    ensures q.search.Some? <==> p.keyword != ""
  {
    var ps := Clean(RawParams(p.filters, p.keyword));
    ServerNamesAsWritten();
    LookupCleaned(p.filters, p.keyword, SubjectKey);
    LookupCleaned(p.filters, p.keyword, SearchKey);
    TeacherRoutes.SearchParams(
      ReadAsWritten(ps, "latitude", render), ReadAsWritten(ps, "longitude", render),
      ReadAsWritten(ps, "subject", render), ReadAsWritten(ps, "board", render),
      ReadAsWritten(ps, "class", render),
      ReadAsWritten(ps, "minRating", render),
      ReadAsWritten(ps, "minPrice", render), ReadAsWritten(ps, "maxPrice", render),
      ReadAsWritten(ps, "minExperience", render), ReadAsWritten(ps, "examSpecialist", render),
      ReadAsWritten(ps, "maxDistance", render),
      ReadAsWritten(ps, "day", render), ReadAsWritten(ps, "time", render),
      ReadAsWritten(ps, "search", render))
  }

  /** The page sends its rating, rate and location filters as `rating`,
      `minRate`, `maxRate`, `lat`, `lng` and `radius`, while the server
      reads `minRating`, `minPrice`, `maxPrice`, `latitude`, `longitude`
      and `maxDistance`: whatever the filters hold, the request as written
      carries none of those constraints. */
  lemma PageFiltersUnread(p: Page, render: int -> string)
    ensures var q := RequestAsWritten(p, render);
      && q.minRating.None? && q.minPrice.None? && q.maxPrice.None?
      && q.latitude.None? && q.longitude.None? && q.maxDistance.None?
  {
    ServerNamesAsWritten();
  }

  /** As written, two pages that agree on subject, board, class and keyword
      send the same request, so the slider, the rating, the radius and the
      detected location never change which teachers come back, nor their
      order. */
  lemma OnlyTextFiltersMatter(p: Page, p': Page, render: int -> string,
                              store: seq<TeacherRoutes.Teacher>, num: string -> int,
                              textMatch: (string, TeacherRoutes.Teacher) -> bool,
                              dist: TeacherRoutes.Teacher -> int)
    requires p'.keyword == p.keyword
    requires p'.filters.subject == p.filters.subject && p'.filters.board == p.filters.board
    requires p'.filters.cls == p.filters.cls
    ensures RequestAsWritten(p', render) == RequestAsWritten(p, render)
    ensures TeacherRoutes.Search(store, RequestAsWritten(p', render), num, textMatch, dist)
         == TeacherRoutes.Search(store, RequestAsWritten(p, render), num, textMatch, dist)
  {
    SameTextSameRequest(p, p', render);
  }

  /** Pages that agree on subject, board, class and keyword send the same
      request as written. */
  lemma SameTextSameRequest(p: Page, p': Page, render: int -> string)
    requires p'.keyword == p.keyword
    requires p'.filters.subject == p.filters.subject && p'.filters.board == p.filters.board
    requires p'.filters.cls == p.filters.cls
    ensures RequestAsWritten(p', render) == RequestAsWritten(p, render)
  {
    ServerNamesAsWritten();
    LookupCleaned(p.filters, p.keyword, SubjectKey);
    LookupCleaned(p'.filters, p'.keyword, SubjectKey);
    LookupCleaned(p.filters, p.keyword, SearchKey);
    LookupCleaned(p'.filters, p'.keyword, SearchKey);
    LookupCleaned(p.filters, p.keyword, BoardKey);
    LookupCleaned(p'.filters, p'.keyword, BoardKey);
    LookupCleaned(p.filters, p.keyword, ClassKey);
    LookupCleaned(p'.filters, p'.keyword, ClassKey);
  }

  /** The evidently intended request: each page filter arrives under the name
      the server reads for it. */
  function Request(p: Page, render: int -> string): (q: TeacherRoutes.SearchParams)
    ensures q.subject == AsQueryValue(Sent(p.filters, p.keyword, SubjectKey), render)
    ensures q.search.Some? <==> p.keyword != ""
    ensures q.maxPrice == AsQueryValue(Sent(p.filters, p.keyword, MaxRateKey), render)
    ensures q.minPrice == AsQueryValue(Sent(p.filters, p.keyword, MinRateKey), render)
    ensures q.minRating == AsQueryValue(Sent(p.filters, p.keyword, RatingKey), render)
    ensures q.latitude == AsQueryValue(Sent(p.filters, p.keyword, LatKey), render)
    ensures q.longitude == AsQueryValue(Sent(p.filters, p.keyword, LngKey), render)
    ensures q.maxDistance == AsQueryValue(Sent(p.filters, p.keyword, RadiusKey), render)
  {
    var f := p.filters;
    var ps := Clean(RawParams(f, p.keyword));
    LookupCleaned(f, p.keyword, SubjectKey);
    LookupCleaned(f, p.keyword, SearchKey);
    LookupCleaned(f, p.keyword, MaxRateKey);
    LookupCleaned(f, p.keyword, MinRateKey);
    LookupCleaned(f, p.keyword, RatingKey);
    LookupCleaned(f, p.keyword, LatKey);
    LookupCleaned(f, p.keyword, LngKey);
    LookupCleaned(f, p.keyword, RadiusKey);
    TeacherRoutes.SearchParams(
      AsQueryValue(Lookup(ps, LatKey), render), AsQueryValue(Lookup(ps, LngKey), render),
      AsQueryValue(Lookup(ps, SubjectKey), render), AsQueryValue(Lookup(ps, BoardKey), render),
      AsQueryValue(Lookup(ps, ClassKey), render),
      AsQueryValue(Lookup(ps, RatingKey), render),
      AsQueryValue(Lookup(ps, MinRateKey), render), AsQueryValue(Lookup(ps, MaxRateKey), render),
      None, None,
      AsQueryValue(Lookup(ps, RadiusKey), render),
      None, None,
      AsQueryValue(Lookup(ps, SearchKey), render))
  }

  /** With the intended request a chosen maximum rate bounds the monthly rate
      of every teacher the server admits. */
  lemma MaxRateBoundsResults(p: Page, render: int -> string, num: string -> int,
                             textMatch: (string, TeacherRoutes.Teacher) -> bool,
                             t: TeacherRoutes.Teacher, s: string)
    requires p.filters.maxRate == Str(s) && s != ""
    requires TeacherRoutes.Matches(TeacherRoutes.BuildQuery(Request(p, render), num), textMatch, t)
    ensures t.monthlyRate <= num(s)
  {
    TeacherRoutes.MatchesIffAdmits(Request(p, render), num, textMatch, t);
  }

  /** `clearFilters`: default filters, no keyword, no location status; the
      results shown stay until the next response. */
  function ClearFilters(p: Page): (r: Page)
    ensures r.filters == DefaultFilters && r.keyword == "" && r.locationStatus == NoLocation
    ensures r.teachers == p.teachers
  {
    p.(filters := DefaultFilters, keyword := "", locationStatus := NoLocation)
  }

  /** After "Clear All" the only param sent is the 10 km radius. */
  lemma ClearedSendsOnlyRadius(p: Page)
    ensures var r := ClearFilters(p);
      Clean(RawParams(r.filters, r.keyword)) == [(RadiusKey, Num(10))]
  {
    DefaultsSendOnlyRadius();
  }

  /** The default filters with no keyword clean down to the radius alone. */
  lemma DefaultsSendOnlyRadius()
    ensures Clean(RawParams(DefaultFilters, "")) == [(RadiusKey, Num(10))]
  {
    DefaultRawParams();
    DefaultParamsKept();
  }

  /** The params object of the default filters, written out. */
  const DefaultParams: seq<Param> :=
    [(SubjectKey, Str("")), (BoardKey, Str("")), (ClassKey, Str("")),
     (MinRateKey, Str("")), (MaxRateKey, Str("")), (RatingKey, Str("")),
     (LatKey, Str("")), (LngKey, Str("")), (RadiusKey, Num(10)), (SearchKey, Str(""))]

  lemma DefaultRawParams()
    ensures RawParams(DefaultFilters, "") == DefaultParams
  {
  }

  lemma DefaultParamsKept()
    ensures Filter(Kept, DefaultParams) == [(RadiusKey, Num(10))]
  {
    var blank := DefaultParams[..8];
    var tail := DefaultParams[8..];
    assert DefaultParams == blank + tail;
    assert Filter(Kept, blank) == [] by { FilterNone(Kept, blank); }
    assert Filter(Kept, tail) == [(RadiusKey, Num(10))] by {
      assert Filter(Kept, tail[1..]) == [];
    }
    FilterAppend(Kept, blank, tail);
  }

  /** The filter fields the sidebar inputs edit. */
  datatype FilterInput = SubjectInput | ClassInput | BoardInput | MaxRateInput

  /** The params key each sidebar input writes. */
  function InputKey(input: FilterInput): Key {
    match input
    case SubjectInput => SubjectKey
    case ClassInput => ClassKey
    case BoardInput => BoardKey
    case MaxRateInput => MaxRateKey
  }

  /** A select or the slider changed: `{...filters, <field>: value}`. The
      next request carries `value` under that input's key, or nothing when
      an "All …" option ('') was chosen, and every other key as before. */
  function ChangeFilter(f: Filters, input: FilterInput, value: string): (r: Filters)
    ensures Sent(r, "", InputKey(input)) == if value == "" then None else Some(Str(value))
    ensures forall k: Key :: k != InputKey(input) ==> FieldValue(r, "", k) == FieldValue(f, "", k)
  {
    match input
    case SubjectInput => f.(subject := Str(value))
    case ClassInput => f.(cls := Str(value))
    case BoardInput => f.(board := Str(value))
    case MaxRateInput => f.(maxRate := Str(value))
  }

  /** The geolocation outcome: the detected coordinates, or a failure. */
  datatype Position = Position(latitude: int, longitude: int)

  /** `handleLocation` once `getCurrentLocation` settles: a position sets
      `lat`/`lng` and nothing else in the filters; a failure changes no filter. */
  function HandleLocation(p: Page, outcome: Option<Position>): (r: Page)
    ensures r.keyword == p.keyword && r.teachers == p.teachers
    ensures outcome.None? ==> r.filters == p.filters && r.locationStatus == LocationError
    ensures outcome.Some? ==>
      && r.locationStatus == Detected
      && r.filters.lat == Num(outcome.value.latitude) && r.filters.lng == Num(outcome.value.longitude)
      && r.filters.(lat := p.filters.lat, lng := p.filters.lng) == p.filters
  {
    var detecting := p.(locationStatus := Detecting);
    match outcome
    case Some(pos) =>
      detecting.(filters := detecting.filters.(lat := Num(pos.latitude), lng := Num(pos.longitude)),
                 locationStatus := Detected)
    case None => detecting.(locationStatus := LocationError)
  }

  /** The `teachers` field of a response body. */
  datatype TeachersField = ArrayValue(items: seq<TeacherRoutes.Listed>) | OtherValue

  /** How `teachersAPI.search` settled. */
  datatype Response = RequestFailed | Responded(success: bool, teachers: TeachersField)

  /** The list `fetchTeachers` shows: the response's array when the body says
      success and holds an array, otherwise the empty list. */
  function Results(resp: Response): (ts: seq<TeacherRoutes.Listed>)
    ensures resp.Responded? && resp.success && resp.teachers.ArrayValue? ==> ts == resp.teachers.items
    ensures !(resp.Responded? && resp.success && resp.teachers.ArrayValue?) ==> ts == []
  {
    match resp
    case Responded(true, ArrayValue(items)) => items
    case _ => []
  }

  /** `fetchTeachers` after the request settles: the results replace the list
      and loading ends; filters, keyword and location status are untouched. */
  function Fetched(p: Page, resp: Response): (r: Page)
    ensures !r.loading
    ensures r.teachers == Results(resp)
    ensures r.filters == p.filters && r.keyword == p.keyword && r.locationStatus == p.locationStatus
  {
    p.(teachers := Results(resp), loading := false)
  }

  /** A failed request and a malformed body look the same: an empty list. */
  lemma FailuresShowNothing(p: Page, success: bool)
    ensures Fetched(p, RequestFailed).teachers == []
    ensures Fetched(p, Responded(success, OtherValue)).teachers == []
    ensures Fetched(p, RequestFailed) == Fetched(p, Responded(false, ArrayValue(p.teachers)))
  {
  }

  /** `filters.maxRate || 2000`: the value the slider and its label show. */
  function MaxRateShown(f: Filters): (v: ParamValue)
    ensures f.maxRate == Str("") || f.maxRate == Null || f.maxRate == Num(0) ==> v == Num(2000)
    ensures v != Num(2000) ==> v == f.maxRate
  {
    if f.maxRate == Str("") || f.maxRate == Null || f.maxRate == Num(0) then Num(2000) else f.maxRate
  }
}

=== FILE: text.dfy ===
/** String helpers with the behaviour of the JavaScript built-ins the source
    calls: `trim`, `toLowerCase` (ASCII letters only), `includes`, `split`,
    `Number.prototype.toString` on naturals and `padStart`. Strings are
    sequences of Unicode characters. */
module Text {

  /** The characters `String.prototype.trim` removes: the ECMAScript WhiteSpace
      and LineTerminator characters. */
  predicate IsSpace(c: char) {
    || c == '\t' || c == '\n' || c == '\U{B}' || c == '\U{C}' || c == '\r'
    || c == ' ' || c == '\U{A0}' || c == '\U{1680}'
    || ('\U{2000}' <= c <= '\U{200A}')
    || c == '\U{2028}' || c == '\U{2029}' || c == '\U{202F}' || c == '\U{205F}'
    || c == '\U{3000}' || c == '\U{FEFF}'
  }

  /** Every character of `s` is white space (this includes the empty string). */
  predicate IsBlank(s: string) {
    forall i :: 0 <= i < |s| ==> IsSpace(s[i])
  }

  /** `s` with its leading white space removed. */
  function TrimStart(s: string): (r: string)
    ensures |r| <= |s| && r == s[|s| - |r|..]
    ensures |r| > 0 ==> !IsSpace(r[0])
    ensures IsBlank(s[..|s| - |r|])
    decreases |s|
  {
    if |s| > 0 && IsSpace(s[0]) then
      var r := TrimStart(s[1..]);
      assert s[1..][..|s[1..]| - |r|] == s[1..|s| - |r|];
      r
    else s
  }

  /** `s` with its trailing white space removed. */
  function TrimEnd(s: string): (r: string)
    ensures |r| <= |s| && r == s[..|r|]
    ensures |r| > 0 ==> !IsSpace(r[|r| - 1])
    ensures IsBlank(s[|r|..])
    decreases |s|
  {
    if |s| > 0 && IsSpace(s[|s| - 1]) then
      var r := TrimEnd(s[..|s| - 1]);
      assert s[..|s| - 1][|r|..] == s[|r|..|s| - 1];
      r
    else s
  }

  /** `s.trim()`: a contiguous slice of `s` that neither starts nor ends with
      white space, and outside which `s` holds only white space. */
  function Trim(s: string): (r: string)
    ensures exists i, j :: 0 <= i <= j <= |s| && r == s[i..j] && IsBlank(s[..i]) && IsBlank(s[j..])
    ensures |r| > 0 ==> !IsSpace(r[0]) && !IsSpace(r[|r| - 1])
  {
    var t := TrimStart(s);
    var r := TrimEnd(t);
    var i := |s| - |t|;
    assert t == s[i..];
    assert r == s[i..i + |r|];
    assert s[i + |r|..] == t[|r|..];
    assert IsBlank(s[..i]) && IsBlank(s[i + |r|..]);
    r
  }

  /** A string trims to the empty string exactly when it is blank, which is
      when `!s.trim()` holds in the source. */
  lemma TrimEmptyIffBlank(s: string)
    ensures Trim(s) == "" <==> IsBlank(s)
  {
    var r := Trim(s);
    var i, j :| 0 <= i <= j <= |s| && r == s[i..j] && IsBlank(s[..i]) && IsBlank(s[j..]);
    if r == "" {
      forall k | 0 <= k < |s| ensures IsSpace(s[k]) {
        if k < i { assert s[k] == s[..i][k]; } else { assert s[k] == s[j..][k - j]; }
      }
    } else {
      assert s[i] == r[0];
    }
  }

  /** Trimming never introduces a character. */
  lemma TrimKeepsAbsent(s: string, c: char)
    requires c !in s
    ensures c !in Trim(s)
  {
    var r := Trim(s);
    var i, j :| 0 <= i <= j <= |s| && r == s[i..j] && IsBlank(s[..i]) && IsBlank(s[j..]);
    forall k | 0 <= k < |r| ensures r[k] != c {
      assert r[k] == s[i + k];
    }
  }

  /** ASCII `toLowerCase` of one character. */
  function LowerChar(c: char): (d: char)
    ensures 'A' <= c <= 'Z' ==> 'a' <= d <= 'z'
    ensures !('A' <= c <= 'Z') ==> d == c
  {
    if 'A' <= c <= 'Z' then (c as int - 'A' as int + 'a' as int) as char else c
  }

  /** `s.toLowerCase()`, restricted to ASCII letters. */
  function Lower(s: string): (r: string)
    ensures |r| == |s|
    ensures forall i :: 0 <= i < |s| ==> r[i] == LowerChar(s[i])
    decreases |s|
  {
    if |s| == 0 then "" else [LowerChar(s[0])] + Lower(s[1..])
  }

  /** `s.includes(t)`: `t` occurs in `s` as a contiguous block. */
  predicate Includes(s: string, t: string)
    decreases |s|
  {
    (|t| <= |s| && s[..|t|] == t) || (|s| > 0 && Includes(s[1..], t))
  }

  /** `t` occurs in `s` starting at position `i`. */
  predicate OccursAt(s: string, t: string, i: int) {
    0 <= i && i + |t| <= |s| && s[i..i + |t|] == t
  }

  /** `Includes` agrees with the positional definition of a substring. */
  lemma {:induction false} IncludesIffOccurs(s: string, t: string)
    ensures Includes(s, t) <==> exists i :: OccursAt(s, t, i)
    decreases |s|
  {
    if |s| > 0 {
      IncludesIffOccurs(s[1..], t);
      if exists i :: OccursAt(s, t, i) {
        var i :| OccursAt(s, t, i);
        if i > 0 {
          assert OccursAt(s[1..], t, i - 1);
        }
      }
      if Includes(s[1..], t) && !(|t| <= |s| && s[..|t|] == t) {
        var i :| OccursAt(s[1..], t, i);
        assert OccursAt(s, t, i + 1);
      }
      if |t| <= |s| && s[..|t|] == t {
        assert OccursAt(s, t, 0);
      }
    } else {
      if exists i :: OccursAt(s, t, i) {
        var i :| OccursAt(s, t, i);
        assert |t| == 0 && s[..|t|] == t;
      }
      if Includes(s, t) {
        assert OccursAt(s, t, 0);
      }
    }
  }

  /** Every string includes the empty string. */
  lemma IncludesEmpty(s: string)
    ensures Includes(s, "")
  {
    assert s[..0] == "";
  }

  /** `s.split(sep)` for a one-character separator: the maximal pieces between
      occurrences of `sep`, always at least one piece. */
  function Split(s: string, sep: char): (r: seq<string>)
    ensures |r| >= 1
    ensures forall k :: 0 <= k < |r| ==> sep !in r[k]
    decreases |s|
  {
    if |s| == 0 then [""]
    else if s[0] == sep then [""] + Split(s[1..], sep)
    else
      var rest := Split(s[1..], sep);
      [[s[0]] + rest[0]] + rest[1..]
  }

  /** `parts.join(sep)`. */
  function Join(parts: seq<string>, sep: char): string
    requires |parts| >= 1
    decreases |parts|
  {
    if |parts| == 1 then parts[0] else parts[0] + [sep] + Join(parts[1..], sep)
  }

  /** The number of occurrences of `c` in `s`. */
  function Occurrences(s: string, c: char): nat
    decreases |s|
  {
    if |s| == 0 then 0 else (if s[0] == c then 1 else 0) + Occurrences(s[1..], c)
  }

  /** Splitting and joining on the same separator restore the string. */
  lemma {:induction false} JoinSplit(s: string, sep: char)
    ensures Join(Split(s, sep), sep) == s
    decreases |s|
  {
    if |s| > 0 {
      JoinSplit(s[1..], sep);
      var rest := Split(s[1..], sep);
      if s[0] != sep {
        var r := Split(s, sep);
        assert r[0] == [s[0]] + rest[0] && r[1..] == rest[1..];
        if |rest| > 1 {
          assert Join(rest, sep) == rest[0] + [sep] + Join(rest[1..], sep);
        }
      } else {
        assert Split(s, sep)[1..] == rest;
      }
    }
  }

  /** Splitting on `sep` yields one more piece than there are separators. */
  lemma {:induction false} SplitCount(s: string, sep: char)
    ensures |Split(s, sep)| == Occurrences(s, sep) + 1
    decreases |s|
  {
    if |s| > 0 {
      SplitCount(s[1..], sep);
    }
  }

  /** The decimal digit for `d`. */
  function DigitChar(d: nat): (c: char)
    requires d < 10
    ensures '0' <= c <= '9'
  {
    ('0' as int + d) as char
  }

  predicate IsDigits(s: string) {
    forall i :: 0 <= i < |s| ==> '0' <= s[i] <= '9'
  }

  /** `n.toString()` for a natural number: its decimal digits, no leading zero. */
  function NatToString(n: nat): (r: string)
    ensures |r| >= 1 && IsDigits(r)
    ensures n < 10 <==> |r| == 1
    ensures |r| > 1 ==> r[0] != '0'
    decreases n
  {
    if n < 10 then [DigitChar(n)] else NatToString(n / 10) + [DigitChar(n % 10)]
  }

  /** The value of a string of decimal digits. */
  function ParseDigits(s: string): nat
    requires IsDigits(s)
    decreases |s|
  {
    if |s| == 0 then 0
    else ParseDigits(s[..|s| - 1]) * 10 + (s[|s| - 1] as int - '0' as int)
  }

  /** Printing a natural number in decimal and reading it back is the identity. */
  lemma {:induction false} ParsePrint(n: nat)
    ensures ParseDigits(NatToString(n)) == n
    decreases n
  {
    if n >= 10 {
      ParsePrint(n / 10);
      var s := NatToString(n);
      assert s[..|s| - 1] == NatToString(n / 10);
    }
  }

  /** Leading zeros do not change the value of a digit string. */
  lemma {:induction false} ParseLeadingZero(s: string)
    requires IsDigits(s)
    ensures IsDigits(['0'] + s) && ParseDigits(['0'] + s) == ParseDigits(s)
    decreases |s|
  {
    if |s| > 0 {
      ParseLeadingZero(s[..|s| - 1]);
      assert (['0'] + s)[..|s|] == ['0'] + s[..|s| - 1];
    }
  }

  /** `s.padStart(width, fill)`. */
  function PadStart(s: string, width: nat, fill: char): (r: string)
    ensures |r| == if |s| >= width then |s| else width
    decreases width - |s|
  {
    if |s| >= width then s else PadStart([fill] + s, width, fill)
  }

  /** Padding only adds fill characters in front of the string. */
  lemma {:induction false} PadStartShape(s: string, width: nat, fill: char)
    ensures var r := PadStart(s, width, fill);
            r[|r| - |s|..] == s && forall i :: 0 <= i < |r| - |s| ==> r[i] == fill
    decreases width - |s|
  {
    if |s| < width {
      PadStartShape([fill] + s, width, fill);
    }
  }

  /** Padding a digit string with zeros keeps its value. */
  lemma {:induction false} PadStartZeroValue(s: string, width: nat)
    requires IsDigits(s)
    ensures IsDigits(PadStart(s, width, '0'))
    ensures ParseDigits(PadStart(s, width, '0')) == ParseDigits(s)
    decreases width - |s|
  {
    if |s| < width {
      ParseLeadingZero(s);
      PadStartZeroValue(['0'] + s, width);
    }
  }

  /** Lexicographic order on strings, character by character (how clock
      times such as "09:30" are compared). */
  predicate LexLe(a: string, b: string)
    decreases |a|
  {
    |a| == 0 || (|b| > 0 && (a[0] < b[0] || (a[0] == b[0] && LexLe(a[1..], b[1..]))))
  }
}
